=== FILE: README.md ===
# TypeTransfer code generation, modelled in Dafny

TypeTransferCli reads a compiled .NET assembly by reflection and writes
JavaScript modules for the types the front end needs.

- **Roots.** Every visible, concrete, non-generic type with members whose
  namespace contains `.ViewModels` becomes a root. The roots are unwrapped
  first: an array becomes its element type, a `Task<T>` becomes `T`, and a
  collection becomes its element type.
- **Modules.** The generator follows the public properties of each root to
  the classes they mention, and writes one module per class, interface or
  enum under `TypeModules`. Each class module holds a documented class whose
  constructor initialises every property.
- **Enums.** All enums of `.Enums` namespaces go into one shared
  `Enums\EnumType.js` file. Each entry's description is taken from a mapping, the
  `DisplayName`/`Display(Name)` attributes, or the XML documentation of the
  field.
- **Documentation.** The XML documentation of types and members is found by
  id in the assembly's `.xml` file. Each assembly's file is loaded at most
  once per run.

The model covers the generation core in `TypeTransferExtension.cs` and the
pure part of `DocumentationExtensions.cs`.

- **Host types.** Reflection types are a datatype `HostType` (module
  `HostTypes`). It covers:
  - the built-in types of the conversion table;
  - declared classes, interfaces, structs and enums;
  - arrays;
  - constructed generics over a `GenericDef`.

  A `Universe` maps each declared type to its properties and each enum to
  its entries.
- **Text.** The .NET string operations the generator uses are stated over
  `seq<char>` in `Text`. They are `Trim`, `Contains`, `Replace`,
  `Split('.').Last()`, `Join` and decimal integer printing.
- **Modules.** One module per stage of the generator:
  - `TypeSelector`: root selection;
  - `TypeMapper`: the type-to-JavaScript mapping and initial values;
  - `FileNames`: file names and paths;
  - `NestedTypes`: the nested-type walk;
  - `JsEmitter`: the class, enum and module text;
  - `Generator`: the whole `Generate` run;
  - `Documentation`: XML documentation ids, lookup and the per-assembly
    cache.
- **Output.** The run's effect on the output folder is a value: the files
  written, the path-to-relative-path dictionary and the number of writes.
- **The nested-type walk.** Its reachability facts are stated once over any
  successor function in `Graphs`.

The walk is modelled twice:
- `AsWritten` follows the source, including its handling of array-typed
  properties;
- `ElementAware` is the corrected walk described under Findings.

`Generator.Generate` takes the walk as a parameter. Every lemma about the
run holds for both walks.

The specification and the code disagree in two places. The model follows
the code:
- For a nullable element type, the suffix `|null` overrides `[]`
  (`TypeTransferExtension.cs:342-344`).
- Only the constructed `IDictionary<,>` is written as an inline index
  signature. A `Dictionary<,>` property keeps its generic name
  (`TypeTransferExtension.cs:302`).

## Model

| member | source | states |
|---|---|---|
| TypeSelector.ReplaceByGenericArgument | TypeTransferExtension.cs:167-196 | A non-generic, non-array type is kept and marked final. An array is replaced by its element. A constructed generic is marked final exactly when it unwraps: it is a `Task<A>` or an enumerable of its first argument `A`, and so is every constructed `A` inside it, down to a non-constructed type. The result is then that innermost type. A type that is not final is a constructed generic that is neither a task nor an enumerable of its first argument. |
| TypeSelector.UnwrapsThrough | TypeTransferExtension.cs:181-192 | A task or enumerable around a constructed argument unwraps exactly when the argument does, and to the same type. |
| TypeSelector.ReplaceByGenericArgumentExamples | TypeTransferExtension.cs:172-192 | `Task<List<Foo>>` unwraps to `Foo`. A generic that enumerates no argument, such as a dictionary, is returned unchanged and marked not final. |
| TypeSelector.SelectTypes | TypeTransferExtension.cs:197-219 | The selected types are free of duplicates (`Distinct`). |
| TypeSelector.UnwrappedIsCandidates | TypeTransferExtension.cs:197-207 | After unwrapping and the primitive and exclusion filters, but before `Distinct`, a type is listed exactly when it is declared in the assembly and passes the filter. The filter is: not abstract, visible, not generic, has properties or fields, and the namespace contains the marker. |
| TypeSelector.SelectTypesCharacterized | TypeTransferExtension.cs:197-219 | The same characterisation holds after de-duplication, so no candidate is lost and nothing else is added. |
| TypeMapper.TableKeywordsHaveDefaults | TypeTransferExtension.cs:21-52 | Every type in the conversion table maps to a keyword that has an initial value in the default-value table. |
| TypeMapper.ArrayOrEnumerableElement | TypeTransferExtension.cs:265-281 | An element is found exactly for arrays and for constructed generics whose first argument is enumerated. The element is the array's element or an enumerated argument, and it is strictly smaller than the type. |
| TypeMapper.NullableInner | TypeTransferExtension.cs:282-294 | An inner type is found exactly for a `Nullable<T>` over a value type, and it is that `T`. The one input on which the lookup throws is covered by `TypeMapper.NullableProbe`. |
| TypeMapper.NullableProbe | TypeTransferExtension.cs:282-294 | The lookup throws exactly when the first type argument is itself a `Nullable<X>`, since `Nullable<Nullable<X>>` cannot be built. Otherwise it returns what `NullableInner` returns. |
| TypeMapper.NullableProbeExamples | TypeTransferExtension.cs:284-293 | `int?` gives `int`. `List<int?>` and `Dictionary<int?, string>` throw. `List<int>` gives nothing. |
| TypeMapper.NullableIsNotEnumerable | TypeTransferExtension.cs:265-294 | A nullable type is never also treated as a collection. |
| TypeMapper.ElementType | TypeTransferExtension.cs:329-332 | The element type is the type or a part of it. For a nullable it is the wrapped type; otherwise, for an array or collection, it is the element. |
| TypeMapper.Suffix | TypeTransferExtension.cs:330-344 | The suffix is one of `""`, `[]` or `\|null`. It is `\|null` exactly for nullables, and `[]` exactly for non-nullable arrays and collections. |
| TypeMapper.SuffixEmptyIffUnwrapped | TypeTransferExtension.cs:329-344 | The suffix is empty exactly when the element type is the type itself. |
| TypeMapper.ConvertTypeCases | TypeTransferExtension.cs:295-309 | When the type's name is no keyword and does not start with `{`, a type maps to a JavaScript keyword exactly when it is in the conversion table. The result starts with the dictionary prefix exactly for an `IDictionary<,>` outside the table. Any other type maps to its own name. |
| TypeMapper.OnlyIDictionaryIsInlined | TypeTransferExtension.cs:302-308 | `IDictionary<string,int>` becomes `{ [key: string]: number }`, while `Dictionary<string,int>` keeps the name ``Dictionary`2``. |
| TypeMapper.AdjustFunc | TypeTransferExtension.cs:337-340 | A name containing `Func` loses every backquote and nothing else, as defined character by character by `Text.Without`. Any other name is unchanged. |
| Text.Without | TypeTransferExtension.cs:339 | Deleting a character leaves none of it, and leaves a string without it unchanged. |
| Text.WithoutCounts | TypeTransferExtension.cs:339 | Deleting a character keeps every other character as often as it occurred. |
| Text.ReplaceAllDeletesChar | TypeTransferExtension.cs:339 | `Replace` of a one-character string by the empty string is exactly the character-by-character deletion. |
| TypeMapper.InitializerByKind | TypeTransferExtension.cs:346-367 | The initial value is `[]` for arrays and collections. Otherwise it is the table default for a table type, `new Object()` for an inline dictionary, and `new Name()` for any other class, provided its adjusted name is no registered default and does not contain `{ [key:`. A class named like a keyword, such as `number`, gets that keyword's default instead, because the default table is consulted first. |
| TypeMapper.DictionaryMapped | TypeTransferExtension.cs:358-361 | An inline dictionary's mapped name has no table default and contains the dictionary marker, so the `new Object()` branch is taken. |
| TypeMapper.TableMapped | TypeTransferExtension.cs:336-357 | A table type's mapped name is its keyword, unchanged by the `Func` adjustment. |
| FileNames.FileNameOf | TypeTransferExtension.cs:222-223 | The file name is the last dot-separated segment of the full name, with each `+` replaced by `_`. It contains neither `.` nor `+`. |
| FileNames.NamespaceFolder | TypeTransferExtension.cs:224 | A missing namespace gives the fixed fallback folder. Otherwise each `.` of the namespace becomes a folder separator, and every other character stays in place. |
| FileNames.RelativePath | TypeTransferExtension.cs:224 | The relative path ends with `fileName.extension`. |
| FileNames.TransferTypeToFileName | TypeTransferExtension.cs:220-225 | The file name is `FileNameOf` the type's full name, and the path ends with `fileName.extension`. |
| FileNames.LastSegmentOf | TypeTransferExtension.cs:222 | The last segment after a `.` is the segment itself. |
| FileNames.FileNameHasNoBackslash | TypeTransferExtension.cs:222-223 | A file name contains a backslash only when the full name does. |
| FileNames.NestedTypeFileName | TypeTransferExtension.cs:222-223 | The nested type `Ns.Outer+Inner` is written to the file `Outer_Inner`. |
| FileNames.RelativePathLayout | TypeTransferExtension.cs:224 | Without a `Template\` folder, the relative path is exactly `folder\fileName.extension`. |
| FileNames.NoNamespaceFolder | TypeTransferExtension.cs:224 | A type without a namespace goes under the fallback folder. |
| FileNames.GroupingFolderDropped | TypeTransferExtension.cs:224 | A `Template\` folder in the middle of the path is removed. |
| FileNames.GroupingRemovalMatchesText | TypeTransferExtension.cs:224 | A namespace ending in `Template` loses the `Template\` folder, including the separator before the file name. |
| FileNames.Combine | TypeTransferExtension.cs:76 | `Path.Combine` returns the second path when it is rooted or the first is empty, and the first path when the second is empty. Otherwise the result starts with the first path and ends with the second, with at most one separator added between them. |
| FileNames.CombineInjective | TypeTransferExtension.cs:123 | Under one folder, different relative paths give different full paths. |
| NestedTypes.PropertiesChildrenCharacterized | TypeTransferExtension.cs:234-252 | The walk steps from a class to the type arguments of each non-table generic property type, and to each other non-table property type. Nothing else is a step. |
| NestedTypes.KnownIsClosed | TypeTransferExtension.cs:226-264 | The types a root mentions form a finite set closed under the walk's steps, so the walk terminates. |
| NestedTypes.Nested | TypeTransferExtension.cs:226-253 | The visited list only grows, includes the type, and includes every type returned. |
| NestedTypes.VisitAll | TypeTransferExtension.cs:234-252 | Visiting the children only grows the visited list and stays within the known types. |
| NestedTypes.AllNestedTypes | TypeTransferExtension.cs:254-263 | The result has no duplicates and holds only classes outside the conversion table. A kept root comes first. |
| NestedTypes.KeepFilter | TypeTransferExtension.cs:254-261 | The final filter keeps exactly the non-table classes and keeps a kept head in front. |
| NestedTypes.NestedSound | TypeTransferExtension.cs:228-252 | Every type newly visited from a type is reachable from it by property steps. |
| NestedTypes.VisitAllSound | TypeTransferExtension.cs:240-251 | Every type newly visited from a list of children is reachable from one of them. |
| NestedTypes.NestedComplete | TypeTransferExtension.cs:228-252 | The newly visited types are closed under steps: every child of a newly visited type is visited too. |
| NestedTypes.VisitAllComplete | TypeTransferExtension.cs:240-251 | The same closure holds for the types visited from a list of children. |
| NestedTypes.VisitAllCovers | TypeTransferExtension.cs:240-251 | Every child in the list ends up visited, whether it was skipped as already present or walked. |
| NestedTypes.ClosureIsReachableSet | TypeTransferExtension.cs:226-253 | The visited list is exactly the set of types reachable from the root. |
| NestedTypes.AllNestedTypesCharacterized | TypeTransferExtension.cs:226-264 | A type is returned exactly when it is reachable from the root and is a class outside the conversion table. |
| NestedTypes.CycleVisitsEachOnce | TypeTransferExtension.cs:229-251 | Two classes that refer to each other give the closure `[A, B]`: the walk stops at the cycle and lists each class once. |
| NestedTypes.ClosureOfTwo | TypeTransferExtension.cs:226-264 | When a class's only steps lead to itself or to one other class, and that class's steps lead back to the pair, the closure is exactly the two. |
| NestedTypes.ArrayPropertyAsWritten | TypeTransferExtension.cs:236-251 | For a property of type `B[]`, the closure holds the array type `B[]` and not the class `B`. |
| NestedTypes.ArrayPropertyElementAware | TypeTransferExtension.cs:236-251 | With array properties followed to their element, the same example gives the closure `[A, B]`. |
| NestedTypes.ElementAwareHasNoArrays | TypeTransferExtension.cs:236-251 | With array properties followed to their element, no array type other than the root enters the closure. |
| NestedTypes.ElementAwareReachesArrayElements | TypeTransferExtension.cs:236-251 | With array properties followed to their element, the element of an array property of a visited class is in the closure when it is a non-generic class outside the table. A generic element such as `List<B>` is not itself added; the walk goes on to its arguments. |
| JsEmitter.SummaryLines | TypeTransferExtension.cs:316-320 | A documentation line is written exactly when the summary is not blank, and it holds the trimmed summary. |
| JsEmitter.PublicProperties | TypeTransferExtension.cs:326 | Exactly the properties with a public getter are emitted. |
| JsEmitter.ClassDeclaresPublicProperties | TypeTransferExtension.cs:310-389 | The class text declares exactly the public properties as fields, in reflection order. |
| JsEmitter.PropertyLinesDeclare | TypeTransferExtension.cs:370-380 | One property's documented block declares exactly that property. |
| JsEmitter.ClassHeadDeclaresNothing | TypeTransferExtension.cs:314-324 | The class comment and the class line declare no field. |
| JsEmitter.ConstructorRoundTrip | TypeTransferExtension.cs:345-368 | The constructor body reads back as one (property, initial value) pair per public property, in order. |
| JsEmitter.InitLineParses | TypeTransferExtension.cs:346-366 | A property's initialiser line reads back as its name and its initial value. |
| JsEmitter.ErrorLineParses | TypeTransferExtension.cs:367 | A property's error-slot line reads back as its name. |
| JsEmitter.ClassConstructorBlock | TypeTransferExtension.cs:383-388 | A class ends with a constructor that initialises every public property, followed by the closing braces. |
| JsEmitter.FirstNonBlank | TypeTransferExtension.cs:411-421 | The choice is the first non-blank candidate, or empty when every candidate is blank. |
| JsEmitter.EnumDescriptionIsFirstNonBlank | TypeTransferExtension.cs:409-422 | An enum entry's description is the first non-blank of these, in order: the mapped description, the trimmed `DisplayName`, the trimmed `Display(Name)`, and the trimmed field summary. |
| JsEmitter.EntryRoundTrip | TypeTransferExtension.cs:406-426 | An entry block reads back as the entry's name, description and value. The value is printed so that it parses back to itself. |
| JsEmitter.EnumEntriesRoundTrip | TypeTransferExtension.cs:390-429 | The enum body reads back as all entries in order, with their descriptions. |
| JsEmitter.Described | TypeTransferExtension.cs:405-428 | One (name, description, value) triple per entry, in entry order. |
| JsEmitter.ModuleBody | TypeTransferExtension.cs:430-451 | A body exists exactly for enums, and for classes and interfaces none of whose public properties has a nullable as its first type argument. A class or interface with such a property fails with a constraint violation naming the type. Any other type fails as not convertible, naming the type. |
| JsEmitter.ConvertCsToJs | TypeTransferExtension.cs:430-458 | Conversion succeeds exactly for enums, and for classes and interfaces without a property whose first type argument is a nullable. It then returns the type's file path, and the text starts with the generated header and ends with the export of the file name. A failure names the type and says which of the two throws happened. |
| JsEmitter.NullableElementPropertyRejected | TypeTransferExtension.cs:326-331 | A class with a public `List<int?>` property fails to convert with a constraint violation. |
| JsEmitter.NullablePropertiesAccepted | TypeTransferExtension.cs:326-331 | A class whose properties are all `int?` converts. |
| JsEmitter.ConvertEnum2Js | TypeTransferExtension.cs:459-478 | Enum conversion succeeds exactly for enums. The block ends with an export of the enum's simple name. |
| Generator.TypesToEmit | TypeTransferExtension.cs:83-90 | The types to emit have no duplicates. |
| Generator.NestedOfAllCharacterized | TypeTransferExtension.cs:84-88 | A type is in the gathered closures exactly when it is in the closure of some root. |
| Generator.TypesToEmitCharacterized | TypeTransferExtension.cs:83-90 | A type is emitted exactly when it is a root or in the closure of a root. |
| Generator.ConversionsSound | TypeTransferExtension.cs:122 | The module emitter succeeds exactly on enums and on classes and interfaces without a property over a nullable, and otherwise fails with the error that names the type. The enum emitter succeeds exactly on enums. |
| Generator.ModuleOf | TypeTransferExtension.cs:122-123 | A converted module is placed at the folder combined with its relative path. A failure is passed on unchanged. |
| Generator.UntilFailure | TypeTransferExtension.cs:120-134 | The successes before the first failure are kept in order, with that failure if there is one. |
| Generator.ConvertModules | TypeTransferExtension.cs:120-123 | Types are converted in order up to the first one that throws, and that exception is reported. |
| Generator.Publish | TypeTransferExtension.cs:120-134 | The write loop writes one file per distinct path. The folder and the dictionary hold the same paths. |
| Generator.PublishFirstWriterWins | TypeTransferExtension.cs:129-133 | When two modules share a path, the first is the one written and recorded. |
| Generator.EnumBlocks | TypeTransferExtension.cs:150-156 | The enum blocks all succeed exactly when every block converts. |
| Generator.WriteEnumFile | TypeTransferExtension.cs:157-159 | The enumeration file is always written, and its path is recorded only if new (`TryAdd`). Nothing else changes. |
| Generator.TypescriptWritesNothing | TypeTransferExtension.cs:116 | A Typescript run writes nothing. |
| Generator.ConvertModulesAllIff | TypeTransferExtension.cs:120-123 | Every module converts exactly when every type is an enum, or a class or interface without a property whose first type argument is a nullable. |
| Generator.EnumBlocksAllIff | TypeTransferExtension.cs:150-156 | Every enum block converts exactly when every listed type is an enum. |
| Generator.RunCompletesIff | TypeTransferExtension.cs:116-162 | A run completes exactly when all modules and all enum blocks convert. |
| Generator.GenerateIsRun | TypeTransferExtension.cs:71-165 | A JavaScript run writes under `TypeModules` the roots and their closures, then the enumeration file of the `.Enums` types. |
| Generator.GenerateCompletesIff | TypeTransferExtension.cs:71-165 | Generation completes exactly when every emitted type is an enum, or a class or interface without a property whose first type argument is a nullable, and every `.Enums` type is an enum. |
| Generator.ModulePaths | TypeTransferExtension.cs:122-123 | Each module's path is its type's path under the folder, and the module paths are exactly those of the types. |
| Generator.RunCompletedShape | TypeTransferExtension.cs:120-159 | A completed run is the write loop over all modules followed by the enumeration file. |
| Generator.RunOutput | TypeTransferExtension.cs:120-159 | After a completed run the folder holds one file per distinct module path plus the enumeration file. That file holds the header and all enum blocks. There was one write per distinct path, plus one. |
| Generator.WrittenEnumFile | TypeTransferExtension.cs:157-159 | Writing the enumeration file adds its path to both maps and one write. |
| Generator.PublishedModule | TypeTransferExtension.cs:129-133 | The first module written to a path is the one the folder and the dictionary keep. |
| Generator.RunOutputModule | TypeTransferExtension.cs:120-159 | After a completed run, each type's path holds its module, unless an earlier type or the enumeration file took the path. A class whose path is the enumeration file's path is overwritten by that file. |
| Generator.RunAbortedKeepsEarlierModules | TypeTransferExtension.cs:120-134 | When a conversion throws, the modules converted before it have already been written, and no later one is. |
| Generator.FirstFailure | TypeTransferExtension.cs:150-156 | A failed enum file reports the error of the first enum that fails. |
| Documentation.KindPrefixes | DocumentationExtensions.cs:34-36 | The id prefix of each member kind is its first letter: `P`, `F`, `M`, `E`, `T`, `N` and `C`. |
| Documentation.DocId | DocumentationExtensions.cs:87 | An id starts with the kind prefix, then a colon, then the type's full name. |
| Documentation.DocIdBlankDiffers | DocumentationExtensions.cs:87 | An id with a blank name differs from every id with a non-blank name. |
| Documentation.DocIdInjective | DocumentationExtensions.cs:87 | Equal ids with non-blank names have the same prefix and name. |
| Documentation.ParamString | DocumentationExtensions.cs:17-25 | The parameter list joins the parameter type names with commas, after dropping leading empty names. |
| Documentation.JoinStep | DocumentationExtensions.cs:19-24 | Appending one name updates the parameter list the way the loop does. |
| Documentation.ParamStringOfNames | DocumentationExtensions.cs:17-25 | With every parameter type named, the list is the comma-joined names. |
| Documentation.MethodDocName | DocumentationExtensions.cs:27-28 | A method without parameters has its bare name. Any other method's name is two characters longer than the name plus the list, and ends with `)`. |
| Documentation.IndexOf | DocumentationExtensions.cs:28 | The first position of a character: the character does not occur before it. |
| Documentation.MethodDocNameRoundTrip | DocumentationExtensions.cs:28 | A method's documentation name splits back into the method name and the parameter list. |
| Documentation.MethodDocNameInjective | DocumentationExtensions.cs:28 | Different methods or parameter lists give different documentation names. |
| Documentation.MethodQuery | DocumentationExtensions.cs:14-29 | A method is looked up under `M` with its name and parameter list. |
| Documentation.TypeDocId | DocumentationExtensions.cs:58-60 | A type's id is `T:` followed by its full name. |
| Documentation.MemberDocId | DocumentationExtensions.cs:34-36 | A member's id is its kind's prefix, the owner's full name and the member name. |
| Documentation.RetryId | DocumentationExtensions.cs:95 | The retry id has the same length, with `+` replaced by `.`. |
| Documentation.FirstNamed | DocumentationExtensions.cs:91 | The member found is in the document and carries the id. Nothing is found only when no member carries the id. |
| Documentation.SelectMember | DocumentationExtensions.cs:91 | A document without a `members` node gives no member and never fails, as the null-conditional skips the query. Otherwise an id containing an apostrophe fails the query, and any other id finds a member carrying it, or none. |
| Documentation.XmlFromAssembly | DocumentationExtensions.cs:114-137 | The cache only grows, and the two maps stay disjoint. A load happens exactly when the assembly is in neither map. The loaded document or failure is returned and stored. Without a load the cache is unchanged. |
| Documentation.FailureIsSticky | DocumentationExtensions.cs:116-119 | An assembly that failed to load keeps failing without a new load. |
| Documentation.SuccessIsCached | DocumentationExtensions.cs:124-130 | A loaded document is returned from the cache without a new load. |
| Documentation.ExtendsTransitive | DocumentationExtensions.cs:104-107 | The cache only grows across several lookups. |
| Documentation.FetchAll | DocumentationExtensions.cs:114-137 | Looking up several assemblies in turn gives one result per assembly, and the cache only grows. |
| Documentation.LoadsAtMostOnce | DocumentationExtensions.cs:114-137 | Over any sequence of lookups, each assembly's documentation is loaded at most once, and only if it was not cached. |
| Documentation.FetchTransparent | DocumentationExtensions.cs:114-137 | With a cache consistent with the loader, a lookup returns what loading would. |
| Documentation.XmlFromName | DocumentationExtensions.cs:85-101 | A member is looked up in the assembly's document, and a failed load is passed on. If the id finds nothing, the id with `+` replaced by `.` is tried. |
| Documentation.RetryOnlyWhenAbsent | DocumentationExtensions.cs:91-100 | A member found by the id is returned as is. The id with `+` replaced by `.` is tried only when the first id finds no member. A member found carries one of the two ids. |
| Documentation.SummaryText | DocumentationExtensions.cs:46-47 | A member with a summary gives its trimmed text. Otherwise the text is empty. |
| Documentation.GetSummary | DocumentationExtensions.cs:41-53 | A failed lookup gives the empty summary. A found member gives its trimmed summary text. |
| Documentation.GetSummaryTransparent | DocumentationExtensions.cs:41-53 | With a consistent cache, a cached summary lookup gives the summary computed from a fresh load. |
| Documentation.GetSummaries | DocumentationExtensions.cs:41-78 | Looking up several summaries gives one summary per query, and the cache's two maps stay disjoint. |
| Documentation.GetSummariesTransparent | DocumentationExtensions.cs:41-78 | Threading one cache through many lookups gives the same summaries as fresh loads. |
| Documentation.EmptyCacheConsistent | DocumentationExtensions.cs:104-107 | The initial empty cache is consistent with any loader. |
| Documentation.DocsMatchLookups | DocumentationExtensions.cs:41-78 | The summaries the emitters use are the ones the cached lookups produce, starting from an empty cache. |
| Text.Trim | TypeTransferExtension.cs:316 | Trimming keeps a contiguous slice with only white space removed at both ends. The result neither starts nor ends with white space. |
| Text.TrimEmptyIffBlank | TypeTransferExtension.cs:317 | A string trims to empty exactly when it is blank. |
| Text.TrimIdempotent | TypeTransferExtension.cs:316 | Trimming twice is trimming once. |
| Text.LastSegment | TypeTransferExtension.cs:222 | The last segment contains no separator and ends the string. It is either the whole string or preceded by a separator. |
| Text.IntToStringRoundTrip | TypeTransferExtension.cs:424 | An enum value printed in decimal, with `-` for negatives, parses back to the same integer. |
| Seqs.Distinct | TypeTransferExtension.cs:90 | `Distinct` keeps exactly the elements of its input, without duplicates. |
| Seqs.DistinctOfNoDup | TypeTransferExtension.cs:90 | `Distinct` leaves a duplicate-free sequence unchanged. |

## Left out

- **File-system effects.** Deleting and recreating the output folder, and
  creating directories (`TypeTransferExtension.cs:76-80`, `124-128`,
  `142-146`), are not modelled. The folder is a value holding the files
  written, the path dictionary and a write count.
- **The assembly.** `Assembly.GetExecutingAssembly().GetTypes()` is a
  parameter. It is a sequence of type declarations, together with a
  `Universe` giving their properties and enum entries.
- **Typescript emitters.** The Typescript emitters
  (`TypeTransferExtension.cs:484-571`) are not modelled: their call site in
  `Generate` is commented out. A Typescript run writes nothing, and that is
  stated.
- **Enum entries.** `EnumMapTool.ParseToDictionary` is not part of this
  model. The entries of an enum (name, value, mapped description,
  attributes) are given in the `Universe`.
- **XML documents.** Loading, parsing and XPath evaluation
  (`DocumentationExtensions.cs:142-165`) are the `load` parameter, and a
  document is its list of members. The XPath selection is modelled as
  equality on the `name` attribute. An id containing an apostrophe is
  modelled as a failed query when the document has a `members` node.
- **Exception messages.** The process's reaction to an exception is not
  modelled. A failed lookup gives an empty summary, as the source does by
  catching.
- **Declaring types.** Declaring-type resolution for inherited members is
  not modelled. The owner of a documented member is the type being emitted.
- **Full names.** Assembly qualification inside `FullName` of constructed
  generics is not modelled. A full name lists the argument full names only.
  The `?? string.Empty` for a type without a full name cannot arise, since
  every modelled type has a full name.
- **Path.Combine.** Only its root and separator rules are modelled.
  Platform-specific normalisation is not.
- **Path.GetDirectoryName.** It only feeds directory creation, so it is
  not modelled.
- **Table types.** The properties of types in the conversion table are not
  modelled: `PropertiesOf` gives none for them. The walk does visit table
  types, since generic arguments are followed without a table check
  (`TypeTransferExtension.cs:240-245`), so `List<DateTime>` walks into
  `DateTime`. From a table type the source reaches only value types and
  other table types, and the final class-and-table filter
  (`TypeTransferExtension.cs:257`) removes all of them. An empty property
  list therefore leaves the result unchanged.
- **The unreachable branch.** The `this.X;` initialiser branch
  (`TypeTransferExtension.cs:355`) is not modelled. It sits after a
  `ContainsKey` check on the same dictionary and cannot run.
- **Program.cs and ParseCsprojExtension.cs.** They are not part of this
  model: they handle command-line parsing and project-file reading around
  the generator.
- **Type predicates.** `IsAssignableFrom(IEnumerable<>)` is a flag on each
  generic definition (`enumeratesFirstArg`). `IsClass`, `IsValueType` and
  related properties follow from the declared kind.
- **Enum values.** They are unbounded integers. The source prints an enum
  value in decimal whatever its underlying width, so no width is modelled.
  The source formats the value with the current culture, whose negative
  sign may differ from `-`. The model always uses `-`.
- **DisplayName.** A present `DisplayName` attribute whose name is `null`
  would throw in the source. The model treats every present attribute as
  having a name.

## Findings

| source | as written | input that shows it | evidently intended | confidence | as-written member | corrected member |
|---|---|---|---|---|---|---|
| TypeTransferExtension.cs:236-251 | An array-typed property adds the array type itself to the nested types (an array is a class outside the table), and the walk never reaches the element class. | `class A { public B[] Items { get; set; } }` with a plain class `B`: the closure of `A` holds `B[]` but not `B`, so `B[]` is emitted as a module and `B` is not. | Array properties are followed to their element class, as generic collections are followed to their arguments. The closure of `A` is then `[A, B]`, and no array type enters it. | not executed; high, since a module named `B[]` is not valid JavaScript | NestedTypes.ArrayPropertyAsWritten | NestedTypes.ArrayPropertyElementAware, NestedTypes.ElementAwareHasNoArrays, NestedTypes.ElementAwareReachesArrayElements |

=== FILE: documentation.dfy ===
/** The documentation lookup behind every summary the emitters print: the
    id of a type, member or method as the compiler writes it into the XML
    documentation file, the lookup of that id (with one retry that turns the
    nested-type `+` into `.`), the summary text, and the per-assembly cache
    of loaded documents and of load failures.

    Loading and parsing the XML file is a parameter (`load`): it either yields
    a document, described here only by its member list, or fails. */
module Documentation {

  import opened Wrappers
  import opened Seqs
  import opened Text
  import HostTypes
  import JsEmitter

  // ---------------------------------------------------------------------------
  // Documentation ids
  // ---------------------------------------------------------------------------

  /** `System.Reflection.MemberTypes`; a member id is prefixed with the first
      letter of the kind's name. */
  datatype MemberKind = Constructor | Event | Field | Method | Property | TypeInfo | Custom | NestedType | All

  function KindName(k: MemberKind): (r: string)
    ensures |r| > 0
  {
    match k
    case Constructor => "Constructor"
    case Event => "Event"
    case Field => "Field"
    case Method => "Method"
    case Property => "Property"
    case TypeInfo => "TypeInfo"
    case Custom => "Custom"
    case NestedType => "NestedType"
    case All => "All"
  }

  /** `memberInfo.MemberType.ToString()[0]`. */
  function KindPrefix(k: MemberKind): char {
    KindName(k)[0]
  }

  /** The prefixes the documentation file uses for properties, fields,
      methods, events and types, and the one `Constructor` shares with `Custom`. */
  lemma KindPrefixes()
    ensures KindPrefix(Property) == 'P' && KindPrefix(Field) == 'F' && KindPrefix(Method) == 'M'
    ensures KindPrefix(Event) == 'E' && KindPrefix(TypeInfo) == 'T' && KindPrefix(NestedType) == 'N'
    ensures KindPrefix(Constructor) == KindPrefix(Custom) == 'C'
  {
  }

  /** `"{prefix}:{type.FullName}"` for a blank name, `"{prefix}:{type.FullName}.{name}"` otherwise. */
  function DocId(prefix: char, typeFullName: string, name: string): (r: string)
    ensures |r| >= 2 + |typeFullName| && r[0] == prefix && r[1] == ':'
    ensures r[2..2 + |typeFullName|] == typeFullName
  {
    if IsBlank(name) then [prefix] + ":" + typeFullName
    else [prefix] + ":" + typeFullName + "." + name
  }

  /** For one declaring type, a blank name and a non-blank name never share an id. */
  lemma DocIdBlankDiffers(p: char, q: char, f: string, blank: string, name: string)
    requires IsBlank(blank) && !IsBlank(name)
    ensures DocId(p, f, blank) != DocId(q, f, name)
  {
    assert |DocId(p, f, blank)| == 2 + |f|;
  }

  /** For one declaring type, distinct member names or prefixes give distinct ids. */
  lemma DocIdInjective(p1: char, p2: char, f: string, n1: string, n2: string)
    requires !IsBlank(n1) && !IsBlank(n2)
    requires DocId(p1, f, n1) == DocId(p2, f, n2)
    ensures p1 == p2 && n1 == n2
  {
    var r := DocId(p1, f, n1);
    assert r[0] == p1;
    assert r[3 + |f|..] == n1;
    assert DocId(p2, f, n2)[3 + |f|..] == n2;
  }

  /** `ParameterType.FullName` of every parameter, a null full name read as
      the empty string. */
  function ParamTexts(paramTypes: seq<Option<string>>): (r: seq<string>)
    ensures |r| == |paramTypes|
    ensures forall i :: 0 <= i < |r| ==> r[i] == paramTypes[i].GetOr("")
  {
    seq(|paramTypes|, i requires 0 <= i < |paramTypes| => paramTypes[i].GetOr(""))
  }

  /** The parts that precede the first non-empty one contribute nothing,
      not even a separator. */
  function DropLeadingEmpty(parts: seq<string>): (r: seq<string>)
    ensures r == [] || r[0] != ""
    decreases |parts|
  {
    if |parts| == 0 then []
    else if parts[0] == "" then DropLeadingEmpty(parts[1..])
    else parts
  }

  /** The parameter list of a method id: the loop in `GetDocumentation`
      adds a comma before a name only once the text built so far is non-empty. */
  method ParamString(paramTypes: seq<Option<string>>) returns (s: string)
    ensures s == Join(DropLeadingEmpty(ParamTexts(paramTypes)), ",")
  {
    s := "";
    var i := 0;
    while i < |paramTypes|
      invariant 0 <= i <= |paramTypes|
      invariant s == Join(DropLeadingEmpty(ParamTexts(paramTypes[..i])), ",")
    {
      var before := ParamTexts(paramTypes[..i]);
      var name := paramTypes[i].GetOr("");
      JoinStep(before, name);
      assert ParamTexts(paramTypes[..i + 1]) == before + [name];
      if |s| > 0 {
        s := s + ",";
      }
      s := s + name;
      i := i + 1;
    }
    assert paramTypes[..i] == paramTypes;
  }

  lemma {:induction false} JoinSnoc(parts: seq<string>, x: string, sep: string)
    requires |parts| > 0
    ensures Join(parts + [x], sep) == Join(parts, sep) + sep + x
    decreases |parts|
  {
    if |parts| > 1 {
      assert (parts + [x])[1..] == parts[1..] + [x];
      JoinSnoc(parts[1..], x, sep);
    }
  }

  lemma JoinHead(parts: seq<string>, sep: string)
    requires |parts| > 0
    ensures Join(parts, sep)[..|parts[0]|] == parts[0]
  {
  }

  /** One more parameter: a comma first if anything was written, then its name. */
  lemma {:induction false} JoinStep(parts: seq<string>, x: string)
    ensures var j := Join(DropLeadingEmpty(parts), ",");
            Join(DropLeadingEmpty(parts + [x]), ",") == (if |j| > 0 then j + "," else j) + x
    decreases |parts|
  {
    if |parts| == 0 {
      assert parts + [x] == [x];
    } else if parts[0] == "" {
      assert (parts + [x])[1..] == parts[1..] + [x];
      JoinStep(parts[1..], x);
    } else {
      JoinSnoc(parts, x, ",");
      JoinHead(parts, ",");
    }
  }

  /** The parameter list joins the non-null full names with commas when none
      is empty: no leading, trailing or doubled comma. */
  lemma ParamStringOfNames(names: seq<string>)
    requires forall i :: 0 <= i < |names| ==> names[i] != ""
    ensures Join(DropLeadingEmpty(ParamTexts(seq(|names|, i requires 0 <= i < |names| => Some(names[i])))), ",")
            == Join(names, ",")
  {
    var ps := seq(|names|, i requires 0 <= i < |names| => Some(names[i]));
    assert ParamTexts(ps) == names;
  }

  /** The method part of a method id: the name alone without parameters, else
      the name with the parameter list in parentheses. */
  function MethodDocName(name: string, paramString: string): (r: string)
    ensures paramString == "" ==> r == name
    ensures paramString != "" ==> |r| == |name| + |paramString| + 2 && r[|r| - 1] == ')'
  {
    if |paramString| > 0 then name + "(" + paramString + ")" else name
  }

  /** The position of the first `c` in `s`, or `|s|` without one. */
  function IndexOf(s: string, c: char): (i: nat)
    ensures i <= |s| && c !in s[..i]
    ensures i < |s| ==> s[i] == c
    decreases |s|
  {
    if |s| == 0 then 0
    else if s[0] == c then 0
    else
      var j := IndexOf(s[1..], c);
      assert s[..j + 1] == [s[0]] + s[1..][..j];
      j + 1
  }

  /** Reads a method part back: the name before the first `(`, and the text
      between it and the closing character. */
  function SplitMethodDocName(r: string): (string, string) {
    var i := IndexOf(r, '(');
    if i == |r| then (r, "")
    else if i + 1 <= |r| - 1 then (r[..i], r[i + 1..|r| - 1])
    else (r[..i], "")
  }

  lemma IndexAfterName(name: string, rest: string, c: char)
    requires c !in name && |rest| > 0 && rest[0] == c
    ensures IndexOf(name + rest, c) == |name|
  {
    var s := name + rest;
    var i := IndexOf(s, c);
    assert s[|name|] == c;
    assert forall j :: 0 <= j < |name| ==> s[j] == name[j];
  }

  /** Method names never contain `(`, so the name and the parameter list can
      be read back from the method part. */
  lemma MethodDocNameRoundTrip(name: string, paramString: string)
    requires '(' !in name
    ensures SplitMethodDocName(MethodDocName(name, paramString)) == (name, paramString)
  {
    var r := MethodDocName(name, paramString);
    if paramString == "" {
      assert r[..|r|] == r;
    } else {
      var rest := "(" + paramString + ")";
      assert r == name + rest;
      IndexAfterName(name, rest, '(');
      assert r[..|name|] == name;
      assert r[|name| + 1..|r| - 1] == paramString;
    }
  }

  /** Overloads are told apart: distinct parameter lists give distinct method parts. */
  lemma MethodDocNameInjective(n1: string, p1: string, n2: string, p2: string)
    requires '(' !in n1 && '(' !in n2
    requires MethodDocName(n1, p1) == MethodDocName(n2, p2)
    ensures n1 == n2 && p1 == p2
  {
    MethodDocNameRoundTrip(n1, p1);
    MethodDocNameRoundTrip(n2, p2);
  }

  /** What a summary is looked up for: the assembly whose documentation file
      is read, the prefix, the declaring type's full name and the member part. */
  datatype Query = Query(assembly: string, prefix: char, typeFullName: string, name: string)

  /** `type.GetSummary()`: prefix `T`, no member part. */
  function TypeQuery(assembly: string, t: HostTypes.HostType): Query {
    Query(assembly, 'T', HostTypes.FullName(t), "")
  }

  /** `memberInfo.GetSummary()`: the kind's prefix and the member's name. */
  function MemberQuery(assembly: string, declaring: HostTypes.HostType, kind: MemberKind, name: string): Query {
    Query(assembly, KindPrefix(kind), HostTypes.FullName(declaring), name)
  }

  /** `methodInfo.GetDocumentation()`: prefix `M` and the method part. */
  method MethodQuery(assembly: string, declaring: HostTypes.HostType, name: string, paramTypes: seq<Option<string>>)
    returns (q: Query)
    ensures q.prefix == 'M' && q.typeFullName == HostTypes.FullName(declaring)
    ensures q.name == MethodDocName(name, Join(DropLeadingEmpty(ParamTexts(paramTypes)), ","))
  {
    var ps := ParamString(paramTypes);
    q := Query(assembly, 'M', HostTypes.FullName(declaring), MethodDocName(name, ps));
  }

  function IdOf(q: Query): string {
    DocId(q.prefix, q.typeFullName, q.name)
  }

  /** The id of a nested type's member as the retry spells it. */
  function RetryId(id: string): (r: string)
    ensures |r| == |id| && '+' !in r
    ensures forall i :: 0 <= i < |id| ==> r[i] == (if id[i] == '+' then '.' else id[i])
  {
    ReplaceChar(id, '+', '.')
  }

  // ---------------------------------------------------------------------------
  // Documents and member selection
  // ---------------------------------------------------------------------------

  /** A `member` element: its `name` attribute and the inner text of its first
      `summary` child, if any. */
  datatype XmlMember = XmlMember(name: string, summary: Option<string>)

  /** A loaded documentation file: the children of `doc/members`, or `None`
      when the file has no such element. */
  datatype XmlDoc = XmlDoc(members: Option<seq<XmlMember>>)

  /** Why `XmlFromAssemblyNonCached` throws: no assembly location, no XML
      file beside the assembly, or a file that does not parse. */
  datatype LoadError = NoAssemblyLocation | DocumentationFileMissing | UnreadableDocument

  datatype DocError =
    | LoadFailed(error: LoadError)
    /** An id holding `'` closes the quoted XPath literal and the query does not parse. */
    | InvalidQuery(id: string)

  /** The first member whose name is `id`, or `None`. */
  function FirstNamed(ms: seq<XmlMember>, id: string): (r: Option<XmlMember>)
    ensures r.Some? ==> r.value in ms && r.value.name == id
    ensures r.None? ==> forall m :: m in ms ==> m.name != id
  {
    if |ms| == 0 then None
    else if ms[0].name == id then Some(ms[0])
    else FirstNamed(ms[1..], id)
  }

  /** `doc["members"]?.SelectSingleNode("member[@name='" + id + "']")`. */
  function SelectMember(doc: XmlDoc, id: string): (r: Result<Option<XmlMember>, DocError>)
    ensures r.Failure? <==> doc.members.Some? && '\'' in id
    ensures r.Failure? ==> r.error == InvalidQuery(id)
    ensures doc.members.None? ==> r == Success(None)
    ensures r.Success? && r.value.Some? ==> r.value.value.name == id
  {
    match doc.members
    case None => Success(None)
    case Some(ms) => if '\'' in id then Failure(InvalidQuery(id)) else Success(FirstNamed(ms, id))
  }

  // ---------------------------------------------------------------------------
  // The per-assembly cache
  // ---------------------------------------------------------------------------

  type Loader = string -> Result<XmlDoc, LoadError>

  /** `_cache` and `_failCache`. */
  datatype DocCache = DocCache(docs: map<string, XmlDoc>, failures: map<string, LoadError>)

  const EmptyCache := DocCache(map[], map[])

  /** No assembly is both loaded and failed. */
  predicate Disjoint(c: DocCache) {
    c.docs.Keys !! c.failures.Keys
  }

  /** Every entry records what the loader gives for that assembly. */
  ghost predicate Consistent(c: DocCache, load: Loader) {
    (forall a :: a in c.docs ==> load(a) == Success(c.docs[a]))
    && (forall a :: a in c.failures ==> load(a) == Failure(c.failures[a]))
  }

  /** Nothing recorded is forgotten or changed. */
  predicate Extends(c: DocCache, c': DocCache) {
    (forall a :: a in c.docs ==> a in c'.docs && c'.docs[a] == c.docs[a])
    && (forall a :: a in c.failures ==> a in c'.failures && c'.failures[a] == c.failures[a])
  }

  datatype Fetch = Fetch(result: Result<XmlDoc, LoadError>, cache: DocCache, loaded: bool)

  /** `XmlFromAssembly`: a recorded failure is rethrown, a cached document is
      returned, and otherwise the loader runs once and its outcome is recorded. */
  function XmlFromAssembly(c: DocCache, load: Loader, assembly: string): (r: Fetch)
    ensures Extends(c, r.cache)
    ensures Disjoint(c) ==> Disjoint(r.cache)
    ensures r.loaded <==> assembly !in c.docs && assembly !in c.failures
    ensures r.loaded ==> r.result == load(assembly)
    ensures r.result.Success? ==> assembly in r.cache.docs && r.cache.docs[assembly] == r.result.value
    ensures r.result.Failure? ==> assembly in r.cache.failures && r.cache.failures[assembly] == r.result.error
    ensures !r.loaded ==> r.cache == c
    ensures r.cache.docs.Keys <= c.docs.Keys + {assembly} && r.cache.failures.Keys <= c.failures.Keys + {assembly}
  {
    if assembly in c.failures then Fetch(Failure(c.failures[assembly]), c, false)
    else if assembly in c.docs then Fetch(Success(c.docs[assembly]), c, false)
    else match load(assembly)
      case Success(d) => Fetch(Success(d), c.(docs := c.docs[assembly := d]), true)
      case Failure(e) => Fetch(Failure(e), c.(failures := c.failures[assembly := e]), true)
  }

  /** A recorded failure is rethrown on every later call, without loading. */
  lemma FailureIsSticky(c: DocCache, load: Loader, assembly: string, c': DocCache)
    requires assembly in c.failures && Extends(c, c')
    ensures XmlFromAssembly(c', load, assembly) == Fetch(Failure(c.failures[assembly]), c', false)
  {
  }

  /** A loaded document is returned on every later call, without loading. */
  lemma SuccessIsCached(c: DocCache, load: Loader, assembly: string, c': DocCache)
    requires assembly in c.docs && Extends(c, c') && Disjoint(c')
    ensures XmlFromAssembly(c', load, assembly) == Fetch(Success(c.docs[assembly]), c', false)
  {
  }

  lemma ExtendsTransitive(c1: DocCache, c2: DocCache, c3: DocCache)
    requires Extends(c1, c2) && Extends(c2, c3)
    ensures Extends(c1, c3)
  {
  }

  /** A run of `XmlFromAssembly` calls: every result, the final cache, and
      the assemblies the loader ran for, in order. */
  function FetchAll(c: DocCache, load: Loader, assemblies: seq<string>)
    : (r: (seq<Result<XmlDoc, LoadError>>, DocCache, seq<string>))
    ensures |r.0| == |assemblies|
    ensures Extends(c, r.1)
    ensures Disjoint(c) ==> Disjoint(r.1)
    ensures forall a :: a in r.2 ==> a in r.1.docs || a in r.1.failures
    decreases |assemblies|
  {
    if |assemblies| == 0 then ([], c, [])
    else
      var f := XmlFromAssembly(c, load, assemblies[0]);
      var rest := FetchAll(f.cache, load, assemblies[1..]);
      ExtendsTransitive(c, f.cache, rest.1);
      ([f.result] + rest.0, rest.1, (if f.loaded then [assemblies[0]] else []) + rest.2)
  }

  /** The loader runs at most once per assembly over any run of lookups, and
      never for an assembly already recorded when the run starts. */
  lemma {:induction false} LoadsAtMostOnce(c: DocCache, load: Loader, assemblies: seq<string>)
    ensures NoDup(FetchAll(c, load, assemblies).2)
    ensures forall a :: a in FetchAll(c, load, assemblies).2 ==> a !in c.docs && a !in c.failures
    decreases |assemblies|
  {
    if |assemblies| > 0 {
      var a := assemblies[0];
      var f := XmlFromAssembly(c, load, a);
      LoadsAtMostOnce(f.cache, load, assemblies[1..]);
      var rest := FetchAll(f.cache, load, assemblies[1..]).2;
      if f.loaded {
        assert a in f.cache.docs || a in f.cache.failures;
        assert a !in rest;
        var all := [a] + rest;
        forall i, j | 0 <= i < j < |all| ensures all[i] != all[j] {
          if i > 0 {
            assert all[i] == rest[i - 1] && all[j] == rest[j - 1];
          } else {
            assert all[j] == rest[j - 1];
          }
        }
      } else {
        assert FetchAll(c, load, assemblies).2 == rest;
      }
    }
  }

  /** Over a cache that agrees with the loader, every lookup answers what the
      loader answers, and the cache keeps agreeing. */
  lemma FetchTransparent(c: DocCache, load: Loader, assembly: string)
    requires Consistent(c, load) && Disjoint(c)
    ensures XmlFromAssembly(c, load, assembly).result == load(assembly)
    ensures Consistent(XmlFromAssembly(c, load, assembly).cache, load)
  {
    var r := XmlFromAssembly(c, load, assembly);
    forall a | a in r.cache.docs ensures load(a) == Success(r.cache.docs[a]) {
      if a != assembly {
        assert a in c.docs;
      }
    }
    forall a | a in r.cache.failures ensures load(a) == Failure(r.cache.failures[a]) {
      if a != assembly {
        assert a in c.failures;
      }
    }
  }

  // ---------------------------------------------------------------------------
  // Lookup by id and the summary
  // ---------------------------------------------------------------------------

  /** The member for `id`, trying the id with `+` turned into `.` when the
      id itself selects nothing. */
  function FindMember(doc: XmlDoc, id: string): Result<Option<XmlMember>, DocError> {
    match SelectMember(doc, id)
    case Success(None) => SelectMember(doc, RetryId(id))
    case other => other
  }

  datatype Lookup = Lookup(result: Result<Option<XmlMember>, DocError>, cache: DocCache)

  /** `XmlFromName`: the document is fetched through the cache, the id is
      looked up, and only when nothing is found the retry id is looked up in
      the document fetched again. A load failure is rethrown. */
  function XmlFromName(c: DocCache, load: Loader, q: Query): (r: Lookup)
    ensures Extends(c, r.cache)
    ensures Disjoint(c) ==> Disjoint(r.cache)
    ensures XmlFromAssembly(c, load, q.assembly).result.Failure? ==>
              r == Lookup(Failure(LoadFailed(XmlFromAssembly(c, load, q.assembly).result.error)),
                          XmlFromAssembly(c, load, q.assembly).cache)
    ensures Disjoint(c) && XmlFromAssembly(c, load, q.assembly).result.Success? ==>
              r == Lookup(FindMember(XmlFromAssembly(c, load, q.assembly).result.value, IdOf(q)),
                          XmlFromAssembly(c, load, q.assembly).cache)
  {
    var id := IdOf(q);
    var f := XmlFromAssembly(c, load, q.assembly);
    match f.result
    case Failure(e) => Lookup(Failure(LoadFailed(e)), f.cache)
    case Success(doc) =>
      match SelectMember(doc, id)
      case Failure(e) => Lookup(Failure(e), f.cache)
      case Success(Some(m)) => Lookup(Success(Some(m)), f.cache)
      case Success(None) =>
        var g := XmlFromAssembly(f.cache, load, q.assembly);
        match g.result
        case Failure(e) => Lookup(Failure(LoadFailed(e)), g.cache)
        case Success(doc2) => Lookup(SelectMember(doc2, RetryId(id)), g.cache)
  }

  /** The retry happens only when the id itself selects nothing, and its
      outcome is the answer; a member found by the id is returned as is. */
  lemma RetryOnlyWhenAbsent(doc: XmlDoc, id: string)
    ensures SelectMember(doc, id).Success? && SelectMember(doc, id).value.Some? ==>
              FindMember(doc, id) == SelectMember(doc, id)
    ensures SelectMember(doc, id) == Success(None) ==> FindMember(doc, id) == SelectMember(doc, RetryId(id))
    ensures FindMember(doc, id).Success? && FindMember(doc, id).value.Some? ==>
              FindMember(doc, id).value.value.name in {id, RetryId(id)}
  {
  }

  /** The summary of a member element: its trimmed text, or empty without one. */
  function SummaryText(m: Option<XmlMember>): (r: string)
    ensures m.None? || m.value.summary.None? ==> r == ""
    ensures m.Some? && m.value.summary.Some? ==> r == Trim(m.value.summary.value)
  {
    match m
    case Some(XmlMember(_, Some(text))) => Trim(text)
    case _ => ""
  }

  /** `GetSummary`: never throws; any failure reads as the empty string. */
  function GetSummary(c: DocCache, load: Loader, q: Query): (r: (string, DocCache))
    ensures Extends(c, r.1)
    ensures Disjoint(c) ==> Disjoint(r.1)
    ensures XmlFromName(c, load, q).result.Failure? ==> r.0 == ""
    ensures XmlFromName(c, load, q).result.Success? ==> r.0 == SummaryText(XmlFromName(c, load, q).result.value)
  {
    var x := XmlFromName(c, load, q);
    var s := match x.result
      case Success(m) => SummaryText(m)
      case Failure(_) => "";
    (s, x.cache)
  }

  /** The summary computed from the loader alone, with no cache. */
  function Summary(load: Loader, q: Query): string {
    match load(q.assembly)
    case Failure(_) => ""
    case Success(doc) =>
      match FindMember(doc, IdOf(q))
      case Success(m) => SummaryText(m)
      case Failure(_) => ""
  }

  /** The cache is invisible: over a cache that agrees with the loader,
      `GetSummary` answers the cache-free summary and keeps the cache agreeing. */
  lemma GetSummaryTransparent(c: DocCache, load: Loader, q: Query)
    requires Consistent(c, load) && Disjoint(c)
    ensures GetSummary(c, load, q).0 == Summary(load, q)
    ensures Consistent(GetSummary(c, load, q).1, load)
  {
    FetchTransparent(c, load, q.assembly);
  }

  /** Summaries looked up one after another, threading the cache. */
  function GetSummaries(c: DocCache, load: Loader, qs: seq<Query>): (r: (seq<string>, DocCache))
    ensures |r.0| == |qs|
    ensures Disjoint(c) ==> Disjoint(r.1)
    decreases |qs|
  {
    if |qs| == 0 then ([], c)
    else
      var s := GetSummary(c, load, qs[0]);
      var rest := GetSummaries(s.1, load, qs[1..]);
      ([s.0] + rest.0, rest.1)
  }

  /** Starting from the empty cache, any run of summary lookups gives the
      cache-free summaries, in order. */
  lemma {:induction false} GetSummariesTransparent(c: DocCache, load: Loader, qs: seq<Query>)
    requires Consistent(c, load) && Disjoint(c)
    ensures forall i :: 0 <= i < |qs| ==> GetSummaries(c, load, qs).0[i] == Summary(load, qs[i])
    decreases |qs|
  {
    if |qs| > 0 {
      GetSummaryTransparent(c, load, qs[0]);
      var s := GetSummary(c, load, qs[0]);
      GetSummariesTransparent(s.1, load, qs[1..]);
      var r := GetSummaries(c, load, qs);
      forall i | 0 <= i < |qs| ensures r.0[i] == Summary(load, qs[i]) {
        if i > 0 {
          assert r.0[i] == GetSummaries(s.1, load, qs[1..]).0[i - 1];
          assert qs[1..][i - 1] == qs[i];
        }
      }
    }
  }

  lemma EmptyCacheConsistent(load: Loader)
    ensures Consistent(EmptyCache, load) && Disjoint(EmptyCache)
  {
  }

  // ---------------------------------------------------------------------------
  // The summaries the emitters print
  // ---------------------------------------------------------------------------

  /** The query behind each summary the emitters ask for: a type's own
      summary, a property's (`P:`) and an enum field's (`F:`), each read
      from the documentation of the assembly `assemblyOf` names. */
  function QueryOf(assemblyOf: HostTypes.HostType -> string, target: JsEmitter.DocTarget): Query {
    match target
    case OfType(t) => TypeQuery(assemblyOf(t), t)
    case OfProperty(owner, name) => MemberQuery(assemblyOf(owner), owner, Property, name)
    case OfField(owner, name) => MemberQuery(assemblyOf(owner), owner, Field, name)
  }

  /** The `docs` function the emitters take. */
  function Docs(load: Loader, assemblyOf: HostTypes.HostType -> string): JsEmitter.DocTarget -> string {
    target => Summary(load, QueryOf(assemblyOf, target))
  }

  /** Whatever order the generator asks for summaries in, starting from the
      empty cache, each answer is what `Docs` gives for it. */
  lemma DocsMatchLookups(load: Loader, assemblyOf: HostTypes.HostType -> string, targets: seq<JsEmitter.DocTarget>)
    ensures var qs := seq(|targets|, i requires 0 <= i < |targets| => QueryOf(assemblyOf, targets[i]));
            forall i :: 0 <= i < |targets| ==>
              GetSummaries(EmptyCache, load, qs).0[i] == Docs(load, assemblyOf)(targets[i])
  {
    var qs := seq(|targets|, i requires 0 <= i < |targets| => QueryOf(assemblyOf, targets[i]));
    GetSummariesTransparent(EmptyCache, load, qs);
  }

  /** A type's summary is looked up under `T:` and its full name, with no
      trailing `.`. */
  lemma TypeDocId(assembly: string, t: HostTypes.HostType)
    ensures IdOf(TypeQuery(assembly, t)) == "T:" + HostTypes.FullName(t)
  {
    assert IsBlank("");
  }

  /** A member's summary is looked up under the kind's prefix, the declaring
      type's full name, `.` and the member's name. */
  lemma MemberDocId(assembly: string, owner: HostTypes.HostType, kind: MemberKind, name: string)
    requires !IsBlank(name)
    ensures IdOf(MemberQuery(assembly, owner, kind, name)) == [KindPrefix(kind)] + ":" + HostTypes.FullName(owner) + "." + name
  {
  }
}

=== FILE: file_names.dfy ===
/** Where a generated script goes: the class name taken from the full type
    name, the relative path built from the namespace, and the joining of
    that relative path onto the output folder. Paths use the Windows
    separator `\`, as the program writes them. */
module FileNames {

  import opened Wrappers
  import opened Text
  import opened HostTypes

  /** The folder used for a type without a namespace. */
  const EmptyNamespaceFolder := "EmptyNameSpace"
  /** The grouping folder removed from every relative path. */
  const GroupingFolder := "Template\\"
  const ScriptExtension := "js"

  datatype FileNameInfo = FileNameInfo(fileName: string, filePath: string)

  /** The class name used in a script: the text after the last `.` of the full
      type name, with the nested-type separator `+` turned into `_`. */
  function FileNameOf(fullName: string): (r: string)
    ensures '+' !in r && '.' !in r
    ensures |r| <= |fullName|
    ensures |r| == |fullName| || fullName[|fullName| - |r| - 1] == '.'
    ensures forall i :: 0 <= i < |r| ==>
              r[i] == (if fullName[|fullName| - |r| + i] == '+' then '_' else fullName[|fullName| - |r| + i])
  {
    var segment := LastSegment(fullName, '.');
    var r := if '+' in segment then ReplaceChar(segment, '+', '_') else segment;
    PlusReplaced(segment, r);
    SegmentAtEnd(fullName, segment, r);
    r
  }

  /** Replacing `+` only when present is replacing it everywhere. */
  lemma PlusReplaced(segment: string, r: string)
    requires r == if '+' in segment then ReplaceChar(segment, '+', '_') else segment
    ensures |r| == |segment|
    ensures forall i :: 0 <= i < |r| ==> r[i] == (if segment[i] == '+' then '_' else segment[i])
    ensures '+' !in r
    ensures '.' !in segment ==> '.' !in r
  {
    forall i | 0 <= i < |r| ensures r[i] != '+' && (r[i] == '.' ==> segment[i] == '.') {
    }
  }

  /** A character-wise rewrite of a string's tail, read off the whole string. */
  lemma SegmentAtEnd(fullName: string, segment: string, r: string)
    requires EndsWith(fullName, segment)
    requires |r| == |segment|
    requires forall i :: 0 <= i < |r| ==> r[i] == (if segment[i] == '+' then '_' else segment[i])
    ensures forall i :: 0 <= i < |r| ==>
              r[i] == (if fullName[|fullName| - |r| + i] == '+' then '_' else fullName[|fullName| - |r| + i])
  {
    forall i | 0 <= i < |r|
      ensures r[i] == (if fullName[|fullName| - |r| + i] == '+' then '_' else fullName[|fullName| - |r| + i])
    {
      assert segment[i] == fullName[|fullName| - |segment|..][i];
    }
  }

  /** The namespace as a folder path, or the fallback folder without one. */
  function NamespaceFolder(ns: Option<string>): (r: string)
    ensures ns.None? ==> r == EmptyNamespaceFolder
    ensures ns.Some? ==> |r| == |ns.value| && '.' !in r
    ensures ns.Some? ==> forall i :: 0 <= i < |r| ==> (r[i] == '\\' <==> ns.value[i] == '.' || ns.value[i] == '\\')
    ensures ns.Some? ==> forall i :: 0 <= i < |r| ==> r[i] == (if ns.value[i] == '.' then '\\' else ns.value[i])
  {
    match ns
    case None => EmptyNamespaceFolder
    case Some(n) => ReplaceChar(n, '.', '\\')
  }

  /** The relative script path `<folder>\<class name>.<extension>` with every
      occurrence of `Template\` removed. */
  function RelativePath(folder: string, fileName: string, extension: string): (r: string)
    ensures '\\' !in fileName && '\\' !in extension ==> EndsWith(r, fileName + "." + extension)
  {
    var head := folder + "\\";
    var tail := fileName + "." + extension;
    assert folder + "\\" + fileName + "." + extension == head + tail;
    assert '\\' !in fileName && '\\' !in extension ==> EndsWith(ReplaceAll(head + tail, GroupingFolder, ""), tail) by {
      if '\\' !in fileName && '\\' !in extension {
        assert '\\' !in tail;
        ReplaceAllKeepsTail(head, tail, GroupingFolder, "");
      }
    }
    ReplaceAll(folder + "\\" + fileName + "." + extension, GroupingFolder, "")
  }

  lemma LastSegmentOf(prefix: string, segment: string)
    requires '.' !in segment
    ensures LastSegment(prefix + "." + segment, '.') == segment
  {
    var s := prefix + "." + segment;
    var r := LastSegment(s, '.');
    assert s[|s| - |segment| - 1] == '.';
    assert s[|s| - |segment|..] == segment;
  }

  /** `TransferTypeToFileName`: the class name and its relative script path
      under the namespace folders. */
  function TransferTypeToFileName(t: HostType, extension: string): (r: FileNameInfo)
    ensures r.fileName == FileNameOf(FullName(t))
    ensures '\\' !in r.fileName && '\\' !in extension ==> EndsWith(r.filePath, r.fileName + "." + extension)
  {
    var fileName := FileNameOf(FullName(t));
    FileNameInfo(fileName, RelativePath(NamespaceFolder(Namespace(t)), fileName, extension))
  }

  /** Type and namespace names never contain `\`, so neither does a file name. */
  lemma FileNameHasNoBackslash(fullName: string)
    ensures '\\' in FileNameOf(fullName) ==> '\\' in fullName
  {
    var r := FileNameOf(fullName);
    if '\\' in r {
      var i :| 0 <= i < |r| && r[i] == '\\';
      assert fullName[|fullName| - |r| + i] == '\\';
    }
  }

  /** Without an occurrence of the grouping folder in the folder part, the
      relative path is the folder, the class name and the extension. */
  lemma RelativePathLayout(folder: string, fileName: string, extension: string)
    requires !Contains(folder + "\\", GroupingFolder)
    requires '\\' !in fileName && '\\' !in extension
    ensures RelativePath(folder, fileName, extension) == folder + "\\" + fileName + "." + extension
  {
    var head := folder + "\\";
    var tail := fileName + "." + extension;
    assert '\\' !in tail;
    assert folder + "\\" + fileName + "." + extension == head + tail;
    ReplaceAllKeepsTail(head, tail, GroupingFolder, "");
    ReplaceAllAbsent(head, GroupingFolder, "");
  }

  /** A type without a namespace goes to the fallback folder. */
  lemma NoNamespaceFolder(t: HostType, extension: string)
    requires Namespace(t).None?
    requires '\\' !in FileNameOf(FullName(t)) && '\\' !in extension
    ensures TransferTypeToFileName(t, extension).filePath ==
            EmptyNamespaceFolder + "\\" + FileNameOf(FullName(t)) + "." + extension
  {
    var folder := EmptyNamespaceFolder + "\\";
    assert 'T' !in folder;
    NotContainsWithoutFirst(folder, GroupingFolder);
    RelativePathLayout(EmptyNamespaceFolder, FileNameOf(FullName(t)), extension);
  }

  /** A `Template` folder is dropped from the path. */
  lemma GroupingFolderDropped(a: string, b: string, fileName: string, extension: string)
    requires 'T' !in a && !Contains(b + "\\", GroupingFolder)
    requires '\\' !in fileName && '\\' !in extension
    ensures RelativePath(a + "\\" + GroupingFolder + b, fileName, extension) == a + "\\" + b + "\\" + fileName + "." + extension
  {
    var head := a + "\\";
    var rest := b + "\\" + fileName + "." + extension;
    var whole := a + "\\" + GroupingFolder + b + "\\" + fileName + "." + extension;
    assert RelativePath(a + "\\" + GroupingFolder + b, fileName, extension) == ReplaceAll(whole, GroupingFolder, "");
    assert whole == head + (GroupingFolder + rest);
    RelativePathLayout(b, fileName, extension);
    assert ReplaceAll(rest, GroupingFolder, "") == rest;
    RemoveAtMatch(rest);
    assert 'T' !in head;
    ReplaceAllKeepsPrefix(head, GroupingFolder + rest, GroupingFolder, "");
    var r := RelativePath(a + "\\" + GroupingFolder + b, fileName, extension);
    assert r == head + rest;
    SixParts(a, "\\", b, "\\", fileName, extension);
  }

  lemma SixParts(a: string, b: string, c: string, d: string, e: string, f: string)
    ensures a + b + c + d + e + "." + f == (a + b) + (c + d + e + "." + f)
  {
  }

  lemma RemoveAtMatch(rest: string)
    ensures ReplaceAll(GroupingFolder + rest, GroupingFolder, "") == ReplaceAll(rest, GroupingFolder, "")
  {
    var s := GroupingFolder + rest;
    assert s[..|GroupingFolder|] == GroupingFolder;
    assert s[|GroupingFolder|..] == rest;
  }

  /** The removal matches text, not whole folders: a folder whose name merely
      ends in `Template` loses that ending and merges with the next part. */
  lemma GroupingRemovalMatchesText(a: string, b: string, fileName: string, extension: string)
    requires 'T' !in a && 'T' !in b
    requires '\\' !in fileName && '\\' !in extension
    ensures RelativePath(a + "\\" + b + "Template", fileName, extension) == a + "\\" + b + fileName + "." + extension
  {
    var head := a + "\\" + b;
    var tail := fileName + "." + extension;
    assert 'T' !in head;
    assert '\\' !in tail;
    Regroup(head, "Template", "\\", fileName, ".", extension);
    assert "Template" + "\\" == GroupingFolder;
    RemoveGroupingAfter(head, tail);
  }

  lemma Regroup<T>(h: seq<T>, y: seq<T>, z: seq<T>, f: seq<T>, d: seq<T>, e: seq<T>)
    ensures h + y + z + f + d + e == h + ((y + z) + (f + d + e))
    ensures h + (f + d + e) == h + f + d + e
  {
  }

  /** An occurrence of the grouping folder right after a part without `T` is
      removed, and a tail without `\` keeps nothing to remove. */
  lemma RemoveGroupingAfter(head: string, tail: string)
    requires 'T' !in head && '\\' !in tail
    ensures ReplaceAll(head + (GroupingFolder + tail), GroupingFolder, "") == head + tail
  {
    ReplaceAllKeepsPrefix(head, GroupingFolder + tail, GroupingFolder, "");
    RemoveAtMatch(tail);
    ReplaceAllNoMatch(tail, GroupingFolder, "");
  }

  /** The class name of a nested type joins the outer and inner names with `_`. */
  lemma NestedTypeFileName(ns: string, outer: string, inner: string)
    requires '.' !in outer && '.' !in inner && '+' !in outer && '+' !in inner
    ensures FileNameOf(ns + "." + outer + "+" + inner) == outer + "_" + inner
  {
    var full := ns + "." + outer + "+" + inner;
    var seg := outer + "+" + inner;
    LastSegmentOf(ns, seg);
    assert full == ns + "." + seg;
    assert '+' in seg by { assert seg[|outer|] == '+'; }
    var r := ReplaceChar(seg, '+', '_');
    assert r == outer + "_" + inner;
  }

  // ---------------------------------------------------------------------------
  // Joining paths
  // ---------------------------------------------------------------------------

  predicate IsSeparator(c: char) {
    c == '\\' || c == '/'
  }

  /** A path `Path.Combine` returns unchanged: one that starts at a root
      separator or names a drive. */
  predicate IsRooted(p: string) {
    (|p| > 0 && IsSeparator(p[0])) || (|p| >= 2 && p[1] == ':')
  }

  /** `Path.Combine(a, b)` with the Windows separator. */
  function Combine(a: string, b: string): (r: string)
    ensures IsRooted(b) || a == [] ==> r == b
    ensures a != [] && b == [] ==> r == a
    ensures !IsRooted(b) && a != [] ==> StartsWith(r, a) && EndsWith(r, b)
    ensures !IsRooted(b) && a != [] && b != [] ==> |a| + |b| <= |r| <= |a| + |b| + 1
  {
    if IsRooted(b) || |a| == 0 then b
    else if |b| == 0 then a
    else if IsSeparator(a[|a| - 1]) then a + b
    else a + "\\" + b
  }

  /** Under one folder, distinct relative paths give distinct full paths. */
  lemma CombineInjective(a: string, b1: string, b2: string)
    requires !IsRooted(b1) && !IsRooted(b2)
    requires Combine(a, b1) == Combine(a, b2)
    ensures b1 == b2
  {
    if |a| > 0 && |b1| > 0 && |b2| > 0 {
      var r := Combine(a, b1);
      if IsSeparator(a[|a| - 1]) {
        assert r[|a|..] == b1 && r[|a|..] == b2;
      } else {
        assert r[|a| + 1..] == b1 && r[|a| + 1..] == b2;
      }
    }
  }
}

=== FILE: generate.dfy ===
/** `Generate`: selects the view-model roots and their nested types, writes
    one module per type under `TypeModules` (the first module written to a
    path wins), then writes the shared enumeration file. The file system is
    the `Output` value: the output folder is deleted first, so it starts
    empty, and an exception ends the run with the files written so far. */
module Generator {

  import opened Wrappers
  import opened Seqs
  import opened HostTypes
  import opened TypeSelector
  import opened NestedTypes
  import opened FileNames
  import opened JsEmitter

  datatype ScriptType = All | Javascript | Typescript

  const ModulesFolder := "TypeModules"
  const EnumsFolder := "Enums"
  const EnumFile := "EnumType.js"

  /** A module ready to be written: its full path, the relative path reported
      for it, and its lines. */
  datatype Module = Module(fullPath: string, relPath: string, lines: seq<string>)

  /** The output folder: file contents by full path, the dictionary the
      program returns (full path to reported path), and the number of writes. */
  datatype Output = Output(files: map<string, seq<string>>, result: map<string, string>, writes: nat)

  /** A run either completes or stops at the first conversion that throws,
      leaving the files written before it. */
  datatype Outcome = Completed(out: Output) | Aborted(out: Output, error: ConvertError)

  const EmptyOutput := Output(map[], map[], 0)

  // ---------------------------------------------------------------------------
  // The types to emit
  // ---------------------------------------------------------------------------

  /** The closures of all roots, concatenated in root order. */
  function NestedOfAll(u: Universe, walk: Walk, roots: seq<HostType>): seq<HostType> {
    if |roots| == 0 then [] else AllNestedTypes(u, walk, roots[0]) + NestedOfAll(u, walk, roots[1..])
  }

  /** `allTypesWithNestedList.Union(roots).Distinct()`. */
  function TypesToEmit(u: Universe, walk: Walk, roots: seq<HostType>): (r: seq<HostType>)
    ensures NoDup(r)
  {
    Distinct(Distinct(NestedOfAll(u, walk, roots) + roots))
  }

  lemma {:induction false} NestedOfAllCharacterized(u: Universe, walk: Walk, roots: seq<HostType>, x: HostType)
    ensures x in NestedOfAll(u, walk, roots) <==> exists i :: 0 <= i < |roots| && x in AllNestedTypes(u, walk, roots[i])
    decreases |roots|
  {
    if |roots| > 0 {
      NestedOfAllCharacterized(u, walk, roots[1..], x);
      if exists i :: 0 <= i < |roots| && x in AllNestedTypes(u, walk, roots[i]) {
        var i :| 0 <= i < |roots| && x in AllNestedTypes(u, walk, roots[i]);
        if i > 0 {
          assert roots[1..][i - 1] == roots[i];
        }
      }
      if exists i :: 0 <= i < |roots| - 1 && x in AllNestedTypes(u, walk, roots[1..][i]) {
        var i :| 0 <= i < |roots| - 1 && x in AllNestedTypes(u, walk, roots[1..][i]);
        assert roots[1..][i] == roots[i + 1];
      }
    }
  }

  /** Every type emitted is a root or in the closure of a root, and each of
      those is emitted exactly once. */
  lemma TypesToEmitCharacterized(u: Universe, walk: Walk, roots: seq<HostType>, x: HostType)
    ensures x in TypesToEmit(u, walk, roots) <==>
            x in roots || exists i :: 0 <= i < |roots| && x in AllNestedTypes(u, walk, roots[i])
  {
    NestedOfAllCharacterized(u, walk, roots, x);
    var all := NestedOfAll(u, walk, roots) + roots;
    if x in all {
      var k :| 0 <= k < |all| && all[k] == x;
    }
    var d := Distinct(all);
    if x in d {
      var k :| 0 <= k < |d| && d[k] == x;
    }
    if x in TypesToEmit(u, walk, roots) {
      var k :| 0 <= k < |TypesToEmit(u, walk, roots)| && TypesToEmit(u, walk, roots)[k] == x;
    }
  }

  // ---------------------------------------------------------------------------
  // The two conversions the run calls
  // ---------------------------------------------------------------------------

  /** A type's module conversion (`ConvertCsToJs`): relative path and lines. */
  type ModuleConverter = HostType -> Result<(string, seq<string>), ConvertError>

  /** An enum's block in the shared file (`ConvertEnum2Js`). */
  type BlockConverter = HostType -> Result<seq<string>, ConvertError>

  /** What the run relies on from the module conversion: it succeeds exactly
      on the types `Convertible` in `u`, reports the type's file path, and
      otherwise throws the type's `ConversionError`. */
  ghost predicate ConvertsModules(u: Universe, convert: ModuleConverter) {
    forall t :: (convert(t).Success? <==> Convertible(u, t))
                && (convert(t).Success? ==> convert(t).value.0 == TransferTypeToFileName(t, ScriptExtension).filePath)
                && (convert(t).Failure? ==> convert(t).error == ConversionError(t))
  }

  /** What the run relies on from the enum conversion: it succeeds exactly on
      enums and throws `NotConvertible` otherwise. */
  ghost predicate ConvertsEnums(block: BlockConverter) {
    forall t :: (block(t).Success? <==> IsEnum(t)) && (block(t).Failure? ==> block(t).error == NotConvertible(t))
  }

  function ModuleConversion(u: Universe, docs: DocTarget -> string): ModuleConverter {
    t => ConvertCsToJs(u, docs, t)
  }

  function EnumConversion(u: Universe, docs: DocTarget -> string): BlockConverter {
    t => ConvertEnum2Js(u, docs, t)
  }

  /** The emitters meet what the run relies on. */
  lemma ConversionsSound(u: Universe, docs: DocTarget -> string)
    ensures ConvertsModules(u, ModuleConversion(u, docs))
    ensures ConvertsEnums(EnumConversion(u, docs))
  {
    forall t ensures ModuleConversion(u, docs)(t) == ConvertCsToJs(u, docs, t) {
    }
    forall t ensures EnumConversion(u, docs)(t) == ConvertEnum2Js(u, docs, t) {
    }
  }

  // ---------------------------------------------------------------------------
  // Writing modules
  // ---------------------------------------------------------------------------

  /** The module a conversion result is written as under `folder`. */
  function ModuleOf(folder: string, c: Result<(string, seq<string>), ConvertError>): (r: Result<Module, ConvertError>)
    ensures r.Success? <==> c.Success?
    ensures r.Failure? ==> r.error == c.error
    ensures r.Success? ==> r.value == Module(Combine(folder, c.value.0), c.value.0, c.value.1)
  {
    match c
    case Success((rel, lines)) => Success(Module(Combine(folder, rel), rel, lines))
    case Failure(e) => Failure(e)
  }

  /** The successes before the first failure, and that failure if any. */
  function UntilFailure<T, E>(rs: seq<Result<T, E>>): (r: (seq<T>, Option<E>))
    ensures |r.0| <= |rs|
    ensures forall i :: 0 <= i < |r.0| ==> rs[i] == Success(r.0[i])
    ensures r.1.None? <==> |r.0| == |rs|
    ensures r.1.Some? ==> rs[|r.0|] == Failure(r.1.value)
    decreases |rs|
  {
    if |rs| == 0 then ([], None)
    else
      match rs[0]
      case Failure(e) => ([], Some(e))
      case Success(m) =>
        var rest := UntilFailure(rs[1..]);
        assert forall i :: 1 <= i < |rs| ==> rs[1..][i - 1] == rs[i];
        ([m] + rest.0, rest.1)
  }

  /** The types converted in order, up to the first that throws. */
  function ConvertModules(convert: ModuleConverter, folder: string, ts: seq<HostType>)
    : (r: (seq<Module>, Option<ConvertError>))
    ensures |r.0| <= |ts|
    ensures forall i :: 0 <= i < |r.0| ==> ModuleOf(folder, convert(ts[i])) == Success(r.0[i])
    ensures r.1.None? <==> |r.0| == |ts|
    ensures r.1.Some? ==> ModuleOf(folder, convert(ts[|r.0|])) == Failure(r.1.value)
  {
    UntilFailure(seq(|ts|, i requires 0 <= i < |ts| => ModuleOf(folder, convert(ts[i]))))
  }

  /** One pass of the write loop: a path already in the dictionary is skipped;
      otherwise the file is written and recorded. */
  function WriteModule(o: Output, m: Module): Output {
    if m.fullPath in o.result then o
    else Output(o.files[m.fullPath := m.lines], o.result[m.fullPath := m.relPath], o.writes + 1)
  }

  function Paths(ms: seq<Module>): set<string> {
    set i | 0 <= i < |ms| :: ms[i].fullPath
  }

  /** The write loop over `ms`, from an empty folder. One file is written per
      distinct path, and the dictionary and the folder hold the same paths. */
  function Publish(ms: seq<Module>): (o: Output)
    ensures o.files.Keys == Paths(ms) && o.result.Keys == Paths(ms)
    ensures o.writes == |Paths(ms)|
    decreases |ms|
  {
    if |ms| == 0 then EmptyOutput
    else
      var front := ms[..|ms| - 1];
      var m := ms[|ms| - 1];
      var o := Publish(front);
      PathsSnoc(ms);
      WriteModule(o, m)
  }

  lemma PathsSnoc(ms: seq<Module>)
    requires |ms| > 0
    ensures Paths(ms) == Paths(ms[..|ms| - 1]) + {ms[|ms| - 1].fullPath}
  {
    var front := ms[..|ms| - 1];
    forall p | p in Paths(ms) ensures p in Paths(front) + {ms[|ms| - 1].fullPath} {
      var i :| 0 <= i < |ms| && ms[i].fullPath == p;
      if i < |ms| - 1 {
        assert front[i] == ms[i];
      }
    }
    forall p | p in Paths(front) ensures p in Paths(ms) {
      var i :| 0 <= i < |front| && front[i].fullPath == p;
      assert ms[i] == front[i];
    }
  }

  /** The module at index `i` is the first one written to its path. */
  ghost predicate IsFirstAt(ms: seq<Module>, i: int) {
    0 <= i < |ms| && forall j :: 0 <= j < i ==> ms[j].fullPath != ms[i].fullPath
  }

  /** The first module written to a path is the one the path keeps. */
  lemma {:induction false} PublishFirstWriterWins(ms: seq<Module>, i: int)
    requires IsFirstAt(ms, i)
    ensures Publish(ms).files[ms[i].fullPath] == ms[i].lines
    ensures Publish(ms).result[ms[i].fullPath] == ms[i].relPath
    decreases |ms|
  {
    var front := ms[..|ms| - 1];
    var o := Publish(front);
    if i < |ms| - 1 {
      assert front[i] == ms[i];
      assert IsFirstAt(front, i);
      PublishFirstWriterWins(front, i);
    } else {
      assert ms[i].fullPath !in Paths(front);
    }
  }

  // ---------------------------------------------------------------------------
  // The enumeration file
  // ---------------------------------------------------------------------------

  /** The blocks of all enums, in order; the first failure is thrown. */
  function EnumBlocks(block: BlockConverter, ts: seq<HostType>): (r: Result<seq<string>, ConvertError>)
    ensures r.Success? <==> forall i :: 0 <= i < |ts| ==> block(ts[i]).Success?
    decreases |ts|
  {
    if |ts| == 0 then Success([])
    else
      match block(ts[0])
      case Failure(e) => Failure(e)
      case Success(b) =>
        assert forall i :: 1 <= i < |ts| ==> ts[1..][i - 1] == ts[i];
        match EnumBlocks(block, ts[1..])
        case Failure(e) => Failure(e)
        case Success(rest) => Success(b + rest)
  }

  function EnumPath(folder: string): string {
    Combine(Combine(folder, EnumsFolder), EnumFile)
  }

  /** The enumeration file is written whatever the folder holds, and recorded
      only if its path is new (`TryAdd`). */
  function WriteEnumFile(o: Output, path: string, lines: seq<string>): (r: Output)
    ensures r.files == o.files[path := lines]
    ensures r.result.Keys == o.result.Keys + {path}
    ensures forall k :: k in o.result ==> r.result[k] == o.result[k]
    ensures path !in o.result ==> r.result[path] == path
    ensures r.writes == o.writes + 1
  {
    Output(o.files[path := lines], if path in o.result then o.result else o.result[path := path], o.writes + 1)
  }

  // ---------------------------------------------------------------------------
  // The run
  // ---------------------------------------------------------------------------

  /** The JavaScript run once the types are chosen: the modules of `types`
      under `folder`, then the enumeration file of `enums`. */
  function Run(convert: ModuleConverter, block: BlockConverter, folder: string,
               types: seq<HostType>, enums: seq<HostType>): Outcome
  {
    var (ms, err) := ConvertModules(convert, folder, types);
    var o := Publish(ms);
    if err.Some? then Aborted(o, err.value)
    else
      match EnumBlocks(block, enums)
      case Failure(e) => Aborted(o, e)
      case Success(blocks) => Completed(WriteEnumFile(o, EnumPath(folder), GeneratedHeader + blocks))
  }

  /** The types emitted as modules: the view-model roots and their closures. */
  function TypesOf(u: Universe, walk: Walk, assembly: seq<DeclInfo>): seq<HostType> {
    TypesToEmit(u, walk, ViewModelsToConvert(u, assembly))
  }

  /** `Generate(rootPath, scriptType)` over the types of `assembly`. */
  function Generate(u: Universe, docs: DocTarget -> string, walk: Walk, rootPath: string,
                    assembly: seq<DeclInfo>, scriptType: ScriptType): Outcome
  {
    if scriptType == Typescript then Completed(EmptyOutput)
    else Run(ModuleConversion(u, docs), EnumConversion(u, docs), Combine(rootPath, ModulesFolder),
             TypesOf(u, walk, assembly), EnumsToConvert(u, assembly))
  }

  /** The full path a type's module is written to under `folder`. */
  function ModulePath(folder: string, t: HostType): string {
    Combine(folder, TransferTypeToFileName(t, ScriptExtension).filePath)
  }

  /** Typescript output is not implemented: the run writes nothing. */
  lemma TypescriptWritesNothing(u: Universe, docs: DocTarget -> string, walk: Walk, rootPath: string, assembly: seq<DeclInfo>)
    ensures Generate(u, docs, walk, rootPath, assembly, Typescript) == Completed(EmptyOutput)
  {
  }

  lemma ConvertModulesAllIff(u: Universe, convert: ModuleConverter, folder: string, types: seq<HostType>)
    requires ConvertsModules(u, convert)
    ensures ConvertModules(convert, folder, types).1.None? <==> forall t :: t in types ==> Convertible(u, t)
  {
    var r := ConvertModules(convert, folder, types);
    if r.1.Some? {
      assert !Convertible(u, types[|r.0|]);
    } else {
      forall t | t in types ensures Convertible(u, t) {
        var i :| 0 <= i < |types| && types[i] == t;
        assert convert(types[i]).Success?;
      }
    }
  }

  lemma EnumBlocksAllIff(block: BlockConverter, enums: seq<HostType>)
    requires ConvertsEnums(block)
    ensures EnumBlocks(block, enums).Success? <==> forall t :: t in enums ==> IsEnum(t)
  {
    if EnumBlocks(block, enums).Failure? {
      var i :| 0 <= i < |enums| && !block(enums[i]).Success?;
    }
  }

  /** A run completes exactly when every type converts and every enum type is
      an enum. */
  lemma RunCompletesIff(u: Universe, convert: ModuleConverter, block: BlockConverter, folder: string,
                        types: seq<HostType>, enums: seq<HostType>)
    requires ConvertsModules(u, convert) && ConvertsEnums(block)
    ensures Run(convert, block, folder, types, enums).Completed? <==>
            (forall t :: t in types ==> Convertible(u, t)) && (forall t :: t in enums ==> IsEnum(t))
  {
    ConvertModulesAllIff(u, convert, folder, types);
    EnumBlocksAllIff(block, enums);
  }

  /** A JavaScript run writes the modules of the view-model roots and their
      closures under `TypeModules`, then the enumeration file. */
  lemma GenerateIsRun(u: Universe, docs: DocTarget -> string, walk: Walk, rootPath: string,
                      assembly: seq<DeclInfo>, scriptType: ScriptType)
    requires scriptType != Typescript
    ensures Generate(u, docs, walk, rootPath, assembly, scriptType) ==
            Run(ModuleConversion(u, docs), EnumConversion(u, docs), Combine(rootPath, ModulesFolder),
                TypesOf(u, walk, assembly), EnumsToConvert(u, assembly))
  {
  }

  /** A JavaScript run completes exactly when every emitted type is an enum,
      or a class or interface without a public property the nullable probe
      rejects, and every type of an `.Enums` namespace is an enum. */
  lemma GenerateCompletesIff(u: Universe, docs: DocTarget -> string, walk: Walk, rootPath: string,
                             assembly: seq<DeclInfo>, scriptType: ScriptType)
    requires scriptType != Typescript
    ensures Generate(u, docs, walk, rootPath, assembly, scriptType).Completed? <==>
            (forall t :: t in TypesOf(u, walk, assembly) ==> Convertible(u, t))
            && (forall t :: t in EnumsToConvert(u, assembly) ==> IsEnum(t))
  {
    ConversionsSound(u, docs);
    RunCompletesIff(u, ModuleConversion(u, docs), EnumConversion(u, docs), Combine(rootPath, ModulesFolder),
                    TypesOf(u, walk, assembly), EnumsToConvert(u, assembly));
  }

  lemma ModulePaths(u: Universe, convert: ModuleConverter, folder: string, types: seq<HostType>)
    requires ConvertsModules(u, convert)
    requires ConvertModules(convert, folder, types).1.None?
    ensures Paths(ConvertModules(convert, folder, types).0) == set t | t in types :: ModulePath(folder, t)
    ensures forall j :: 0 <= j < |types| ==> ConvertModules(convert, folder, types).0[j].fullPath == ModulePath(folder, types[j])
  {
    var ms := ConvertModules(convert, folder, types).0;
    forall j | 0 <= j < |ms| ensures ms[j].fullPath == ModulePath(folder, types[j]) {
      assert ModuleOf(folder, convert(types[j])) == Success(ms[j]);
    }
    forall p | p in Paths(ms) ensures p in set t | t in types :: ModulePath(folder, t) {
      var j :| 0 <= j < |ms| && ms[j].fullPath == p;
      assert types[j] in types;
    }
    forall p | p in set t | t in types :: ModulePath(folder, t) ensures p in Paths(ms) {
      var t :| t in types && ModulePath(folder, t) == p;
      var j :| 0 <= j < |types| && types[j] == t;
      assert ms[j].fullPath == p;
    }
  }

  /** A completed run is the write loop over all modules followed by the
      enumeration file. */
  lemma RunCompletedShape(convert: ModuleConverter, block: BlockConverter, folder: string,
                          types: seq<HostType>, enums: seq<HostType>)
    requires Run(convert, block, folder, types, enums).Completed?
    ensures ConvertModules(convert, folder, types).1.None?
    ensures EnumBlocks(block, enums).Success?
    ensures Run(convert, block, folder, types, enums).out ==
            WriteEnumFile(Publish(ConvertModules(convert, folder, types).0), EnumPath(folder),
                          GeneratedHeader + EnumBlocks(block, enums).value)
  {
  }

  /** After a completed run the dictionary holds one entry per distinct module
      path plus the enumeration file, the enumeration file holds the header and
      all enum blocks, and there was one write per distinct module path plus
      one. */
  lemma RunOutput(u: Universe, convert: ModuleConverter, block: BlockConverter, folder: string,
                  types: seq<HostType>, enums: seq<HostType>)
    requires ConvertsModules(u, convert)
    requires Run(convert, block, folder, types, enums).Completed?
    ensures var o := Run(convert, block, folder, types, enums).out;
            var paths := set t | t in types :: ModulePath(folder, t);
            && o.result.Keys == paths + {EnumPath(folder)}
            && o.files.Keys == o.result.Keys
            && EnumBlocks(block, enums).Success?
            && o.files[EnumPath(folder)] == GeneratedHeader + EnumBlocks(block, enums).value
            && o.writes == |paths| + 1
  {
    RunCompletedShape(convert, block, folder, types, enums);
    ModulePaths(u, convert, folder, types);
    WrittenEnumFile(Publish(ConvertModules(convert, folder, types).0), EnumPath(folder),
                    GeneratedHeader + EnumBlocks(block, enums).value);
  }

  /** Writing the enumeration file after the modules adds its path to both
      maps and one write. */
  lemma WrittenEnumFile(o: Output, path: string, lines: seq<string>)
    requires o.files.Keys == o.result.Keys
    ensures var o' := WriteEnumFile(o, path, lines);
            && o'.files.Keys == o'.result.Keys == o.result.Keys + {path}
            && o'.files[path] == lines
            && o'.writes == o.writes + 1
  {
  }

  lemma PublishedModule(u: Universe, convert: ModuleConverter, folder: string, types: seq<HostType>, i: nat)
    requires ConvertsModules(u, convert)
    requires ConvertModules(convert, folder, types).1.None?
    requires i < |types|
    requires forall j :: 0 <= j < i ==> ModulePath(folder, types[j]) != ModulePath(folder, types[i])
    ensures var o := Publish(ConvertModules(convert, folder, types).0);
            && ModulePath(folder, types[i]) in o.files && ModulePath(folder, types[i]) in o.result
            && o.files[ModulePath(folder, types[i])] == convert(types[i]).value.1
            && o.result[ModulePath(folder, types[i])] == TransferTypeToFileName(types[i], ScriptExtension).filePath
  {
    var ms := ConvertModules(convert, folder, types).0;
    ModulePaths(u, convert, folder, types);
    var p := ModulePath(folder, types[i]);
    assert IsFirstAt(ms, i) by {
      forall j | 0 <= j < i ensures ms[j].fullPath != p {
        assert ms[j].fullPath == ModulePath(folder, types[j]);
      }
    }
    PublishFirstWriterWins(ms, i);
    assert ModuleOf(folder, convert(types[i])) == Success(ms[i]);
  }

  /** After a completed run, the `i`-th type's path holds its module and
      reports its relative path, unless an earlier type or the enumeration file
      took that path. */
  lemma RunOutputModule(u: Universe, convert: ModuleConverter, block: BlockConverter, folder: string,
                        types: seq<HostType>, enums: seq<HostType>, i: nat)
    requires ConvertsModules(u, convert)
    requires Run(convert, block, folder, types, enums).Completed?
    requires i < |types|
    requires forall j :: 0 <= j < i ==> ModulePath(folder, types[j]) != ModulePath(folder, types[i])
    requires ModulePath(folder, types[i]) != EnumPath(folder)
    ensures var o := Run(convert, block, folder, types, enums).out;
            && ModulePath(folder, types[i]) in o.files && ModulePath(folder, types[i]) in o.result
            && o.files[ModulePath(folder, types[i])] == convert(types[i]).value.1
            && o.result[ModulePath(folder, types[i])] == TransferTypeToFileName(types[i], ScriptExtension).filePath
  {
    RunCompletedShape(convert, block, folder, types, enums);
    PublishedModule(u, convert, folder, types, i);
    var published := Publish(ConvertModules(convert, folder, types).0);
    var p := ModulePath(folder, types[i]);
    var o := WriteEnumFile(published, EnumPath(folder), GeneratedHeader + EnumBlocks(block, enums).value);
    assert o.files[p] == published.files[p] && o.result[p] == published.result[p];
  }

  /** An aborted run keeps exactly the modules written before the failing
      type; it fails on a type that cannot be converted or, once all modules
      are written, on a non-enum in an `.Enums` namespace. */
  lemma RunAbortedKeepsEarlierModules(u: Universe, convert: ModuleConverter, block: BlockConverter, folder: string,
                                      types: seq<HostType>, enums: seq<HostType>)
    requires ConvertsModules(u, convert) && ConvertsEnums(block)
    requires Run(convert, block, folder, types, enums).Aborted?
    ensures var r := ConvertModules(convert, folder, types);
            && Run(convert, block, folder, types, enums).out == Publish(r.0)
            && (r.1.Some? ==> !Convertible(u, types[|r.0|])
                              && Run(convert, block, folder, types, enums).error == ConversionError(types[|r.0|]))
            && (r.1.None? ==> exists t :: (t in enums && !IsEnum(t)
                                           && Run(convert, block, folder, types, enums).error == NotConvertible(t)))
  {
    var r := ConvertModules(convert, folder, types);
    if r.1.None? {
      var e := FirstFailure(block, enums);
      assert enums[e] in enums;
    }
  }

  /** The index of the enum whose failure `EnumBlocks` throws. */
  function FirstFailure(block: BlockConverter, ts: seq<HostType>): (k: nat)
    requires EnumBlocks(block, ts).Failure?
    ensures k < |ts| && block(ts[k]).Failure? && EnumBlocks(block, ts).error == block(ts[k]).error
    decreases |ts|
  {
    if block(ts[0]).Failure? then 0
    else
      assert forall i :: 1 <= i < |ts| ==> ts[1..][i - 1] == ts[i];
      1 + FirstFailure(block, ts[1..])
  }
}

=== FILE: graphs.dfy ===
/** Paths and reachability over a successor function. The nested-type walk
    instantiates `next` with the child rule; stating the path facts once, for
    any successor function, keeps them independent of how children are found. */
module Graphs {

  /** A non-empty sequence whose every element is a successor of the one before. */
  ghost predicate IsPath<T>(next: T -> seq<T>, p: seq<T>) {
    |p| > 0 && forall i :: 0 <= i < |p| - 1 ==> p[i + 1] in next(p[i])
  }

  ghost predicate Reachable<T(!new)>(next: T -> seq<T>, a: T, b: T) {
    exists p :: IsPath(next, p) && p[0] == a && p[|p| - 1] == b
  }

  lemma ReachableSelf<T(!new)>(next: T -> seq<T>, a: T)
    ensures Reachable(next, a, a)
  {
    assert IsPath(next, [a]);
  }

  lemma ReachableChild<T(!new)>(next: T -> seq<T>, a: T, b: T)
    requires b in next(a)
    ensures Reachable(next, a, b)
  {
    assert IsPath(next, [a, b]);
  }

  /** A successor of `a` that reaches `c` makes `a` reach `c`. */
  lemma ReachableStep<T(!new)>(next: T -> seq<T>, a: T, b: T, c: T)
    requires b in next(a) && Reachable(next, b, c)
    ensures Reachable(next, a, c)
  {
    var p :| IsPath(next, p) && p[0] == b && p[|p| - 1] == c;
    var q := [a] + p;
    forall i | 0 <= i < |q| - 1 ensures q[i + 1] in next(q[i]) {
      if i > 0 {
        assert q[i] == p[i - 1] && q[i + 1] == p[i];
      }
    }
    assert IsPath(next, q);
  }

  /** Reaching `b` and stepping to a successor of `b` reaches that successor. */
  lemma ReachableExtend<T(!new)>(next: T -> seq<T>, a: T, b: T, c: T)
    requires Reachable(next, a, b) && c in next(b)
    ensures Reachable(next, a, c)
  {
    var p :| IsPath(next, p) && p[0] == a && p[|p| - 1] == b;
    var q := p + [c];
    forall i | 0 <= i < |q| - 1 ensures q[i + 1] in next(q[i]) {
      assert q[i] == p[i];
      if i < |p| - 1 {
        assert q[i + 1] == p[i + 1];
      }
    }
    assert IsPath(next, q);
  }

  /** A path that starts in a set closed under `next` stays in it. */
  lemma {:induction false} PathStaysIn<T>(next: T -> seq<T>, s: seq<T>, p: seq<T>)
    requires IsPath(next, p) && p[0] in s
    requires forall x, c :: x in s && c in next(x) ==> c in s
    ensures p[|p| - 1] in s
    decreases |p|
  {
    if |p| > 1 {
      var q := p[..|p| - 1];
      assert IsPath(next, q);
      PathStaysIn(next, s, q);
      assert p[|p| - 1] in next(q[|q| - 1]);
    }
  }

  /** Everything reachable from a member of a closed set is in the set. */
  lemma ReachableStaysIn<T(!new)>(next: T -> seq<T>, s: seq<T>, a: T, b: T)
    requires a in s && Reachable(next, a, b)
    requires forall x, c :: x in s && c in next(x) ==> c in s
    ensures b in s
  {
    var p :| IsPath(next, p) && p[0] == a && p[|p| - 1] == b;
    PathStaysIn(next, s, p);
  }

  /** Something other than the start is reached through a last step. */
  lemma LastStep<T(!new)>(next: T -> seq<T>, a: T, b: T) returns (y: T)
    requires Reachable(next, a, b) && a != b
    ensures Reachable(next, a, y) && b in next(y)
  {
    var p :| IsPath(next, p) && p[0] == a && p[|p| - 1] == b;
    var q := p[..|p| - 1];
    assert IsPath(next, q);
    y := q[|q| - 1];
  }

  /** From one of two nodes whose successors stay among themselves, only
      those two nodes are reachable. */
  lemma ReachableInPair<T(!new)>(next: T -> seq<T>, a: T, b: T, x: T)
    requires forall c :: c in next(a) ==> c == a || c == b
    requires forall c :: c in next(b) ==> c == a || c == b
    requires Reachable(next, a, x)
    ensures x == a || x == b
  {
    forall y, c | y in [a, b] && c in next(y) ensures c in [a, b] {
      assert y == a || y == b;
    }
    ReachableStaysIn(next, [a, b], a, x);
  }

  /** A node whose only successor has no successors reaches nothing else. */
  lemma DeadEnd<T(!new)>(next: T -> seq<T>, a: T, b: T, x: T)
    requires next(a) == [b] && next(b) == []
    requires x != a && x != b
    ensures !Reachable(next, a, x)
  {
    if Reachable(next, a, x) {
      ReachableInPair(next, a, b, x);
    }
  }
}

=== FILE: host_types.dfy ===
/** The reflected type universe the generator reads. .NET reflection is
    replaced by an explicit, finite description: a `HostType` names a type
    structurally, and a `Universe` supplies the ordered public property list of
    each type (the only part of the graph that can be cyclic) and the entries of
    each enumeration. */
module HostTypes {

  import opened Wrappers

  /** The types that are keys of the conversion table: the numeric family,
      `string`, `char`, `bool`, `object`, `void`, `StringValues` and `DateTime`.
      (`DateTime?` is the constructed `Nullable<DateTime>`.) */
  datatype Builtin =
    | String | Char | Byte | SByte | Int16 | UInt16 | Int32 | UInt32 | Int64 | UInt64
    | Single | Double | Decimal | Boolean | Object | Void | StringValues | DateTime

  datatype Kind = Class | Interface | Enum | Struct

  /** A type declared in some assembly: its kind, its simple name, its
      namespace (null for the global namespace), its full name (nested types
      use `Outer+Inner`) and the flags the root selection tests. */
  datatype DeclInfo = DeclInfo(
    kind: Kind,
    name: string,
    ns: Option<string>,
    fullName: string,
    isAbstract: bool,
    isVisible: bool,           // IsPublic || IsNestedPublic
    isGenericDefinition: bool, // an open generic such as Foo<T>
    fieldCount: nat)           // number of public fields

  /** A generic type definition such as `List<>`. `name` is its reflection name
      with the arity mark (`List`1`); `enumeratesFirstArg` says whether
      `Def<A, ...>` is assignable to `IEnumerable<A>`. */
  datatype GenericDef = GenericDef(name: string, ns: string, kind: Kind, enumeratesFirstArg: bool)

  datatype HostType =
    | Table(builtin: Builtin)
    | Declared(info: DeclInfo)
    | ArrayOf(elem: HostType)
    | Constructed(def: GenericDef, args: seq<HostType>)

  datatype Property = Property(name: string, ty: HostType, publicGetter: bool)

  /** One entry of an enumeration: value, name and description as produced by
      the external enum-mapping tool, together with the `DisplayName` and
      `Display(Name = ...)` attributes of the field (absent or null: `None`). */
  datatype EnumEntry = EnumEntry(
    value: int,
    name: string,
    description: string,
    displayName: Option<string>,
    displayAttrName: Option<string>)

  datatype Universe = Universe(
    props: map<HostType, seq<Property>>,
    enumEntries: map<HostType, seq<EnumEntry>>)

  const NullableDef := GenericDef("Nullable`1", "System", Struct, false)
  const IDictionaryDef := GenericDef("IDictionary`2", "System.Collections.Generic", Interface, false)
  const TaskDef := GenericDef("Task`1", "System.Threading.Tasks", Class, false)

  function BuiltinName(b: Builtin): string {
    match b
    case String => "String"
    case Char => "Char"
    case Byte => "Byte"
    case SByte => "SByte"
    case Int16 => "Int16"
    case UInt16 => "UInt16"
    case Int32 => "Int32"
    case UInt32 => "UInt32"
    case Int64 => "Int64"
    case UInt64 => "UInt64"
    case Single => "Single"
    case Double => "Double"
    case Decimal => "Decimal"
    case Boolean => "Boolean"
    case Object => "Object"
    case Void => "Void"
    case StringValues => "StringValues"
    case DateTime => "DateTime"
  }

  function BuiltinNamespace(b: Builtin): string {
    if b == StringValues then "Microsoft.Extensions.Primitives" else "System"
  }

  /** The keyword the conversion table assigns to a builtin. */
  function BuiltinKeyword(b: Builtin): string {
    match b
    case String | Char | StringValues => "string"
    case Byte | SByte | Int16 | UInt16 | Int32 | UInt32 | Int64 | UInt64 | Single | Double | Decimal => "number"
    case Boolean => "boolean"
    case Object => "any"
    case Void => "void"
    case DateTime => "datetime"
  }

  /** Lookup in the conversion table; its keys are the builtins and `DateTime?`. */
  function TableKeyword(t: HostType): Option<string> {
    match t
    case Table(b) => Some(BuiltinKeyword(b))
    case Constructed(d, args) =>
      if d == NullableDef && args == [Table(DateTime)] then Some("datetime") else None
    case _ => None
  }

  predicate InTable(t: HostType) {
    TableKeyword(t).Some?
  }

  /** `Type.Name`. */
  function Name(t: HostType): string {
    match t
    case Table(b) => BuiltinName(b)
    case Declared(info) => info.name
    case ArrayOf(e) => Name(e) + "[]"
    case Constructed(d, _) => d.name
  }

  /** `Type.Namespace`. */
  function Namespace(t: HostType): Option<string> {
    match t
    case Table(b) => Some(BuiltinNamespace(b))
    case Declared(info) => info.ns
    case ArrayOf(e) => Namespace(e)
    case Constructed(d, _) => Some(d.ns)
  }

  /** `Type.FullName`; for a constructed generic the arguments are listed by
      full name without their assembly qualification. */
  function FullName(t: HostType): string
    decreases t, 1
  {
    match t
    case Table(b) => BuiltinNamespace(b) + "." + BuiltinName(b)
    case Declared(info) => info.fullName
    case ArrayOf(e) => FullName(e) + "[]"
    case Constructed(d, args) => d.ns + "." + d.name + "[" + ArgFullNames(args) + "]"
  }

  function ArgFullNames(args: seq<HostType>): string
    decreases args, 0
  {
    if |args| == 0 then ""
    else "[" + FullName(args[0]) + "]" + (if |args| == 1 then "" else "," + ArgFullNames(args[1..]))
  }

  predicate IsClass(t: HostType) {
    match t
    case Table(b) => b == String || b == Object
    case Declared(info) => info.kind == Class
    case ArrayOf(_) => true
    case Constructed(d, _) => d.kind == Class
  }

  predicate IsInterface(t: HostType) {
    (t.Declared? && t.info.kind == Interface) || (t.Constructed? && t.def.kind == Interface)
  }

  predicate IsEnum(t: HostType) {
    t.Declared? && t.info.kind == Enum
  }

  predicate IsValueType(t: HostType) {
    match t
    case Table(b) => b != String && b != Object
    case Declared(info) => info.kind == Enum || info.kind == Struct
    case ArrayOf(_) => false
    case Constructed(d, _) => d.kind == Struct
  }

  /** `Type.IsAbstract`: interfaces are abstract, as are abstract and static classes. */
  predicate IsAbstract(t: HostType) {
    (t.Declared? && (t.info.isAbstract || t.info.kind == Interface)) || (t.Constructed? && t.def.kind == Interface)
  }

  /** `Type.IsPrimitive`: the numeric types other than `decimal`, plus `bool` and `char`. */
  predicate IsPrimitive(t: HostType) {
    t.Table? && t.builtin in {Boolean, Byte, SByte, Int16, UInt16, Int32, UInt32, Int64, UInt64, Char, Double, Single}
  }

  /** `Type.IsGenericType`: constructed generics and open generic definitions. */
  predicate IsGenericType(t: HostType) {
    t.Constructed? || (t.Declared? && t.info.isGenericDefinition)
  }

  /** `IEnumerable<a>` is assignable from `t` (arrays are handled separately by the callers). */
  predicate EnumerableOf(a: HostType, t: HostType) {
    t.Constructed? && |t.args| > 0 && t.args[0] == a && t.def.enumeratesFirstArg
  }

  /** `Nullable<a>` is assignable from `t`: only `Nullable<a>` itself is. */
  predicate NullableOf(a: HostType, t: HostType) {
    t == Constructed(NullableDef, [a])
  }

  /** The public properties `System.Array` exposes on every array type. */
  const ArrayProperties: seq<Property> := [
    Property("Length", Table(Int32), true),
    Property("LongLength", Table(Int64), true),
    Property("Rank", Table(Int32), true),
    Property("SyncRoot", Table(Object), true),
    Property("IsReadOnly", Table(Boolean), true),
    Property("IsFixedSize", Table(Boolean), true),
    Property("IsSynchronized", Table(Boolean), true)
  ]

  /** `Type.GetProperties()`. Table types are given no properties: all of
      theirs are table types, enums or structs, which nothing downstream keeps. */
  function PropertiesOf(u: Universe, t: HostType): seq<Property> {
    match t
    case Table(_) => []
    case ArrayOf(_) => ArrayProperties
    case _ => if t in u.props then u.props[t] else []
  }

  function EnumEntriesOf(u: Universe, t: HostType): seq<EnumEntry> {
    if t in u.enumEntries then u.enumEntries[t] else []
  }
}

=== FILE: js_emitter.dfy ===
/** The JavaScript emitters: a class module for a class or interface, a frozen
    enumeration object for an enum, and the per-enum block of the shared
    enumeration file. Every emitter returns its lines; documentation summaries
    are read through `docs`, which answers what `GetSummary` answers for a
    type, a property or an enum field. */
module JsEmitter {

  import opened Wrappers
  import opened Text
  import opened HostTypes
  import opened TypeMapper
  import opened FileNames

  /** What a summary is looked up for. */
  datatype DocTarget =
    | OfType(t: HostType)
    | OfProperty(owner: HostType, name: string)
    | OfField(owner: HostType, name: string)

  /** Why a conversion throws: `InvalidOperationException` for a type that is
      neither a class, an interface nor an enum, or the `ArgumentException` of
      `GetNullableType` for a class or interface with a public property whose
      first type argument is itself a nullable. */
  datatype ConvertError = NotConvertible(t: HostType) | ConstraintViolated(t: HostType)

  /** The three lines every generated file starts with. */
  const GeneratedHeader: seq<string> := ["/* ===== 此檔案是自動產生 ===== */", "/* ===== 請勿手動變更修改 ===== */", ""]

  const ConstructorOpen := "    constructor () {"
  const DeclIndent := "    "
  const InitPrefix := "        this."
  const ErrorPrefix := "        this.ModelError__"
  const ErrorSuffix := " = '';"

  /** A property name as C# allows it: non-empty and free of spaces. */
  predicate IsIdentifier(name: string) {
    |name| > 0 && ' ' !in name
  }

  // ---------------------------------------------------------------------------
  // Classes
  // ---------------------------------------------------------------------------

  /** The optional documentation line: the trimmed summary after `indent`,
      present exactly when that summary is not blank. */
  function SummaryLines(indent: string, summary: string): (r: seq<string>)
    ensures |r| <= 1
    ensures |r| == 1 <==> !IsBlank(summary)
    ensures |r| == 1 ==> r[0] == indent + Trim(summary) && |Trim(summary)| > 0
  {
    var s := Trim(summary);
    assert IsBlank(s) <==> IsBlank(summary) by {
      TrimEmptyIffBlank(summary);
      TrimIdempotent(summary);
      TrimEmptyIffBlank(s);
    }
    if IsBlank(s) then [] else [indent + s]
  }

  /** The properties with a public getter, in reflection order. */
  function PublicProperties(u: Universe, t: HostType): (r: seq<Property>)
    ensures forall p :: p in r <==> p in PropertiesOf(u, t) && p.publicGetter
  {
    Filter(PropertiesOf(u, t))
  }

  function Filter(ps: seq<Property>): (r: seq<Property>)
    ensures forall p :: p in r <==> p in ps && p.publicGetter
  {
    if |ps| == 0 then []
    else (if ps[0].publicGetter then [ps[0]] else []) + Filter(ps[1..])
  }

  /** The `@type` annotation: the converted element type and its suffix. */
  function TypeAnnotation(ty: HostType): string {
    MappedName(ty) + Suffix(ty)
  }

  /** The documented field declaration emitted for one property. */
  function PropertyLines(docs: DocTarget -> string, owner: HostType, p: Property): seq<string> {
    DocBlock(SummaryLines("     * ", docs(OfProperty(owner, p.name))), "     * @type {" + TypeAnnotation(p.ty) + "}", p.name)
  }

  /** A field declaration after its documentation comment. */
  function DocBlock(summaryLines: seq<string>, typeLine: string, name: string): seq<string> {
    ["    /**"] + summaryLines + [typeLine, "     */", DeclIndent + name + ";"]
  }

  function InitLine(p: Property): string {
    InitPrefix + p.name + " = " + Initializer(p.ty) + ";"
  }

  function ErrorLine(p: Property): string {
    ErrorPrefix + p.name + ErrorSuffix
  }

  function AllPropertyLines(docs: DocTarget -> string, owner: HostType, ps: seq<Property>): seq<string> {
    if |ps| == 0 then [] else PropertyLines(docs, owner, ps[0]) + AllPropertyLines(docs, owner, ps[1..])
  }

  /** The constructor body: an initialiser and an error slot per property. */
  function ConstructorLines(ps: seq<Property>): (r: seq<string>)
    ensures |r| == 2 * |ps|
  {
    if |ps| == 0 then [] else [InitLine(ps[0]), ErrorLine(ps[0])] + ConstructorLines(ps[1..])
  }

  /** `OutputJsClass`: the lines that follow the generated header. */
  function OutputJsClass(u: Universe, docs: DocTarget -> string, t: HostType, fileName: string): seq<string> {
    var ps := PublicProperties(u, t);
    ClassHead(docs, t, fileName) + AllPropertyLines(docs, t, ps)
    + ["", "    /** 建構式 */", ConstructorOpen] + ConstructorLines(ps) + ["    }", "}"]
  }

  function ClassHead(docs: DocTarget -> string, t: HostType, fileName: string): seq<string> {
    ["/**"] + SummaryLines(" * ", docs(OfType(t))) + [" * @class", " */", "class " + fileName + " {"]
  }

  // ---------------------------------------------------------------------------
  // Reading a class module back
  // ---------------------------------------------------------------------------

  /** The field a line declares, if it is a bare declaration `    name;`. */
  function DeclaredField(line: string): Option<string> {
    match StripAffixes(line, DeclIndent, ";")
    case Some(m) => if IsIdentifier(m) then Some(m) else None
    case None => None
  }

  /** The fields declared in a sequence of lines, in order. */
  function DeclaredFields(lines: seq<string>): seq<string> {
    if |lines| == 0 then []
    else
      (match DeclaredField(lines[0]) case Some(n) => [n] case None => [])
      + DeclaredFields(lines[1..])
  }

  /** An initialiser line read back as the property name and its initial value. */
  function ParseInitLine(line: string): Option<(string, string)> {
    match StripAffixes(line, InitPrefix, ";")
    case None => None
    case Some(m) =>
      var (name, rest) := SplitAtSpace(m);
      match StripAffixes(rest, " = ", "")
      case Some(init) => if |name| > 0 then Some((name, init)) else None
      case None => None
  }

  function ParseErrorLine(line: string): Option<string> {
    StripAffixes(line, ErrorPrefix, ErrorSuffix)
  }

  /** The constructor body read back as pairs (property, initial value); the
      error slot after each initialiser must name the same property. */
  function ParseConstructor(lines: seq<string>): Option<seq<(string, string)>>
    decreases |lines|
  {
    if |lines| == 0 then Some([])
    else if |lines| == 1 then None
    else
      match (ParseInitLine(lines[0]), ParseErrorLine(lines[1]), ParseConstructor(lines[2..]))
      case (Some(p), Some(n), Some(rest)) => if p.0 == n then Some([p] + rest) else None
      case _ => None
  }

  function Names(ps: seq<Property>): (r: seq<string>)
    ensures |r| == |ps| && forall i :: 0 <= i < |ps| ==> r[i] == ps[i].name
  {
    if |ps| == 0 then [] else [ps[0].name] + Names(ps[1..])
  }

  function InitPairs(ps: seq<Property>): (r: seq<(string, string)>)
    ensures |r| == |ps| && forall i :: 0 <= i < |ps| ==> r[i] == (ps[i].name, Initializer(ps[i].ty))
  {
    if |ps| == 0 then [] else [(ps[0].name, Initializer(ps[0].ty))] + InitPairs(ps[1..])
  }

  predicate AllIdentifiers(ps: seq<Property>) {
    forall i :: 0 <= i < |ps| ==> IsIdentifier(ps[i].name)
  }

  lemma {:induction false} DeclaredFieldsAppend(a: seq<string>, b: seq<string>)
    ensures DeclaredFields(a + b) == DeclaredFields(a) + DeclaredFields(b)
    decreases |a|
  {
    if |a| == 0 {
      assert a + b == b;
    } else {
      assert (a + b)[1..] == a[1..] + b;
      DeclaredFieldsAppend(a[1..], b);
    }
  }

  lemma NoFieldIn(line: string)
    requires |line| > 0 && line[|line| - 1] != ';'
    ensures DeclaredField(line) == None
  {
  }

  lemma {:induction false} NoFields(lines: seq<string>)
    requires forall i :: 0 <= i < |lines| ==> DeclaredField(lines[i]) == None
    ensures DeclaredFields(lines) == []
    decreases |lines|
  {
    if |lines| > 0 {
      NoFields(lines[1..]);
    }
  }

  /** A line with a space in column five declares nothing. */
  lemma IndentedDeclaresNothing(line: string)
    requires |line| > 4 && line[4] == ' '
    ensures DeclaredField(line) == None
  {
    var r := StripAffixes(line, DeclIndent, ";");
    assert r.Some? ==> |r.value| > 0 && r.value[0] == line[4];
  }

  lemma SummaryLinesDeclareNothing(indent: string, summary: string)
    requires |indent| > 4 && indent[4] == ' '
    ensures forall i :: 0 <= i < |SummaryLines(indent, summary)| ==> DeclaredField(SummaryLines(indent, summary)[i]) == None
  {
    var r := SummaryLines(indent, summary);
    if |r| == 1 {
      IndentedDeclaresNothing(r[0]);
    }
  }

  /** A line without a space in its second column is not a declaration. */
  lemma UnindentedDeclaresNothing(line: string)
    requires |line| > 1 && line[1] != ' '
    ensures DeclaredField(line) == None
  {
    var r := StripAffixes(line, DeclIndent, ";");
    var c := line[1];
    assert r.Some? ==> c == ' ';
  }

  lemma ClassSummaryDeclaresNothing(summary: string)
    ensures forall i :: 0 <= i < |SummaryLines(" * ", summary)| ==> DeclaredField(SummaryLines(" * ", summary)[i]) == None
  {
    var r := SummaryLines(" * ", summary);
    if |r| == 1 {
      assert r[0][1] == '*';
      UnindentedDeclaresNothing(r[0]);
    }
  }

  /** A documentation block followed by a bare declaration declares exactly
      that one name. */
  /** A one-line sequence declares what its line declares. */
  lemma DeclaredFieldsOfLine(lines: seq<string>, line: string)
    requires DeclaredField(line) == None
    ensures DeclaredFields(lines + [line]) == DeclaredFields(lines)
  {
    DeclaredFieldsAppend(lines, [line]);
    assert [line][1..] == [];
  }

  /** A documentation block followed by a bare declaration declares exactly
      that one name. */
  lemma DocBlockDeclares(s: seq<string>, typeLine: string, name: string)
    requires forall i :: 0 <= i < |s| ==> DeclaredField(s[i]) == None
    requires |typeLine| > 0 && typeLine[|typeLine| - 1] != ';'
    requires IsIdentifier(name)
    ensures DeclaredFields(DocBlock(s, typeLine, name)) == [name]
  {
    var decl := DeclIndent + name + ";";
    var a := ["    /**"] + s;
    NoFieldIn("    /**");
    NoFields(["    /**"]);
    NoFields(s);
    DeclaredFieldsAppend(["    /**"], s);
    assert DeclaredFields(a) == [];
    NoFieldIn(typeLine);
    DeclaredFieldsOfLine(a, typeLine);
    NoFieldIn("     */");
    DeclaredFieldsOfLine(a + [typeLine], "     */");
    StripAffixesOf(DeclIndent, name, ";");
    assert DeclaredFields([decl]) == [name] by {
      assert [decl][1..] == [];
    }
    DeclaredFieldsAppend(a + [typeLine] + ["     */"], [decl]);
    ThreeAppended(a, typeLine, "     */", decl);
  }

  lemma ThreeAppended<T>(a: seq<T>, x: T, y: T, z: T)
    ensures a + [x, y, z] == a + [x] + [y] + [z]
  {
  }

  lemma PropertyLinesDeclare(docs: DocTarget -> string, owner: HostType, p: Property)
    requires IsIdentifier(p.name)
    ensures DeclaredFields(PropertyLines(docs, owner, p)) == [p.name]
  {
    var summary := docs(OfProperty(owner, p.name));
    SummaryLinesDeclareNothing("     * ", summary);
    TypeLineEnd(TypeAnnotation(p.ty));
    DocBlockDeclares(SummaryLines("     * ", summary), "     * @type {" + TypeAnnotation(p.ty) + "}", p.name);
  }

  lemma TypeLineEnd(annotation: string)
    ensures var a := "     * @type {" + annotation + "}"; |a| > 0 && a[|a| - 1] == '}'
  {
  }

  lemma {:induction false} AllPropertyLinesDeclare(docs: DocTarget -> string, owner: HostType, ps: seq<Property>)
    requires AllIdentifiers(ps)
    ensures DeclaredFields(AllPropertyLines(docs, owner, ps)) == Names(ps)
    decreases |ps|
  {
    if |ps| > 0 {
      PropertyLinesDeclare(docs, owner, ps[0]);
      AllPropertyLinesDeclare(docs, owner, ps[1..]);
      DeclaredFieldsAppend(PropertyLines(docs, owner, ps[0]), AllPropertyLines(docs, owner, ps[1..]));
    }
  }

  lemma InitLineDeclaresNothing(p: Property)
    ensures DeclaredField(InitLine(p)) == None
  {
    AssignmentDeclaresNothing(p.name, Initializer(p.ty));
  }

  lemma AssignmentDeclaresNothing(name: string, init: string)
    ensures DeclaredField(InitPrefix + name + " = " + init + ";") == None
  {
    var line := InitPrefix + name + " = " + init + ";";
    assert line[4] == InitPrefix[4];
    IndentedDeclaresNothing(line);
  }

  lemma ErrorLineDeclaresNothing(p: Property)
    ensures DeclaredField(ErrorLine(p)) == None
  {
    IndentedDeclaresNothing(ErrorLine(p));
  }

  lemma {:induction false} ConstructorDeclaresNothing(ps: seq<Property>)
    ensures DeclaredFields(ConstructorLines(ps)) == []
    decreases |ps|
  {
    if |ps| > 0 {
      var r := ConstructorLines(ps);
      InitLineDeclaresNothing(ps[0]);
      ErrorLineDeclaresNothing(ps[0]);
      ConstructorDeclaresNothing(ps[1..]);
      assert r == [InitLine(ps[0]), ErrorLine(ps[0])] + ConstructorLines(ps[1..]);
      DeclaredFieldsAppend([InitLine(ps[0]), ErrorLine(ps[0])], ConstructorLines(ps[1..]));
      assert [InitLine(ps[0]), ErrorLine(ps[0])][1..] == [ErrorLine(ps[0])];
      assert [ErrorLine(ps[0])][1..] == [];
    }
  }

  /** An initialiser line reads back as its name and initial value. */
  lemma InitLineParsesOf(name: string, init: string)
    requires IsIdentifier(name)
    ensures ParseInitLine(InitPrefix + name + " = " + init + ";") == Some((name, init))
  {
    var rest := " = " + init;
    var m := name + rest;
    assert InitPrefix + name + " = " + init + ";" == InitPrefix + m + ";";
    StripAffixesOf(InitPrefix, m, ";");
    SplitAtSpaceOf(name, rest);
    assert rest == " = " + init + "";
    StripAffixesOf(" = ", init, "");
  }

  lemma InitLineParses(p: Property)
    requires IsIdentifier(p.name)
    ensures ParseInitLine(InitLine(p)) == Some((p.name, Initializer(p.ty)))
  {
    InitLineParsesOf(p.name, Initializer(p.ty));
  }

  lemma ErrorLineParses(p: Property)
    ensures ParseErrorLine(ErrorLine(p)) == Some(p.name)
  {
    StripAffixesOf(ErrorPrefix, p.name, ErrorSuffix);
  }

  /** The constructor body reads back as one (name, initial value) pair per
      public property, in declaration order. */
  lemma {:induction false} ConstructorRoundTrip(ps: seq<Property>)
    requires AllIdentifiers(ps)
    ensures ParseConstructor(ConstructorLines(ps)) == Some(InitPairs(ps))
    decreases |ps|
  {
    if |ps| > 0 {
      var r := ConstructorLines(ps);
      InitLineParses(ps[0]);
      ErrorLineParses(ps[0]);
      ConstructorRoundTrip(ps[1..]);
      assert r[2..] == ConstructorLines(ps[1..]);
      assert InitPairs(ps) == [(ps[0].name, Initializer(ps[0].ty))] + InitPairs(ps[1..]);
    }
  }

  lemma FixedLinesDeclareNothing()
    ensures DeclaredFields(["", "    /** 建構式 */", ConstructorOpen]) == []
    ensures DeclaredFields(["    }", "}"]) == []
  {
    NoFieldIn("    /** 建構式 */");
    NoFieldIn(ConstructorOpen);
    NoFieldIn("    }");
    NoFieldIn("}");
    NoFields(["", "    /** 建構式 */", ConstructorOpen]);
    NoFields(["    }", "}"]);
  }

  /** The class comment and the class line declare nothing. */
  lemma HeadBlockDeclaresNothing(s: seq<string>, classLine: string)
    requires forall i :: 0 <= i < |s| ==> DeclaredField(s[i]) == None
    requires |classLine| > 0 && classLine[|classLine| - 1] != ';'
    ensures DeclaredFields(["/**"] + s + [" * @class", " */", classLine]) == []
  {
    var a := ["/**"] + s;
    NoFieldIn("/**");
    NoFields(["/**"]);
    NoFields(s);
    DeclaredFieldsAppend(["/**"], s);
    NoFieldIn(" * @class");
    DeclaredFieldsOfLine(a, " * @class");
    NoFieldIn(" */");
    DeclaredFieldsOfLine(a + [" * @class"], " */");
    NoFieldIn(classLine);
    DeclaredFieldsOfLine(a + [" * @class"] + [" */"], classLine);
    ThreeAppended(a, " * @class", " */", classLine);
  }

  lemma ClassHeadDeclaresNothing(docs: DocTarget -> string, t: HostType, fileName: string)
    ensures DeclaredFields(ClassHead(docs, t, fileName)) == []
  {
    var classLine := "class " + fileName + " {";
    ClassSummaryDeclaresNothing(docs(OfType(t)));
    assert classLine[|classLine| - 1] == '{';
    HeadBlockDeclaresNothing(SummaryLines(" * ", docs(OfType(t))), classLine);
  }

  /** A class module declares exactly the public properties, in order. */
  lemma ClassDeclaresPublicProperties(u: Universe, docs: DocTarget -> string, t: HostType, fileName: string)
    requires AllIdentifiers(PublicProperties(u, t))
    ensures DeclaredFields(OutputJsClass(u, docs, t, fileName)) == Names(PublicProperties(u, t))
  {
    var ps := PublicProperties(u, t);
    var head := ClassHead(docs, t, fileName);
    var decls := AllPropertyLines(docs, t, ps);
    var mid := ["", "    /** 建構式 */", ConstructorOpen];
    var ctor := ConstructorLines(ps);
    var close := ["    }", "}"];
    assert OutputJsClass(u, docs, t, fileName) == head + decls + mid + ctor + close;
    ClassHeadDeclaresNothing(docs, t, fileName);
    AllPropertyLinesDeclare(docs, t, ps);
    FixedLinesDeclareNothing();
    ConstructorDeclaresNothing(ps);
    DeclaredFieldsAppend(head, decls);
    DeclaredFieldsAppend(head + decls, mid);
    DeclaredFieldsAppend(head + decls + mid, ctor);
    DeclaredFieldsAppend(head + decls + mid + ctor, close);
  }

  /** A class module ends with a constructor that initialises every public
      property, in declaration order, each followed by its error slot. */
  lemma ClassConstructorBlock(u: Universe, docs: DocTarget -> string, t: HostType, fileName: string)
    requires AllIdentifiers(PublicProperties(u, t))
    ensures var lines := OutputJsClass(u, docs, t, fileName);
            var ps := PublicProperties(u, t);
            var start := |lines| - 2 - 2 * |ps|;
            && 1 <= start
            && lines[start - 1] == ConstructorOpen
            && ParseConstructor(lines[start..|lines| - 2]) == Some(InitPairs(ps))
            && lines[|lines| - 2..] == ["    }", "}"]
  {
    var ps := PublicProperties(u, t);
    var front := ClassHead(docs, t, fileName) + AllPropertyLines(docs, t, ps) + ["", "    /** 建構式 */", ConstructorOpen];
    var ctor := ConstructorLines(ps);
    var lines := OutputJsClass(u, docs, t, fileName);
    assert lines == front + ctor + ["    }", "}"];
    var start := |lines| - 2 - 2 * |ps|;
    assert start == |front|;
    assert lines[start..|lines| - 2] == ctor;
    assert lines[start - 1] == front[|front| - 1] == ConstructorOpen;
    ConstructorRoundTrip(ps);
  }

  // ---------------------------------------------------------------------------
  // Enumerations
  // ---------------------------------------------------------------------------

  /** The first candidate that is not blank, or the empty string. */
  function FirstNonBlank(candidates: seq<string>): (r: string)
    ensures r == [] || r in candidates
    ensures r != [] ==> !IsBlank(r)
    ensures (forall i :: 0 <= i < |candidates| ==> IsBlank(candidates[i])) ==> r == []
    ensures forall i ::
              0 <= i < |candidates| && !IsBlank(candidates[i]) && (forall j :: 0 <= j < i ==> IsBlank(candidates[j]))
              ==> r == candidates[i]
  {
    if |candidates| == 0 then []
    else if !IsBlank(candidates[0]) then candidates[0]
    else FirstNonBlank(candidates[1..])
  }

  function TrimmedOr(s: Option<string>): string {
    match s
    case None => ""
    case Some(v) => Trim(v)
  }

  /** The description written for an enum entry: the mapped description,
      else the trimmed `DisplayName`, else the trimmed `Display(Name)`, else
      the trimmed summary of the field. */
  function EnumDescription(docs: DocTarget -> string, owner: HostType, e: EnumEntry): string {
    var desc := e.description;
    if !IsBlank(desc) then desc
    else
      var byDisplayName := TrimmedOr(e.displayName);
      if !IsBlank(byDisplayName) then byDisplayName
      else
        var byDisplay := TrimmedOr(e.displayAttrName);
        if !IsBlank(byDisplay) then byDisplay
        else Trim(docs(OfField(owner, e.name)))
  }

  /** The fallback chain picks the first non-blank source, and is empty when
      every source is blank. */
  lemma EnumDescriptionIsFirstNonBlank(docs: DocTarget -> string, owner: HostType, e: EnumEntry)
    ensures EnumDescription(docs, owner, e) ==
            FirstNonBlank([e.description, TrimmedOr(e.displayName), TrimmedOr(e.displayAttrName),
                           Trim(docs(OfField(owner, e.name)))])
  {
    var s := Trim(docs(OfField(owner, e.name)));
    TrimmedBlankIsEmpty(docs(OfField(owner, e.name)));
    FirstNonBlankOfFour(e.description, TrimmedOr(e.displayName), TrimmedOr(e.displayAttrName), s);
  }

  lemma TrimmedBlankIsEmpty(x: string)
    ensures IsBlank(Trim(x)) ==> Trim(x) == []
  {
    TrimIdempotent(x);
    TrimEmptyIffBlank(Trim(x));
  }

  lemma FirstNonBlankOfFour(a: string, b: string, c: string, d: string)
    ensures FirstNonBlank([a, b, c, d]) ==
            if !IsBlank(a) then a else if !IsBlank(b) then b else if !IsBlank(c) then c
            else if !IsBlank(d) then d else []
  {
    assert [d][1..] == [];
    assert FirstNonBlank([d]) == if !IsBlank(d) then d else [];
    assert [c, d][1..] == [d];
    assert FirstNonBlank([c, d]) == if !IsBlank(c) then c else FirstNonBlank([d]);
    assert [b, c, d][1..] == [c, d];
    assert FirstNonBlank([b, c, d]) == if !IsBlank(b) then b else FirstNonBlank([c, d]);
    assert [a, b, c, d][1..] == [b, c, d];
  }

  function EntryHead(e: EnumEntry): string {
    "    " + e.name + ": Object.freeze({"
  }

  function EntryLines(docs: DocTarget -> string, owner: HostType, e: EnumEntry): seq<string> {
    [EntryHead(e),
     "        Name: `" + EnumDescription(docs, owner, e) + "`,",
     "        Value: " + IntToString(e.value) + ",",
     "    }),"]
  }

  function AllEntryLines(docs: DocTarget -> string, owner: HostType, es: seq<EnumEntry>): (r: seq<string>)
    ensures |r| == 4 * |es|
  {
    if |es| == 0 then [] else EntryLines(docs, owner, es[0]) + AllEntryLines(docs, owner, es[1..])
  }

  /** `OutputJsEnum`: a frozen object of frozen entries, one per enum value. */
  function OutputJsEnum(u: Universe, docs: DocTarget -> string, t: HostType, name: string): seq<string> {
    ["/**"] + SummaryLines(" * ", docs(OfType(t))) + [" * @enum", " */", "const " + name + " = Object.freeze({"]
    + AllEntryLines(docs, t, EnumEntriesOf(u, t)) + ["})"]
  }

  /** One entry block read back as (name, description, value). */
  function ParseEntry(l0: string, l1: string, l2: string, l3: string): Option<(string, string, int)> {
    match (StripAffixes(l0, "    ", ": Object.freeze({"), StripAffixes(l1, "        Name: `", "`,"),
           StripAffixes(l2, "        Value: ", ","))
    case (Some(n), Some(d), Some(v)) =>
      (match ParseInt(v)
       case Some(value) => if l3 == "    })," then Some((n, d, value)) else None
       case None => None)
    case _ => None
  }

  function ParseEntries(lines: seq<string>): Option<seq<(string, string, int)>>
    decreases |lines|
  {
    if |lines| == 0 then Some([])
    else if |lines| < 4 then None
    else
      match (ParseEntry(lines[0], lines[1], lines[2], lines[3]), ParseEntries(lines[4..]))
      case (Some(e), Some(rest)) => Some([e] + rest)
      case _ => None
  }

  function Described(docs: DocTarget -> string, owner: HostType, es: seq<EnumEntry>): (r: seq<(string, string, int)>)
    ensures |r| == |es|
    ensures forall i :: 0 <= i < |es| ==> r[i] == (es[i].name, EnumDescription(docs, owner, es[i]), es[i].value)
  {
    if |es| == 0 then [] else [(es[0].name, EnumDescription(docs, owner, es[0]), es[0].value)] + Described(docs, owner, es[1..])
  }

  lemma EntryRoundTrip(docs: DocTarget -> string, owner: HostType, e: EnumEntry)
    ensures var ls := EntryLines(docs, owner, e);
            ParseEntry(ls[0], ls[1], ls[2], ls[3]) == Some((e.name, EnumDescription(docs, owner, e), e.value))
  {
    StripAffixesOf("    ", e.name, ": Object.freeze({");
    StripAffixesOf("        Name: `", EnumDescription(docs, owner, e), "`,");
    StripAffixesOf("        Value: ", IntToString(e.value), ",");
    IntToStringRoundTrip(e.value);
  }

  /** The entry blocks read back as the enum's entries, in order, with each
      value printed so that it parses back to itself. */
  lemma {:induction false} EnumEntriesRoundTrip(docs: DocTarget -> string, owner: HostType, es: seq<EnumEntry>)
    ensures ParseEntries(AllEntryLines(docs, owner, es)) == Some(Described(docs, owner, es))
    decreases |es|
  {
    if |es| > 0 {
      var ls := AllEntryLines(docs, owner, es);
      var first := EntryLines(docs, owner, es[0]);
      assert ls[..4] == first;
      assert ls[4..] == AllEntryLines(docs, owner, es[1..]);
      EntryRoundTrip(docs, owner, es[0]);
      EnumEntriesRoundTrip(docs, owner, es[1..]);
    }
  }

  // ---------------------------------------------------------------------------
  // Whole conversions
  // ---------------------------------------------------------------------------

  function ExportLines(name: string): seq<string> {
    ["export {", "    " + name, "}"]
  }

  /** A body between a fixed head and tail can be read back from either end. */
  lemma Framed<T>(head: seq<T>, body: seq<T>, tail: seq<T>)
    ensures var all := head + body + tail;
            |all| == |head| + |body| + |tail| && all[..|head|] == head && all[|all| - |tail|..] == tail
  {
    var all := head + body + tail;
    assert all == head + (body + tail);
  }

  /** A public property on which `GetNullableType` throws. */
  predicate HasRejectedProperty(u: Universe, t: HostType) {
    exists p :: p in PublicProperties(u, t) && NullableProbe(p.ty).Failure?
  }

  /** The types whose module is produced without an exception: enums, and
      classes and interfaces none of whose public properties is rejected. */
  predicate Convertible(u: Universe, t: HostType) {
    ((IsClass(t) || IsInterface(t)) && !HasRejectedProperty(u, t)) || IsEnum(t)
  }

  /** The exception a type that is not convertible throws. */
  function ConversionError(t: HostType): ConvertError {
    if IsClass(t) || IsInterface(t) then ConstraintViolated(t) else NotConvertible(t)
  }

  /** The lines between the header and the export: the class body for a class
      or an interface, the enumeration body for an enum. */
  function ModuleBody(u: Universe, docs: DocTarget -> string, t: HostType, name: string): (r: Result<seq<string>, ConvertError>)
    ensures r.Success? <==> Convertible(u, t)
    ensures r.Failure? ==> r.error == ConversionError(t)
  {
    if IsClass(t) || IsInterface(t) then
      if HasRejectedProperty(u, t) then Failure(ConstraintViolated(t))
      else Success(OutputJsClass(u, docs, t, name))
    else if IsEnum(t) then Success(OutputJsEnum(u, docs, t, name))
    else Failure(NotConvertible(t))
  }

  /** `ConvertCsToJs`: the relative path and the lines of a type's module;
      enums convert, and so do classes and interfaces unless a public
      property is rejected by the nullable probe; anything else throws. */
  function ConvertCsToJs(u: Universe, docs: DocTarget -> string, t: HostType): (r: Result<(string, seq<string>), ConvertError>)
    ensures r.Success? <==> Convertible(u, t)
    ensures r.Failure? ==> r.error == ConversionError(t)
    ensures r.Success? ==> r.value.0 == TransferTypeToFileName(t, ScriptExtension).filePath
    ensures r.Success? ==> (|r.value.1| >= 6 && r.value.1[..3] == GeneratedHeader
                            && r.value.1[|r.value.1| - 3..] == ExportLines(FileNameOf(FullName(t))))
  {
    var info := TransferTypeToFileName(t, ScriptExtension);
    match ModuleBody(u, docs, t, info.fileName)
    case Success(lines) =>
      Framed(GeneratedHeader, lines, ExportLines(info.fileName));
      Success((info.filePath, GeneratedHeader + lines + ExportLines(info.fileName)))
    case Failure(e) => Failure(e)
  }

  /** `ConvertEnum2Js`: the block an enum contributes to the shared
      enumeration file, named by the enum's simple name. */
  function ConvertEnum2Js(u: Universe, docs: DocTarget -> string, t: HostType): (r: Result<seq<string>, ConvertError>)
    ensures r.Success? <==> IsEnum(t)
    ensures r.Failure? ==> r.error == NotConvertible(t)
    ensures r.Success? ==> |r.value| >= 5 && r.value[|r.value| - 5..] == [""] + ExportLines(Name(t)) + [""]
  {
    if IsEnum(t) then
      var tail := [""] + ExportLines(Name(t)) + [""];
      Framed([], OutputJsEnum(u, docs, t, Name(t)), tail);
      Success([] + OutputJsEnum(u, docs, t, Name(t)) + tail)
    else Failure(NotConvertible(t))
  }

  /** A class or interface module is the header, the class body and the export. */
  lemma ConvertClassLayout(u: Universe, docs: DocTarget -> string, t: HostType)
    requires IsClass(t) || IsInterface(t)
    requires !HasRejectedProperty(u, t)
    ensures var name := FileNameOf(FullName(t));
            ConvertCsToJs(u, docs, t) ==
            Success((TransferTypeToFileName(t, ScriptExtension).filePath,
                     GeneratedHeader + OutputJsClass(u, docs, t, name) + ExportLines(name)))
  {
  }

  /** A class with a public `List<int?>` property does not convert: the
      nullable probe throws on it, and the run gets `ConstraintViolated`. */
  lemma NullableElementPropertyRejected(a: DeclInfo, list: GenericDef, docs: DocTarget -> string)
    requires a.kind == Class
    ensures var xs := Property("Xs", Constructed(list, [Constructed(NullableDef, [Table(Int32)])]), true);
            ConvertCsToJs(Universe(map[Declared(a) := [xs]], map[]), docs, Declared(a))
              == Failure(ConstraintViolated(Declared(a)))
  {
    var xs := Property("Xs", Constructed(list, [Constructed(NullableDef, [Table(Int32)])]), true);
    var u := Universe(map[Declared(a) := [xs]], map[]);
    assert xs in PublicProperties(u, Declared(a));
  }

  /** A class whose public properties are all `int?` converts. */
  lemma NullablePropertiesAccepted(u: Universe, docs: DocTarget -> string, t: HostType)
    requires IsClass(t)
    requires forall p :: p in PropertiesOf(u, t) ==> p.ty == Constructed(NullableDef, [Table(Int32)])
    ensures ConvertCsToJs(u, docs, t).Success?
  {
  }
}

=== FILE: nested_types.dfy ===
/** The nested-type closure: starting from a root type, every property type
    that is not in the conversion table is visited (its type arguments instead,
    for a constructed generic), each type at most once thanks to a membership
    test on the shared accumulator. The walk is pure recursion threading the
    accumulator; it terminates because every recursive call adds a type of a
    finite universe that was not yet visited.

    `Walk` selects the child rule: `AsWritten` is the program's rule;
    `ElementAware` also looks through array types to their element type. */
module NestedTypes {

  import opened Wrappers
  import opened Seqs
  import opened HostTypes
  import Graphs

  datatype Walk = AsWritten | ElementAware

  /** `Type.GenericTypeArguments`: empty for everything but constructed generics. */
  function TypeArguments(t: HostType): seq<HostType> {
    if t.Constructed? then t.args else []
  }

  function StripArrays(t: HostType): (r: HostType)
    ensures !r.ArrayOf?
    ensures r == t || r < t
  {
    if t.ArrayOf? then StripArrays(t.elem) else t
  }

  /** The types one property of type `ty` leads the walk to. */
  function PropertyChildren(walk: Walk, ty: HostType): seq<HostType> {
    var ty := if walk == ElementAware then StripArrays(ty) else ty;
    if InTable(ty) then []
    else if IsGenericType(ty) && |TypeArguments(ty)| > 0 then
      if walk == ElementAware then seq(|ty.args|, i requires 0 <= i < |ty.args| => StripArrays(ty.args[i]))
      else TypeArguments(ty)
    else [ty]
  }

  function PropertiesChildren(walk: Walk, ps: seq<Property>): seq<HostType> {
    if |ps| == 0 then [] else PropertyChildren(walk, ps[0].ty) + PropertiesChildren(walk, ps[1..])
  }

  /** The types the walk visits from `t`, in the order the program visits them. */
  function Children(u: Universe, walk: Walk, t: HostType): seq<HostType> {
    PropertiesChildren(walk, PropertiesOf(u, t))
  }

  /** The flattened child sequence is the per-property rule of the program:
      a property whose type is in the table contributes nothing, a constructed
      generic contributes its type arguments, any other type contributes itself. */
  lemma {:induction false} PropertiesChildrenCharacterized(ps: seq<Property>, c: HostType)
    ensures c in PropertiesChildren(AsWritten, ps) <==>
            exists i :: 0 <= i < |ps| && !InTable(ps[i].ty) &&
                        (if ps[i].ty.Constructed? && |ps[i].ty.args| > 0 then c in ps[i].ty.args else c == ps[i].ty)
    decreases |ps|
  {
    if |ps| > 0 {
      PropertiesChildrenCharacterized(ps[1..], c);
      if exists i :: 0 <= i < |ps| - 1 && !InTable(ps[1..][i].ty) &&
                     (if ps[1..][i].ty.Constructed? && |ps[1..][i].ty.args| > 0 then c in ps[1..][i].ty.args else c == ps[1..][i].ty) {
        var i :| 0 <= i < |ps| - 1 && !InTable(ps[1..][i].ty) &&
                 (if ps[1..][i].ty.Constructed? && |ps[1..][i].ty.args| > 0 then c in ps[1..][i].ty.args else c == ps[1..][i].ty);
        assert ps[1..][i] == ps[i + 1];
      }
      if exists i :: 0 <= i < |ps| && !InTable(ps[i].ty) &&
                     (if ps[i].ty.Constructed? && |ps[i].ty.args| > 0 then c in ps[i].ty.args else c == ps[i].ty) {
        var i :| 0 <= i < |ps| && !InTable(ps[i].ty) &&
                 (if ps[i].ty.Constructed? && |ps[i].ty.args| > 0 then c in ps[i].ty.args else c == ps[i].ty);
        if i > 0 {
          assert ps[1..][i - 1] == ps[i];
        }
      }
    }
  }

  // ---------------------------------------------------------------------------
  // The finite universe the walk ranges over
  // ---------------------------------------------------------------------------

  /** A type and every type it is built from. */
  function SubTerms(t: HostType): set<HostType>
    decreases t
  {
    match t
    case ArrayOf(e) => {t} + SubTerms(e)
    case Constructed(_, args) => {t} + (set i, s | 0 <= i < |args| && s in SubTerms(args[i]) :: s)
    case _ => {t}
  }

  /** Every type built into a property type of the universe. */
  function Mentioned(u: Universe): set<HostType> {
    set k, i, s | k in u.props && 0 <= i < |u.props[k]| && s in SubTerms(u.props[k][i].ty) :: s
  }

  /** The finite set of types a walk from `root` can visit. */
  function Known(u: Universe, root: HostType): set<HostType> {
    SubTerms(root) + Mentioned(u)
  }

  ghost predicate ClosedUnder(u: Universe, walk: Walk, s: set<HostType>) {
    forall t, c :: t in s && c in Children(u, walk, t) ==> c in s
  }

  lemma StripArraysSubTerm(t: HostType)
    ensures StripArrays(t) in SubTerms(t)
  {
  }

  lemma PropertyChildrenAreSubTerms(walk: Walk, ty: HostType, c: HostType)
    requires c in PropertyChildren(walk, ty)
    ensures c in SubTerms(ty)
  {
    var ty' := if walk == ElementAware then StripArrays(ty) else ty;
    StripArraysSubTerm(ty);
    SubTermsTransitive(ty, ty');
    if ty'.Constructed? && c != ty' {
      var i :| 0 <= i < |ty'.args| && (c == ty'.args[i] || c == StripArrays(ty'.args[i]));
      StripArraysSubTerm(ty'.args[i]);
      assert c in SubTerms(ty'.args[i]);
      assert c in SubTerms(ty');
    }
  }

  lemma {:induction false} SubTermsTransitive(t: HostType, s: HostType)
    requires s in SubTerms(t)
    ensures SubTerms(s) <= SubTerms(t)
    decreases t
  {
    if s != t {
      match t
      case ArrayOf(e) => SubTermsTransitive(e, s);
      case Constructed(_, args) =>
        var i :| 0 <= i < |args| && s in SubTerms(args[i]);
        SubTermsTransitive(args[i], s);
    }
  }

  lemma {:induction false} PropertiesChildrenFrom(walk: Walk, ps: seq<Property>, c: HostType)
    requires c in PropertiesChildren(walk, ps)
    ensures exists i :: 0 <= i < |ps| && c in PropertyChildren(walk, ps[i].ty)
    decreases |ps|
  {
    if c !in PropertyChildren(walk, ps[0].ty) {
      PropertiesChildrenFrom(walk, ps[1..], c);
      var i :| 0 <= i < |ps| - 1 && c in PropertyChildren(walk, ps[1..][i].ty);
      assert ps[1..][i] == ps[i + 1];
    }
  }

  /** No walk leaves `Known(u, root)`. */
  lemma KnownIsClosed(u: Universe, walk: Walk, root: HostType)
    ensures ClosedUnder(u, walk, Known(u, root))
  {
    forall t, c | t in Known(u, root) && c in Children(u, walk, t)
      ensures c in Known(u, root)
    {
      var ps := PropertiesOf(u, t);
      PropertiesChildrenFrom(walk, ps, c);
      var i :| 0 <= i < |ps| && c in PropertyChildren(walk, ps[i].ty);
      PropertyChildrenAreSubTerms(walk, ps[i].ty, c);
      assert !t.ArrayOf?;
      assert t in u.props && ps == u.props[t];
      assert c in Mentioned(u);
    }
  }

  // ---------------------------------------------------------------------------
  // The walk
  // ---------------------------------------------------------------------------

  function Visited(acc: seq<HostType>): set<HostType> {
    set x | x in acc
  }

  /** Kept in the result: classes that are not table types. */
  predicate IsKept(t: HostType) {
    !InTable(t) && IsClass(t)
  }

  function KeepFilter(s: seq<HostType>): (r: seq<HostType>)
    ensures forall x :: x in r <==> x in s && IsKept(x)
    ensures |s| > 0 && IsKept(s[0]) ==> |r| > 0 && r[0] == s[0]
  {
    if |s| == 0 then [] else (if IsKept(s[0]) then [s[0]] else []) + KeepFilter(s[1..])
  }

  lemma CardDrop(k: set<HostType>, a: set<HostType>, b: set<HostType>)
    requires a <= b
    ensures |k - b| <= |k - a|
  {
    assert k - b <= k - a;
    SubsetCard(k - b, k - a);
  }

  lemma {:induction false} SubsetCard(a: set<HostType>, b: set<HostType>)
    requires a <= b
    ensures |a| <= |b|
    decreases |b|
  {
    if a != {} {
      var x :| x in a;
      SubsetCard(a - {x}, b - {x});
    }
  }

  /** `GetAllNestedTypes(type, accumulator)`: adds `t` to the accumulator if
      absent, visits its children, and returns the kept types of `[t] + accumulator`
      without duplicates, together with the accumulator as the callee leaves it. */
  function Nested(u: Universe, walk: Walk, k: set<HostType>, t: HostType, acc: seq<HostType>)
    : (r: (seq<HostType>, seq<HostType>))
    requires ClosedUnder(u, walk, k) && t in k && Visited(acc) <= k
    ensures Visited(acc) <= Visited(r.1) <= k
    ensures t in r.1
    ensures forall x :: x in r.0 ==> x in r.1
    decreases |k - (Visited(acc) + {t})|, 1
  {
    var acc1 := if t in acc then acc else acc + [t];
    assert Visited(acc1) == Visited(acc) + {t};
    var acc2 := VisitAll(u, walk, k, Children(u, walk, t), acc1);
    (Distinct(KeepFilter([t] + acc2)), acc2)
  }

  /** The loop over the children: a child not yet in the accumulator is
      visited, and the callee's result is appended to the accumulator, as
      `AddRange` does; a child already present is skipped. */
  function VisitAll(u: Universe, walk: Walk, k: set<HostType>, cs: seq<HostType>, acc: seq<HostType>)
    : (r: seq<HostType>)
    requires ClosedUnder(u, walk, k) && (forall c :: c in cs ==> c in k) && Visited(acc) <= k
    ensures Visited(acc) <= Visited(r) <= k
    decreases |k - Visited(acc)|, 0, |cs|
  {
    if |cs| == 0 then acc
    else
      var c := cs[0];
      var acc' :=
        if c in acc then acc
        else
          var n := Nested(u, walk, k, c, acc);
          assert Visited(n.1 + n.0) == Visited(n.1);
          n.1 + n.0;
      CardDrop(k, Visited(acc), Visited(acc'));
      VisitAll(u, walk, k, cs[1..], acc')
  }

  /** The closure computed for a root with a fresh accumulator. */
  function AllNestedTypes(u: Universe, walk: Walk, root: HostType): (r: seq<HostType>)
    ensures NoDup(r)
    ensures forall x :: x in r ==> IsClass(x) && !InTable(x)
    ensures IsKept(root) ==> |r| > 0 && r[0] == root
  {
    KnownIsClosed(u, walk, root);
    var n := Nested(u, walk, Known(u, root), root, []);
    var kept := KeepFilter([root] + n.1);
    assert IsKept(root) ==> |n.0| > 0 && n.0[0] == root by {
      if IsKept(root) {
        DistinctKeepsHead(kept);
      }
    }
    n.0
  }

  /** `GetAllNestedTypes` as the program computes it. */
  function GetAllNestedTypes(u: Universe, root: HostType): seq<HostType> {
    AllNestedTypes(u, AsWritten, root)
  }

  // ---------------------------------------------------------------------------
  // What the walk computes: exactly the kept types reachable from the root
  // ---------------------------------------------------------------------------

  /** The child rule as a successor function. */
  function Edges(u: Universe, walk: Walk): HostType -> seq<HostType> {
    t => Children(u, walk, t)
  }

  lemma EdgesAreChildren(u: Universe, walk: Walk)
    ensures forall t :: Edges(u, walk)(t) == Children(u, walk, t)
  {
  }

  ghost predicate Reachable(u: Universe, walk: Walk, a: HostType, b: HostType) {
    Graphs.Reachable(Edges(u, walk), a, b)
  }

  lemma ReachableSelf(u: Universe, walk: Walk, a: HostType)
    ensures Reachable(u, walk, a, a)
  {
    Graphs.ReachableSelf(Edges(u, walk), a);
  }

  lemma ReachableChild(u: Universe, walk: Walk, a: HostType, b: HostType)
    requires b in Children(u, walk, a)
    ensures Reachable(u, walk, a, b)
  {
    Graphs.ReachableChild(Edges(u, walk), a, b);
  }

  lemma ReachableStep(u: Universe, walk: Walk, a: HostType, b: HostType, c: HostType)
    requires b in Children(u, walk, a) && Reachable(u, walk, b, c)
    ensures Reachable(u, walk, a, c)
  {
    Graphs.ReachableStep(Edges(u, walk), a, b, c);
  }

  lemma ReachableExtend(u: Universe, walk: Walk, a: HostType, b: HostType, c: HostType)
    requires Reachable(u, walk, a, b) && c in Children(u, walk, b)
    ensures Reachable(u, walk, a, c)
  {
    Graphs.ReachableExtend(Edges(u, walk), a, b, c);
  }

  /** Everything reachable from a member of a set closed under the child rule
      is in the set. */
  lemma ReachableStaysIn(u: Universe, walk: Walk, s: seq<HostType>, a: HostType, b: HostType)
    requires a in s && Reachable(u, walk, a, b)
    requires forall x, c :: x in s && c in Children(u, walk, x) ==> c in s
    ensures b in s
  {
    Graphs.ReachableStaysIn(Edges(u, walk), s, a, b);
  }

  /** Every type the walk adds is reachable from the type it started at. */
  lemma NestedSound(u: Universe, walk: Walk, k: set<HostType>, t: HostType, acc: seq<HostType>, x: HostType)
    requires ClosedUnder(u, walk, k) && t in k && Visited(acc) <= k
    requires x in Nested(u, walk, k, t, acc).1 && x !in acc
    ensures Reachable(u, walk, t, x)
    decreases |k - (Visited(acc) + {t})|, 1
  {
    if x == t {
      ReachableSelf(u, walk, t);
    } else {
      var acc1 := NestedUnfold(u, walk, k, t, acc);
      var c := VisitAllSound(u, walk, k, Children(u, walk, t), acc1, x);
      ReachableStep(u, walk, t, c, x);
    }
  }

  /** One step of `Nested`: the accumulator with `t` added, handed to the loop
      over the children of `t`. */
  lemma NestedUnfold(u: Universe, walk: Walk, k: set<HostType>, t: HostType, acc: seq<HostType>)
    returns (acc1: seq<HostType>)
    requires ClosedUnder(u, walk, k) && t in k && Visited(acc) <= k
    ensures Visited(acc1) == Visited(acc) + {t} <= k
    ensures forall y :: y in acc1 <==> y in acc || y == t
    ensures forall c :: c in Children(u, walk, t) ==> c in k
    ensures Nested(u, walk, k, t, acc).1 == VisitAll(u, walk, k, Children(u, walk, t), acc1)
  {
    acc1 := if t in acc then acc else acc + [t];
    assert Visited(acc1) == Visited(acc) + {t};
  }

  /** Every type the loop adds is reachable from one of the children it was given. */
  lemma VisitAllSound(u: Universe, walk: Walk, k: set<HostType>, cs: seq<HostType>, acc: seq<HostType>, x: HostType)
    returns (c: HostType)
    requires ClosedUnder(u, walk, k) && (forall c :: c in cs ==> c in k) && Visited(acc) <= k
    requires x in VisitAll(u, walk, k, cs, acc) && x !in acc
    ensures c in cs && Reachable(u, walk, c, x)
    decreases |k - Visited(acc)|, 0, |cs|
  {
    c := cs[0];
    if c in acc {
      c := VisitAllSound(u, walk, k, cs[1..], acc, x);
    } else {
      var n := Nested(u, walk, k, c, acc);
      var acc' := n.1 + n.0;
      assert Visited(acc') == Visited(n.1);
      CardDrop(k, Visited(acc), Visited(acc'));
      if x in acc' {
        assert x in n.1;
        NestedSound(u, walk, k, c, acc, x);
      } else {
        c := VisitAllSound(u, walk, k, cs[1..], acc', x);
      }
    }
  }

  /** Every type added to `acc` has all of its children in `out`. */
  ghost predicate NewlyClosed(u: Universe, walk: Walk, acc: seq<HostType>, out: seq<HostType>) {
    forall x, c :: x in out && x !in acc && c in Children(u, walk, x) ==> c in out
  }

  /** When a call returns, every type it added has had all its children visited. */
  lemma NestedComplete(u: Universe, walk: Walk, k: set<HostType>, t: HostType, acc: seq<HostType>)
    requires ClosedUnder(u, walk, k) && t in k && Visited(acc) <= k
    ensures NewlyClosed(u, walk, acc, Nested(u, walk, k, t, acc).1)
    ensures t !in acc ==> forall c :: c in Children(u, walk, t) ==> c in Nested(u, walk, k, t, acc).1
    decreases |k - (Visited(acc) + {t})|, 1
  {
    var acc1 := if t in acc then acc else acc + [t];
    assert Visited(acc1) == Visited(acc) + {t};
    VisitAllComplete(u, walk, k, Children(u, walk, t), acc1);
    VisitAllCovers(u, walk, k, Children(u, walk, t), acc1);
  }

  lemma VisitAllComplete(u: Universe, walk: Walk, k: set<HostType>, cs: seq<HostType>, acc: seq<HostType>)
    requires ClosedUnder(u, walk, k) && (forall c :: c in cs ==> c in k) && Visited(acc) <= k
    ensures NewlyClosed(u, walk, acc, VisitAll(u, walk, k, cs, acc))
    decreases |k - Visited(acc)|, 0, |cs|
  {
    if |cs| > 0 {
      var c := cs[0];
      if c in acc {
        VisitAllComplete(u, walk, k, cs[1..], acc);
      } else {
        var n := Nested(u, walk, k, c, acc);
        var acc' := n.1 + n.0;
        assert Visited(acc') == Visited(n.1);
        NestedComplete(u, walk, k, c, acc);
        CardDrop(k, Visited(acc), Visited(acc'));
        VisitAllComplete(u, walk, k, cs[1..], acc');
        var out := VisitAll(u, walk, k, cs[1..], acc');
        assert Visited(n.1) <= Visited(out);
        forall x, c' | x in out && x !in acc && c' in Children(u, walk, x)
          ensures c' in out
        {
          if x in acc' {
            assert x in n.1;
            assert c' in n.1;
            assert c' in Visited(n.1);
          }
        }
      }
    }
  }

  /** Every child handed to the loop ends up in the accumulator. */
  lemma {:induction false} VisitAllCovers(u: Universe, walk: Walk, k: set<HostType>, cs: seq<HostType>, acc: seq<HostType>)
    requires ClosedUnder(u, walk, k) && (forall c :: c in cs ==> c in k) && Visited(acc) <= k
    ensures forall c :: c in cs ==> c in VisitAll(u, walk, k, cs, acc)
    decreases |k - Visited(acc)|, 0, |cs|
  {
    if |cs| > 0 {
      var c := cs[0];
      var acc' := if c in acc then acc else
        var n := Nested(u, walk, k, c, acc); n.1 + n.0;
      assert c in acc' by {
        if c !in acc {
          var n := Nested(u, walk, k, c, acc);
          assert c in n.1;
        }
      }
      CardDrop(k, Visited(acc), Visited(acc'));
      VisitAllCovers(u, walk, k, cs[1..], acc');
      var out := VisitAll(u, walk, k, cs[1..], acc');
      assert c in Visited(acc');
      assert c in Visited(out);
    }
  }

  /** The closure holds exactly the classes outside the conversion table that
      are reachable from the root: a type is reached through every property
      whose type is not in the table, through the type arguments of a
      constructed generic, and never twice. */
  lemma AllNestedTypesCharacterized(u: Universe, walk: Walk, root: HostType, x: HostType)
    ensures x in AllNestedTypes(u, walk, root) <==> Reachable(u, walk, root, x) && IsKept(x)
  {
    var k := Known(u, root);
    KnownIsClosed(u, walk, root);
    var n := Nested(u, walk, k, root, []);
    assert AllNestedTypes(u, walk, root) == n.0;
    assert x in n.0 <==> x in KeepFilter([root] + n.1);
    assert x in KeepFilter([root] + n.1) <==> x in n.1 && IsKept(x);
    ClosureIsReachableSet(u, walk, root, x);
  }

  /** The accumulator of the top-level call is the set of types reachable from the root. */
  lemma ClosureIsReachableSet(u: Universe, walk: Walk, root: HostType, x: HostType)
    ensures ClosedUnder(u, walk, Known(u, root))
    ensures x in Nested(u, walk, Known(u, root), root, []).1 <==> Reachable(u, walk, root, x)
  {
    var k := Known(u, root);
    KnownIsClosed(u, walk, root);
    var out := Nested(u, walk, k, root, []).1;
    if x in out {
      NestedSound(u, walk, k, root, [], x);
    }
    NestedComplete(u, walk, k, root, []);
    if Reachable(u, walk, root, x) {
      assert forall y, c :: y in out && c in Children(u, walk, y) ==> c in out;
      ReachableStaysIn(u, walk, out, root, x);
    }
  }

  // ---------------------------------------------------------------------------
  // Array-typed properties
  // ---------------------------------------------------------------------------

  lemma OneProperty(walk: Walk, p: Property)
    ensures PropertiesChildren(walk, [p]) == PropertyChildren(walk, p.ty)
  {
    assert [p][1..] == [];
  }

  lemma {:induction false} TablePropertiesHaveNoChildren(walk: Walk, ps: seq<Property>)
    requires forall i :: 0 <= i < |ps| ==> ps[i].ty.Table?
    ensures PropertiesChildren(walk, ps) == []
    decreases |ps|
  {
    if |ps| > 0 {
      assert PropertyChildren(walk, ps[0].ty) == [];
      TablePropertiesHaveNoChildren(walk, ps[1..]);
    }
  }

  lemma ElementAwarePropertyChildren(ty: HostType, c: HostType)
    requires c in PropertyChildren(ElementAware, ty)
    ensures !c.ArrayOf?
  {
    var ty' := StripArrays(ty);
    if !InTable(ty') && IsGenericType(ty') && |TypeArguments(ty')| > 0 {
      var cs := seq(|ty'.args|, i requires 0 <= i < |ty'.args| => StripArrays(ty'.args[i]));
      var i :| 0 <= i < |cs| && cs[i] == c;
      assert c == StripArrays(ty'.args[i]);
    }
  }

  /** A closure is contained in any set of types closed under the child rule
      that holds the root. */
  lemma ClosureWithin(u: Universe, walk: Walk, root: HostType, s: seq<HostType>, x: HostType)
    requires root in s
    requires forall y, c :: y in s && c in Children(u, walk, y) ==> c in s
    requires x in AllNestedTypes(u, walk, root)
    ensures x in s
  {
    AllNestedTypesCharacterized(u, walk, root, x);
    ReachableStaysIn(u, walk, s, root, x);
  }

  lemma TwoElements<T>(r: seq<T>, a: T, b: T)
    requires NoDup(r) && |r| > 0 && r[0] == a && b in r && a != b
    requires forall x :: x in r ==> x == a || x == b
    ensures r == [a, b]
  {
    assert (set x | x in r) == {a, b};
    NoDupCardinality(r);
    assert r[1] in r && r[1] != r[0];
  }

  /** From one of two types whose children stay among themselves, only those
      two types are reachable. */
  lemma ReachableWithinTwo(u: Universe, walk: Walk, ta: HostType, tb: HostType, x: HostType)
    requires forall c :: c in Children(u, walk, ta) ==> c == ta || c == tb
    requires forall c :: c in Children(u, walk, tb) ==> c == ta || c == tb
    requires Reachable(u, walk, ta, x)
    ensures x == ta || x == tb
  {
    Graphs.ReachableInPair(Edges(u, walk), ta, tb, x);
  }

  /** Two distinct kept types whose children stay among themselves, the
      second a child of the first, close to exactly `[a, b]`. */
  lemma ClosureOfTwo(u: Universe, walk: Walk, ta: HostType, tb: HostType)
    requires IsKept(ta) && IsKept(tb) && ta != tb
    requires tb in Children(u, walk, ta)
    requires forall c :: c in Children(u, walk, ta) ==> c == ta || c == tb
    requires forall c :: c in Children(u, walk, tb) ==> c == ta || c == tb
    ensures AllNestedTypes(u, walk, ta) == [ta, tb]
  {
    var r := AllNestedTypes(u, walk, ta);
    forall x | x in r ensures x == ta || x == tb {
      AllNestedTypesCharacterized(u, walk, ta, x);
      ReachableWithinTwo(u, walk, ta, tb, x);
    }
    ReachableChild(u, walk, ta, tb);
    AllNestedTypesCharacterized(u, walk, ta, tb);
    TwoElements(r, ta, tb);
  }

  /** Two classes `A` (with a property of type `B[]`) and `B`. */
  function ArrayExample(a: DeclInfo, b: DeclInfo): Universe {
    Universe(map[Declared(a) := [Property("Items", ArrayOf(Declared(b)), true)]], map[])
  }

  predicate PlainClass(d: DeclInfo) {
    d.kind == Class && !d.isGenericDefinition
  }

  lemma ArrayExampleChildren(a: DeclInfo, b: DeclInfo)
    requires PlainClass(a) && PlainClass(b) && a != b
    ensures Children(ArrayExample(a, b), AsWritten, Declared(a)) == [ArrayOf(Declared(b))]
    ensures Children(ArrayExample(a, b), AsWritten, ArrayOf(Declared(b))) == []
  {
    var u := ArrayExample(a, b);
    var ta, tb := Declared(a), Declared(b);
    assert PropertiesOf(u, ta) == [Property("Items", ArrayOf(tb), true)];
    OneProperty(AsWritten, Property("Items", ArrayOf(tb), true));
    TablePropertiesHaveNoChildren(AsWritten, ArrayProperties);
  }

  /** A child whose own children lead nowhere but back to the root ends the
      walk: the closure of the root never holds a type other than the two. */
  lemma DeadEndChild(u: Universe, walk: Walk, ta: HostType, tc: HostType, x: HostType)
    requires Children(u, walk, ta) == [tc] && Children(u, walk, tc) == []
    requires x != ta && x != tc
    ensures x !in AllNestedTypes(u, walk, ta)
  {
    DeadEndUnreachable(u, walk, ta, tc, x);
    AllNestedTypesCharacterized(u, walk, ta, x);
  }

  lemma DeadEndUnreachable(u: Universe, walk: Walk, ta: HostType, tc: HostType, x: HostType)
    requires Children(u, walk, ta) == [tc] && Children(u, walk, tc) == []
    requires x != ta && x != tc
    ensures !Reachable(u, walk, ta, x)
  {
    Graphs.DeadEnd(Edges(u, walk), ta, tc, x);
  }

  /** As written, a property of type `B[]` sends the walk into the array type
      itself: `B[]` is a class outside the table, so it lands in the closure,
      while `B` is never reached (the array's own properties are all table
      types). */
  lemma ArrayPropertyAsWritten(a: DeclInfo, b: DeclInfo)
    requires PlainClass(a) && PlainClass(b) && a != b
    ensures ArrayOf(Declared(b)) in GetAllNestedTypes(ArrayExample(a, b), Declared(a))
    ensures Declared(b) !in GetAllNestedTypes(ArrayExample(a, b), Declared(a))
  {
    var u := ArrayExample(a, b);
    var ta, tb := Declared(a), Declared(b);
    ArrayExampleChildren(a, b);
    ReachableChild(u, AsWritten, ta, ArrayOf(tb));
    AllNestedTypesCharacterized(u, AsWritten, ta, ArrayOf(tb));
    DeadEndChild(u, AsWritten, ta, ArrayOf(tb), tb);
  }

  /** With element-aware children the same universe yields `A` and then `B`. */
  lemma ArrayPropertyElementAware(a: DeclInfo, b: DeclInfo)
    requires PlainClass(a) && PlainClass(b) && a != b
    ensures AllNestedTypes(ArrayExample(a, b), ElementAware, Declared(a)) == [Declared(a), Declared(b)]
  {
    var u := ArrayExample(a, b);
    var ta, tb := Declared(a), Declared(b);
    assert PropertiesOf(u, ta) == [Property("Items", ArrayOf(tb), true)];
    OneProperty(ElementAware, Property("Items", ArrayOf(tb), true));
    assert StripArrays(ArrayOf(tb)) == tb;
    assert Children(u, ElementAware, ta) == [tb];
    assert PropertiesOf(u, tb) == [];
    assert Children(u, ElementAware, tb) == [];
    ClosureOfTwo(u, ElementAware, ta, tb);
  }

  lemma ElementAwareChildrenAreNotArrays(u: Universe, t: HostType, c: HostType)
    requires c in Children(u, ElementAware, t)
    ensures !c.ArrayOf?
  {
    var ps := PropertiesOf(u, t);
    PropertiesChildrenFrom(ElementAware, ps, c);
    var i :| 0 <= i < |ps| && c in PropertyChildren(ElementAware, ps[i].ty);
    ElementAwarePropertyChildren(ps[i].ty, c);
  }

  /** The element-aware closure never holds an array type other than the root. */
  lemma ElementAwareHasNoArrays(u: Universe, root: HostType, x: HostType)
    requires x in AllNestedTypes(u, ElementAware, root) && x != root
    ensures !x.ArrayOf?
  {
    AllNestedTypesCharacterized(u, ElementAware, root, x);
    var y := Graphs.LastStep(Edges(u, ElementAware), root, x);
    EdgesAreChildren(u, ElementAware);
    ElementAwareChildrenAreNotArrays(u, y, x);
  }

  /** The element-aware closure reaches through array-typed properties: the
      element class of an array property of any type in the closure is in it. */
  lemma ElementAwareReachesArrayElements(u: Universe, root: HostType, x: HostType, i: nat)
    requires x in AllNestedTypes(u, ElementAware, root)
    requires i < |PropertiesOf(u, x)| && PropertiesOf(u, x)[i].ty.ArrayOf?
    requires var e := StripArrays(PropertiesOf(u, x)[i].ty); IsKept(e) && !IsGenericType(e)
    ensures StripArrays(PropertiesOf(u, x)[i].ty) in AllNestedTypes(u, ElementAware, root)
  {
    var ps := PropertiesOf(u, x);
    var e := StripArrays(ps[i].ty);
    assert PropertyChildren(ElementAware, ps[i].ty) == [e];
    PropertiesChildrenContains(ElementAware, ps, i, e);
    AllNestedTypesCharacterized(u, ElementAware, root, x);
    ReachableExtend(u, ElementAware, root, x, e);
    AllNestedTypesCharacterized(u, ElementAware, root, e);
  }

  lemma {:induction false} PropertiesChildrenContains(walk: Walk, ps: seq<Property>, i: nat, c: HostType)
    requires i < |ps| && c in PropertyChildren(walk, ps[i].ty)
    ensures c in PropertiesChildren(walk, ps)
    decreases i
  {
    if i > 0 {
      assert ps[1..][i - 1] == ps[i];
      PropertiesChildrenContains(walk, ps[1..], i - 1, c);
    }
  }

  // ---------------------------------------------------------------------------
  // Cycles
  // ---------------------------------------------------------------------------

  /** `A` refers to `B` and `B` refers back to `A`. */
  function CycleExample(a: DeclInfo, b: DeclInfo): Universe {
    Universe(map[Declared(a) := [Property("B", Declared(b), true)],
                 Declared(b) := [Property("A", Declared(a), true)]], map[])
  }

  /** A cyclic reference graph terminates with each type exactly once. */
  lemma CycleVisitsEachOnce(a: DeclInfo, b: DeclInfo)
    requires PlainClass(a) && PlainClass(b) && a != b
    ensures GetAllNestedTypes(CycleExample(a, b), Declared(a)) == [Declared(a), Declared(b)]
  {
    var u := CycleExample(a, b);
    var ta, tb := Declared(a), Declared(b);
    assert PropertiesOf(u, ta) == [Property("B", tb, true)];
    assert PropertiesOf(u, tb) == [Property("A", ta, true)];
    OneProperty(AsWritten, Property("B", tb, true));
    OneProperty(AsWritten, Property("A", ta, true));
    assert Children(u, AsWritten, ta) == [tb];
    assert Children(u, AsWritten, tb) == [ta];
    ClosureOfTwo(u, AsWritten, ta, tb);
  }
}

=== FILE: seqs.dfy ===
/** Sequence helpers for LINQ operators the generator uses: `Distinct`
    (first occurrence kept, order preserved) and duplicate-freedom. */
module Seqs {

  predicate NoDup<T(==)>(s: seq<T>) {
    forall i, j :: 0 <= i < j < |s| ==> s[i] != s[j]
  }

  /** `Enumerable.Distinct`: keeps the first occurrence of every element. */
  function Distinct<T(==)>(s: seq<T>): (r: seq<T>)
    ensures NoDup(r)
    ensures forall i :: 0 <= i < |r| ==> r[i] in s
    ensures forall i :: 0 <= i < |s| ==> s[i] in r
    decreases |s|
  {
    if |s| == 0 then []
    else
      var init := s[..|s| - 1];
      var d := Distinct(init);
      assert s == init + [s[|s| - 1]];
      if s[|s| - 1] in d then d else d + [s[|s| - 1]]
  }

  /** The first element survives `Distinct` in first position. */
  lemma {:induction false} DistinctKeepsHead<T>(s: seq<T>)
    requires |s| > 0
    ensures |Distinct(s)| > 0 && Distinct(s)[0] == s[0]
    decreases |s|
  {
    if |s| > 1 {
      DistinctKeepsHead(s[..|s| - 1]);
    }
  }

  /** A duplicate-free sequence is its own `Distinct`. */
  lemma {:induction false} DistinctOfNoDup<T>(s: seq<T>)
    requires NoDup(s)
    ensures Distinct(s) == s
    decreases |s|
  {
    if |s| > 0 {
      var init := s[..|s| - 1];
      assert NoDup(init);
      DistinctOfNoDup(init);
      assert s[|s| - 1] !in init;
      assert s == init + [s[|s| - 1]];
    }
  }

  /** A duplicate-free sequence has as many elements as its element set. */
  lemma {:induction false} NoDupCardinality<T>(s: seq<T>)
    requires NoDup(s)
    ensures |set x | x in s| == |s|
    decreases |s|
  {
    if |s| > 0 {
      var tail := s[1..];
      assert NoDup(tail);
      NoDupCardinality(tail);
      assert forall k :: 0 <= k < |tail| ==> tail[k] == s[k + 1];
      assert s[0] !in tail;
      assert (set x | x in s) == {s[0]} + (set x | x in tail);
    }
  }
}

=== FILE: text.dfy ===
/** String operations of the .NET base library that the generator relies on,
    stated over `seq<char>`: white-space tests and `Trim`, ordinal `Contains`,
    `StartsWith`/`EndsWith`, `Replace`, `Split(".").Last()`, joining, and the
    decimal rendering of integers, with `-` for negatives. */
module Text {

  import opened Wrappers

  /** `char.IsWhiteSpace`: the Unicode space separators plus the control
      characters U+0009..U+000D and U+0085. */
  predicate IsWhiteSpace(c: char) {
    c == ' ' || ('\t' <= c <= '\r') || c == '\U{85}' || c == '\U{A0}' || c == '\U{1680}'
    || ('\U{2000}' <= c <= '\U{200A}') || c == '\U{2028}' || c == '\U{2029}' || c == '\U{202F}'
    || c == '\U{205F}' || c == '\U{3000}'
  }

  /** `string.IsNullOrWhiteSpace` for a non-null string. */
  predicate IsBlank(s: string) {
    forall i :: 0 <= i < |s| ==> IsWhiteSpace(s[i])
  }

  predicate StartsWith(s: string, prefix: string) {
    |prefix| <= |s| && s[..|prefix|] == prefix
  }

  predicate EndsWith(s: string, suffix: string) {
    |suffix| <= |s| && s[|s| - |suffix|..] == suffix
  }

  /** Ordinal `string.Contains(string)`. */
  predicate Contains(s: string, pattern: string)
    decreases |s|
  {
    StartsWith(s, pattern) || (|s| > 0 && Contains(s[1..], pattern))
  }

  /** A string lacking the first character of a non-empty pattern does not contain it. */
  lemma {:induction false} NotContainsWithoutFirst(s: string, pattern: string)
    requires |pattern| > 0 && pattern[0] !in s
    ensures !Contains(s, pattern)
    decreases |s|
  {
    assert |pattern| <= |s| ==> s[..|pattern|][0] == s[0];
    if |s| > 0 {
      NotContainsWithoutFirst(s[1..], pattern);
    }
  }

  /** `string.TrimStart()`: drops the leading white space. */
  function TrimStart(s: string): (r: string)
    ensures |r| <= |s| && r == s[|s| - |r|..]
    ensures IsBlank(s[..|s| - |r|])
    ensures r == [] || !IsWhiteSpace(r[0])
    decreases |s|
  {
    if |s| > 0 && IsWhiteSpace(s[0]) then
      var r := TrimStart(s[1..]);
      BlankCons(s[0], s[1..][..|s| - 1 - |r|]);
      assert s[..|s| - |r|] == [s[0]] + s[1..][..|s| - 1 - |r|];
      r
    else s
  }

  lemma BlankCons(c: char, s: string)
    requires IsWhiteSpace(c) && IsBlank(s)
    ensures IsBlank([c] + s) && IsBlank(s + [c])
  {
    assert forall i :: 0 < i <= |s| ==> ([c] + s)[i] == s[i - 1];
    assert forall i :: 0 <= i < |s| ==> (s + [c])[i] == s[i];
  }

  /** `string.TrimEnd()`: drops the trailing white space. */
  function TrimEnd(s: string): (r: string)
    ensures |r| <= |s| && r == s[..|r|]
    ensures IsBlank(s[|r|..])
    ensures r == [] || !IsWhiteSpace(r[|r| - 1])
    decreases |s|
  {
    if |s| > 0 && IsWhiteSpace(s[|s| - 1]) then
      var r := TrimEnd(s[..|s| - 1]);
      BlankCons(s[|s| - 1], s[..|s| - 1][|r|..]);
      assert s[|r|..] == s[..|s| - 1][|r|..] + [s[|s| - 1]];
      r
    else s
  }

  /** `string.Trim()`: the result is the slice of `s` left after removing
      white space at both ends, and it neither starts nor ends with white space. */
  function Trim(s: string): (r: string)
    ensures exists i :: 0 <= i <= |s| - |r| && r == s[i..i + |r|]
                        && IsBlank(s[..i]) && IsBlank(s[i + |r|..])
    ensures r == [] || (!IsWhiteSpace(r[0]) && !IsWhiteSpace(r[|r| - 1]))
  {
    var a := TrimStart(s);
    var r := TrimEnd(a);
    var i := |s| - |a|;
    assert r == s[i..i + |r|];
    assert s[i + |r|..] == a[|r|..];
    r
  }

  /** A blank string trims to the empty string and a non-blank one does not. */
  lemma TrimEmptyIffBlank(s: string)
    ensures Trim(s) == [] <==> IsBlank(s)
  {
    var r := Trim(s);
    var i :| 0 <= i <= |s| - |r| && r == s[i..i + |r|] && IsBlank(s[..i]) && IsBlank(s[i + |r|..]);
    if r == [] {
      forall k | 0 <= k < |s| ensures IsWhiteSpace(s[k]) {
        if k < i { assert s[..i][k] == s[k]; } else { assert s[i..][k - i] == s[k]; }
      }
    } else {
      assert r[0] == s[i];
    }
  }

  /** Trimming is idempotent. */
  lemma TrimIdempotent(s: string)
    ensures Trim(Trim(s)) == Trim(s)
  {
    var r := Trim(s);
    if r != [] {
      assert TrimStart(r) == r;
      assert TrimEnd(r) == r;
    }
  }

  /** `string.Replace(char, char)`. */
  function ReplaceChar(s: string, from: char, to: char): (r: string)
    ensures |r| == |s|
    ensures forall i :: 0 <= i < |s| ==> r[i] == (if s[i] == from then to else s[i])
  {
    seq(|s|, i requires 0 <= i < |s| => if s[i] == from then to else s[i])
  }

  /** `string.Replace(string, string)`: scans left to right and replaces every
      non-overlapping occurrence of `pattern`. .NET rejects an empty pattern. */
  function ReplaceAll(s: string, pattern: string, replacement: string): string
    requires |pattern| > 0
    decreases |s|
  {
    if |s| == 0 then s
    else if StartsWith(s, pattern) then replacement + ReplaceAll(s[|pattern|..], pattern, replacement)
    else [s[0]] + ReplaceAll(s[1..], pattern, replacement)
  }

  /** A string that does not contain the pattern is left unchanged. */
  lemma {:induction false} ReplaceAllAbsent(s: string, pattern: string, replacement: string)
    requires |pattern| > 0 && !Contains(s, pattern)
    ensures ReplaceAll(s, pattern, replacement) == s
    decreases |s|
  {
    if |s| > 0 {
      ReplaceAllAbsent(s[1..], pattern, replacement);
    }
  }

  /** A string that lacks the last character of the pattern is left unchanged. */
  lemma {:induction false} ReplaceAllNoMatch(s: string, pattern: string, replacement: string)
    requires |pattern| > 0 && pattern[|pattern| - 1] !in s
    ensures ReplaceAll(s, pattern, replacement) == s
    decreases |s|
  {
    if |s| > 0 {
      assert |pattern| <= |s| ==> s[..|pattern|][|pattern| - 1] == s[|pattern| - 1];
      ReplaceAllNoMatch(s[1..], pattern, replacement);
    }
  }

  /** Replacement distributes over a concatenation whose right part lacks the
      last character of the pattern: no occurrence can end inside `tail`. */
  lemma {:induction false} ReplaceAllKeepsTail(head: string, tail: string, pattern: string, replacement: string)
    requires |pattern| > 0 && pattern[|pattern| - 1] !in tail
    ensures ReplaceAll(head + tail, pattern, replacement) == ReplaceAll(head, pattern, replacement) + tail
    decreases |head|
  {
    var s := head + tail;
    if |head| == 0 {
      assert s == tail;
      ReplaceAllNoMatch(tail, pattern, replacement);
    } else if StartsWith(s, pattern) {
      assert s[..|pattern|][|pattern| - 1] == s[|pattern| - 1];
      assert head[..|pattern|] == s[..|pattern|];
      assert s[|pattern|..] == head[|pattern|..] + tail;
      ReplaceAllKeepsTail(head[|pattern|..], tail, pattern, replacement);
    } else {
      assert |pattern| <= |head| ==> s[..|pattern|] == head[..|pattern|];
      assert s[1..] == head[1..] + tail;
      ReplaceAllKeepsTail(head[1..], tail, pattern, replacement);
    }
  }

  /** A prefix lacking the first character of the pattern passes through unchanged. */
  lemma {:induction false} ReplaceAllKeepsPrefix(prefix: string, rest: string, pattern: string, replacement: string)
    requires |pattern| > 0 && pattern[0] !in prefix
    ensures ReplaceAll(prefix + rest, pattern, replacement) == prefix + ReplaceAll(rest, pattern, replacement)
    decreases |prefix|
  {
    if |prefix| > 0 {
      var s := prefix + rest;
      assert s[0] == prefix[0];
      assert !StartsWith(s, pattern);
      assert s[1..] == prefix[1..] + rest;
      ReplaceAllKeepsPrefix(prefix[1..], rest, pattern, replacement);
    } else {
      assert prefix + rest == rest;
    }
  }

  /** `s` with every occurrence of `c` deleted, character by character. */
  function Without(s: string, c: char): (r: string)
    ensures c !in r
    ensures c !in s ==> r == s
  {
    if |s| == 0 then []
    else
      var rest := Without(s[1..], c);
      if s[0] == c then rest else [s[0]] + rest
  }

  /** Deleting `c` keeps every other character as often as it occurred. */
  lemma {:induction false} WithoutCounts(s: string, c: char)
    ensures multiset(Without(s, c)) == multiset(s)[c := 0]
    decreases |s|
  {
    if |s| > 0 {
      WithoutCounts(s[1..], c);
      assert s == [s[0]] + s[1..];
    }
  }

  /** Replacing a one-character pattern by nothing deletes that character. */
  lemma {:induction false} ReplaceAllDeletesChar(s: string, c: char)
    ensures ReplaceAll(s, [c], "") == Without(s, c)
    decreases |s|
  {
    if |s| > 0 {
      ReplaceAllDeletesChar(s[1..], c);
      assert StartsWith(s, [c]) <==> s[0] == c;
    }
  }

  /** `s.Split(sep).Last()`: the part after the last separator, or `s` itself. */
  function LastSegment(s: string, sep: char): (r: string)
    ensures sep !in r
    ensures EndsWith(s, r)
    ensures r == s || s[|s| - |r| - 1] == sep
  {
    if |s| == 0 then s
    else if s[|s| - 1] == sep then []
    else
      var r := LastSegment(s[..|s| - 1], sep);
      assert s[..|s| - 1][|s| - 1 - |r|..] == s[|s| - 1 - |r|..|s| - 1];
      r + [s[|s| - 1]]
  }

  /** The text between a known prefix and a known suffix, if `s` has both. */
  function StripAffixes(s: string, prefix: string, suffix: string): (r: Option<string>)
    ensures r.Some? ==> s == prefix + r.value + suffix
  {
    if |prefix| + |suffix| <= |s| && s[..|prefix|] == prefix && s[|s| - |suffix|..] == suffix then
      assert s == prefix + s[|prefix|..|s| - |suffix|] + suffix;
      Some(s[|prefix|..|s| - |suffix|])
    else
      None
  }

  /** `StripAffixes` fails only when no middle part fits. */
  lemma StripAffixesNone(s: string, prefix: string, suffix: string, m: string)
    requires StripAffixes(s, prefix, suffix) == None
    ensures s != prefix + m + suffix
  {
    if s == prefix + m + suffix {
      StripAffixesOf(prefix, m, suffix);
    }
  }

  lemma StripAffixesOf(prefix: string, m: string, suffix: string)
    ensures StripAffixes(prefix + m + suffix, prefix, suffix) == Some(m)
  {
    var s := prefix + m + suffix;
    assert s[..|prefix|] == prefix;
    assert s[|s| - |suffix|..] == suffix;
    assert s[|prefix|..|s| - |suffix|] == m;
  }

  /** The text before the first space, and the text after it. */
  function SplitAtSpace(s: string): (r: (string, string))
    ensures ' ' !in r.0
    ensures s == r.0 + r.1
    ensures r.1 == [] || r.1[0] == ' '
  {
    if |s| == 0 || s[0] == ' ' then ([], s)
    else
      var rest := SplitAtSpace(s[1..]);
      assert s == [s[0]] + rest.0 + rest.1;
      ([s[0]] + rest.0, rest.1)
  }

  lemma {:induction false} SplitAtSpaceOf(word: string, rest: string)
    requires ' ' !in word && (rest == [] || rest[0] == ' ')
    ensures SplitAtSpace(word + rest) == (word, rest)
    decreases |word|
  {
    if |word| == 0 {
      assert word + rest == rest;
    } else {
      var s := word + rest;
      assert s[0] == word[0];
      assert s[1..] == word[1..] + rest;
      SplitAtSpaceOf(word[1..], rest);
      assert [word[0]] + word[1..] == word;
    }
  }

  /** `string.Join(sep, parts)`. */
  function Join(parts: seq<string>, sep: string): string {
    if |parts| == 0 then ""
    else if |parts| == 1 then parts[0]
    else parts[0] + sep + Join(parts[1..], sep)
  }

  predicate IsDigit(c: char) {
    '0' <= c <= '9'
  }

  predicate AllDigits(s: string) {
    forall i :: 0 <= i < |s| ==> IsDigit(s[i])
  }

  function DigitChar(d: nat): (c: char)
    requires d < 10
    ensures IsDigit(c) && c as int - '0' as int == d
  {
    "0123456789"[d]
  }

  /** Decimal rendering of a natural number, most significant digit first. */
  function NatToString(n: nat): (r: string)
    ensures |r| > 0 && AllDigits(r)
    decreases n
  {
    if n < 10 then [DigitChar(n)]
    else
      var r := NatToString(n / 10) + [DigitChar(n % 10)];
      assert forall i :: 0 <= i < |r| - 1 ==> r[i] == NatToString(n / 10)[i];
      r
  }

  /** `int.ToString()`: decimal digits, with `-` for negatives. */
  function IntToString(n: int): string {
    if n < 0 then "-" + NatToString(-n) else NatToString(n)
  }

  function DigitsValue(s: string): nat
    requires AllDigits(s)
  {
    if |s| == 0 then 0 else DigitsValue(s[..|s| - 1]) * 10 + (s[|s| - 1] as int - '0' as int)
  }

  /** Reads back a decimal integer: an optional minus sign and at least one digit. */
  function ParseInt(s: string): Option<int>
  {
    if |s| > 1 && s[0] == '-' && AllDigits(s[1..]) then Some(0 - DigitsValue(s[1..]))
    else if |s| > 0 && AllDigits(s) then Some(DigitsValue(s))
    else None
  }

  lemma {:induction false} NatToStringValue(n: nat)
    ensures DigitsValue(NatToString(n)) == n
    decreases n
  {
    var s := NatToString(n);
    if n >= 10 {
      NatToStringValue(n / 10);
      assert s[..|s| - 1] == NatToString(n / 10);
    }
  }

  /** Rendering an integer and reading it back gives the integer. */
  lemma IntToStringRoundTrip(n: int)
    ensures ParseInt(IntToString(n)) == Some(n)
  {
    if n < 0 {
      var d := NatToString(-n);
      NatToStringValue(-n);
      var s := "-" + d;
      assert s[1..] == d;
    } else {
      NatToStringValue(n);
      assert !IsDigit('-');
      assert IsDigit(NatToString(n)[0]);
    }
  }
}

=== FILE: type_mapper.dfy ===
/** The mapping from a property's declared type to the script-side type
    expression: element and nullable detection, the `[]` / `|null` suffix,
    the three-step conversion cascade, and the constructor default chosen
    from the converted name. */
module TypeMapper {

  import opened Wrappers
  import opened Text
  import opened HostTypes

  /** Keywords of the conversion table. */
  const Keywords: set<string> := {"string", "number", "boolean", "any", "void", "datetime"}

  /** Constructor defaults for the table keywords. */
  const InitValues: map<string, string> := map[
    "string" := "\"\"",
    "number" := "0",
    "boolean" := "false",
    "void" := "null",
    "datetime" := "\"\"",
    "any" := "new Object()"
  ]

  const DictionaryPrefix := "{ [key: "
  const DictionaryMarker := "{ [key:"

  /** Every table hit yields a keyword, and every keyword has a default. */
  lemma TableKeywordsHaveDefaults(t: HostType)
    requires InTable(t)
    ensures TableKeyword(t).value in Keywords
    ensures TableKeyword(t).value in InitValues
  {
  }

  /** The element type of an array, or the first type argument of a constructed
      generic assignable to `IEnumerable` of that argument; nothing otherwise. */
  function ArrayOrEnumerableElement(t: HostType): (r: Option<HostType>)
    ensures r.Some? <==> t.ArrayOf? || (t.Constructed? && |t.args| > 0 && EnumerableOf(t.args[0], t))
    ensures r.Some? ==> (t.ArrayOf? && r.value == t.elem) || EnumerableOf(r.value, t)
    ensures r.Some? ==> r.value < t
  {
    if t.ArrayOf? then Some(t.elem)
    else if t.Constructed? && |t.args| > 0 && EnumerableOf(t.args[0], t) then Some(t.args[0])
    else None
  }

  /** The inner type of `Nullable<a>` when `a` is a value type; nothing otherwise. */
  function NullableInner(t: HostType): (r: Option<HostType>)
    ensures r.Some? <==> t.Constructed? && |t.args| > 0 && IsValueType(t.args[0]) && NullableOf(t.args[0], t)
    ensures r.Some? ==> NullableOf(r.value, t) && IsValueType(r.value) && r.value < t
  {
    if t.Constructed? && |t.args| > 0 && IsValueType(t.args[0]) && NullableOf(t.args[0], t) then Some(t.args[0])
    else None
  }

  /** The `struct` constraint of `Nullable<T>`: `T` is a value type and not
      itself a nullable. */
  predicate MeetsStructConstraint(a: HostType) {
    IsValueType(a) && !(a.Constructed? && a.def == NullableDef)
  }

  /** `GetNullableType` as it runs: for a value-type first argument it builds
      `Nullable<argument>`, which throws when the argument breaks the `struct`
      constraint; otherwise it answers as `NullableInner`. The failure carries
      the rejected argument. */
  function NullableProbe(t: HostType): (r: Result<Option<HostType>, HostType>)
    ensures r.Failure? <==> t.Constructed? && |t.args| > 0 && t.args[0].Constructed? && t.args[0].def == NullableDef
    ensures r.Failure? ==> r.error == t.args[0]
    ensures r.Success? ==> r.value == NullableInner(t)
  {
    if t.Constructed? && |t.args| > 0 && IsValueType(t.args[0]) && !MeetsStructConstraint(t.args[0]) then
      Failure(t.args[0])
    else
      Success(NullableInner(t))
  }

  /** `int?` itself is answered, while a collection of `int?` makes the probe
      throw, as does a dictionary keyed by `int?`. */
  lemma NullableProbeExamples(list: GenericDef, dict: GenericDef)
    requires list != NullableDef
    ensures NullableProbe(Constructed(NullableDef, [Table(Int32)])) == Success(Some(Table(Int32)))
    ensures NullableProbe(Constructed(list, [Constructed(NullableDef, [Table(Int32)])])).Failure?
    ensures NullableProbe(Constructed(dict, [Constructed(NullableDef, [Table(Int32)]), Table(String)])).Failure?
    ensures NullableProbe(Constructed(list, [Table(Int32)])) == Success(None)
  {
  }

  /** `Nullable<>` is not enumerable, so the two detections never both succeed. */
  lemma NullableIsNotEnumerable(t: HostType)
    ensures NullableInner(t).Some? ==> ArrayOrEnumerableElement(t).None?
  {
  }

  /** The type handed to the conversion: the nullable inner type, else the
      array or enumerable element, else the declared type. */
  function ElementType(t: HostType): (r: HostType)
    ensures r == t || r < t
    ensures NullableInner(t).Some? ==> NullableOf(r, t)
    ensures NullableInner(t).None? && ArrayOrEnumerableElement(t).Some? ==> r == ArrayOrEnumerableElement(t).value
  {
    match NullableInner(t)
    case Some(n) => n
    case None => ArrayOrEnumerableElement(t).GetOr(t)
  }

  /** The suffix after the converted name: `[]` for an array or enumerable,
      then overwritten by `|null` for a nullable value type. */
  function Suffix(t: HostType): (r: string)
    ensures r == "" || r == "[]" || r == "|null"
    ensures r == "|null" <==> NullableInner(t).Some?
    ensures r == "[]" <==> ArrayOrEnumerableElement(t).Some? && NullableInner(t).None?
  {
    var arrayType := ArrayOrEnumerableElement(t);
    var nullableType := NullableInner(t);
    var suffix := "";
    var suffix := if arrayType.Some? then "[]" else suffix;
    var suffix := if nullableType.Some? then "|null" else suffix;
    suffix
  }

  /** The suffix is empty exactly when the declared type is used unchanged. */
  lemma SuffixEmptyIffUnwrapped(t: HostType)
    ensures Suffix(t) == "" <==> ElementType(t) == t
  {
  }

  predicate IsDictionary(t: HostType) {
    t.Constructed? && t.def == IDictionaryDef && |t.args| == 2
  }

  /** `ConvertType`: a table hit gives its keyword; a constructed
      `IDictionary<K, V>` gives an index-signature literal over the converted
      `K` and `V`; anything else gives the bare type name. */
  function ConvertType(t: HostType): string
    decreases t
  {
    if InTable(t) then TableKeyword(t).value
    else if IsDictionary(t) then
      DictionaryPrefix + ConvertType(t.args[0]) + "]: " + ConvertType(t.args[1]) + " }"
    else Name(t)
  }

  /** A type name that cannot be mistaken for a keyword or an index signature. */
  predicate PlainName(n: string) {
    n !in Keywords && !StartsWith(n, "{")
  }

  /** The three outcomes of `ConvertType` can be told apart from its text,
      provided the bare name is plain: a keyword exactly for table hits, an
      index-signature literal exactly for `IDictionary<,>`, the name otherwise. */
  lemma ConvertTypeCases(t: HostType)
    requires PlainName(Name(t))
    ensures ConvertType(t) in Keywords <==> InTable(t)
    ensures StartsWith(ConvertType(t), DictionaryPrefix) <==> !InTable(t) && IsDictionary(t)
    ensures !InTable(t) && !IsDictionary(t) ==> ConvertType(t) == Name(t)
  {
    if !InTable(t) && IsDictionary(t) {
      var r := ConvertType(t);
      assert r[..|DictionaryPrefix|] == DictionaryPrefix;
      assert r[0] == '{';
    }
    if InTable(t) {
      assert TableKeyword(t).value[0] != '{';
    }
  }

  /** Only `IDictionary<,>` itself is inlined: a concrete `Dictionary<string, int>`
      converts to its bare reflection name. */
  lemma OnlyIDictionaryIsInlined()
    ensures ConvertType(Constructed(IDictionaryDef, [Table(String), Table(Int32)])) == "{ [key: string]: number }"
    ensures ConvertType(Constructed(GenericDef("Dictionary`2", "System.Collections.Generic", Class, false),
                                    [Table(String), Table(Int32)])) == "Dictionary`2"
  {
  }

  /** The workaround for delegate names: when the converted text mentions
      `Func`, every back-tick is removed. */
  function AdjustFunc(s: string): (r: string)
    ensures Contains(s, "Func") ==> r == Without(s, '`')
    ensures !Contains(s, "Func") ==> r == s
  {
    if Contains(s, "Func") then
      ReplaceAllDeletesChar(s, '`');
      ReplaceAll(s, "`", "")
    else s
  }

  /** The converted name written after `@type` and used by the constructor. */
  function MappedName(t: HostType): string {
    AdjustFunc(ConvertType(ElementType(t)))
  }

  /** The right-hand side of the constructor line that initialises a property
      of declared type `t`; the first applicable rule wins. */
  function Initializer(t: HostType): string {
    var convertedType := MappedName(t);
    var suffix := Suffix(t);
    if suffix == "[]" then suffix
    else if convertedType in InitValues then InitValues[convertedType]
    else if Contains(convertedType, DictionaryMarker) then "new Object()"
    else "new " + convertedType + "()"
  }

  /** The default a property receives follows the kind of its element type:
      an empty array for arrays and enumerables, the registered default for
      table types, a fresh object for `IDictionary<,>`, and a constructor call
      otherwise. The last rule needs the adjusted name to collide with neither
      a keyword nor the index-signature marker. */
  lemma InitializerByKind(t: HostType)
    ensures Suffix(t) == "[]" ==> Initializer(t) == "[]"
    ensures Suffix(t) != "[]" && InTable(ElementType(t)) ==>
              Initializer(t) == InitValues[TableKeyword(ElementType(t)).value]
    ensures Suffix(t) != "[]" && !InTable(ElementType(t)) && IsDictionary(ElementType(t)) ==>
              Initializer(t) == "new Object()"
    ensures Suffix(t) != "[]" && !InTable(ElementType(t)) && !IsDictionary(ElementType(t))
            && AdjustFunc(Name(ElementType(t))) !in InitValues
            && !Contains(AdjustFunc(Name(ElementType(t))), DictionaryMarker) ==>
              Initializer(t) == "new " + AdjustFunc(Name(ElementType(t))) + "()"
  {
    var e := ElementType(t);
    if Suffix(t) != "[]" && !InTable(e) && IsDictionary(e) {
      DictionaryMapped(e);
    }
    if Suffix(t) != "[]" && InTable(e) {
      TableMapped(e);
    }
  }

  /** An `IDictionary<,>` maps to an index-signature literal, with or without
      the back-tick workaround: never a registered default, always the marker. */
  lemma DictionaryMapped(e: HostType)
    requires !InTable(e) && IsDictionary(e)
    ensures AdjustFunc(ConvertType(e)) !in InitValues
    ensures Contains(AdjustFunc(ConvertType(e)), DictionaryMarker)
  {
    var c := ConvertType(e);
    var rest := ConvertType(e.args[0]) + "]: " + ConvertType(e.args[1]) + " }";
    assert c == DictionaryPrefix + rest;
    var a := AdjustFunc(c);
    if Contains(c, "Func") {
      ReplaceAllKeepsPrefix(DictionaryPrefix, rest, "`", "");
    }
    assert StartsWith(a, DictionaryPrefix);
    assert a[..|DictionaryMarker|] == DictionaryMarker;
    assert Contains(a, DictionaryMarker);
    assert a[0] == '{';
  }

  /** A table type maps to its keyword, which the back-tick workaround leaves alone. */
  lemma TableMapped(e: HostType)
    requires InTable(e)
    ensures AdjustFunc(ConvertType(e)) == TableKeyword(e).value
  {
    NotContainsWithoutFirst(ConvertType(e), "Func");
  }
}

=== FILE: type_selector.dfy ===
/** Root selection: the public, concrete, non-generic types of the assembly
    that have members and whose namespace contains a marker (`.ViewModels`
    for models, `.Enums` for enumerations), passed through the wrapper
    unwrapping and the primitive filter, without duplicates. */
module TypeSelector {

  import opened Wrappers
  import opened Text
  import opened Seqs
  import opened HostTypes

  const ViewModelsMarker := ".ViewModels"
  const EnumsMarker := ".Enums"

  /** A constructed generic that is unwrapped: `Task<A>`, or a generic
      assignable to `IEnumerable<A>` for its first argument `A`. */
  predicate IsWrapper(t: HostType) {
    t.Constructed? && |t.args| > 0 && (t.def == TaskDef || EnumerableOf(t.args[0], t))
  }

  /** `t` is a nest of wrappers around the non-constructed type `e`: each
      wrapper's first argument is the next wrapper, and the innermost one's
      first argument is `e`. */
  ghost predicate UnwrapsTo(t: HostType, e: HostType)
    decreases t
  {
    IsWrapper(t) && (if t.args[0].Constructed? then UnwrapsTo(t.args[0], e) else e == t.args[0])
  }

  /** `t` unwraps to some non-constructed type. */
  ghost predicate Unwraps(t: HostType) {
    exists e :: UnwrapsTo(t, e)
  }

  /** `ReplaceByGenericArgument`: an array gives its element type; a type that
      is not a constructed generic is kept; a constructed `Task<A>` or a
      generic enumerable of its first argument `A` is replaced by `A`,
      unwrapping further while `A` is itself constructed; any other
      constructed generic is rejected. */
  function ReplaceByGenericArgument(t: HostType): (r: (bool, HostType))
    ensures r.1 == t || r.1 < t
    ensures !t.ArrayOf? && !t.Constructed? ==> r == (true, t)
    ensures t.ArrayOf? ==> r == (true, t.elem)
    ensures t.Constructed? && r.0 ==> !r.1.Constructed?
    ensures !r.0 ==> r.1.Constructed? && !IsWrapper(r.1)
    ensures t.Constructed? ==> (r.0 <==> Unwraps(t))
    ensures t.Constructed? && r.0 ==> UnwrapsTo(t, r.1)
    decreases t
  {
    if t.ArrayOf? then (true, t.elem)
    else if !t.Constructed? then (true, t)
    else if |t.args| == 0 then (false, t)
    else
      var genericArgument := t.args[0];
      var isTask := t.def == TaskDef;
      var isEnumerable := EnumerableOf(genericArgument, t);
      if !isTask && !isEnumerable then (false, t)
      else if genericArgument.Constructed? then
        var r := ReplaceByGenericArgument(genericArgument);
        UnwrapsThrough(t, r.0, r.1);
        r
      else
        UnwrapsToArgument(t);
        (true, genericArgument)
  }

  /** A wrapper whose argument is not constructed unwraps to that argument. */
  lemma UnwrapsToArgument(t: HostType)
    requires IsWrapper(t) && !t.args[0].Constructed?
    ensures Unwraps(t) && UnwrapsTo(t, t.args[0])
  {
    assert UnwrapsTo(t, t.args[0]);
  }

  /** An outer wrapper around a constructed argument unwraps to what the
      argument unwraps to. */
  lemma UnwrapsThrough(t: HostType, found: bool, e: HostType)
    requires IsWrapper(t) && t.args[0].Constructed?
    requires found <==> Unwraps(t.args[0])
    requires found ==> UnwrapsTo(t.args[0], e)
    ensures found <==> Unwraps(t)
    ensures found ==> UnwrapsTo(t, e)
  {
    forall x
      ensures UnwrapsTo(t, x) == UnwrapsTo(t.args[0], x)
    {
    }
  }

  /** `Task<List<Foo>>` unwraps to `Foo`; a `Dictionary<,>` is rejected. */
  lemma ReplaceByGenericArgumentExamples(foo: HostType, list: GenericDef, dict: GenericDef)
    requires !foo.Constructed? && !foo.ArrayOf?
    requires list.enumeratesFirstArg && !dict.enumeratesFirstArg && dict != TaskDef
    ensures ReplaceByGenericArgument(Constructed(TaskDef, [Constructed(list, [foo])])) == (true, foo)
    ensures ReplaceByGenericArgument(Constructed(dict, [Table(String), foo])) == (false, Constructed(dict, [Table(String), foo]))
  {
  }

  /** The filter applied to every type of the assembly before unwrapping. */
  predicate IsCandidate(u: Universe, info: DeclInfo, marker: string) {
    var t := Declared(info);
    && !IsAbstract(t)
    && info.isVisible
    && !IsGenericType(t)
    && (|PropertiesOf(u, t)| > 0 || info.fieldCount > 0)
    && Contains(info.ns.GetOr(""), marker)
  }

  /** `object`, `string`, `decimal` and `void`, dropped after unwrapping. */
  predicate IsExcluded(t: HostType) {
    t == Table(Object) || t == Table(String) || t == Table(Decimal) || t == Table(Void)
  }

  /** The candidates, unwrapped, in assembly order, before `Distinct`. */
  function Unwrapped(u: Universe, types: seq<DeclInfo>, marker: string): seq<HostType>
    decreases |types|
  {
    if |types| == 0 then []
    else
      var rest := Unwrapped(u, types[1..], marker);
      if IsCandidate(u, types[0], marker) then
        var r := ReplaceByGenericArgument(Declared(types[0]));
        if r.0 && !IsPrimitive(r.1) && !IsExcluded(r.1) then [r.1] + rest else rest
      else rest
  }

  /** The selection shared by `GetViewModelsToConvert` and `GetEnumsToConvert`. */
  function SelectTypes(u: Universe, types: seq<DeclInfo>, marker: string): (r: seq<HostType>)
    ensures NoDup(r)
  {
    Distinct(Unwrapped(u, types, marker))
  }

  function ViewModelsToConvert(u: Universe, types: seq<DeclInfo>): seq<HostType> {
    SelectTypes(u, types, ViewModelsMarker)
  }

  function EnumsToConvert(u: Universe, types: seq<DeclInfo>): seq<HostType> {
    SelectTypes(u, types, EnumsMarker)
  }

  /** Before `Distinct`, the selection is exactly the candidates themselves:
      an assembly type is neither an array nor a constructed generic, so the
      unwrapping keeps it, and a declared type is never primitive or excluded. */
  lemma {:induction false} UnwrappedIsCandidates(u: Universe, types: seq<DeclInfo>, marker: string, x: HostType)
    ensures x in Unwrapped(u, types, marker) <==>
            exists i :: 0 <= i < |types| && x == Declared(types[i]) && IsCandidate(u, types[i], marker)
    decreases |types|
  {
    if |types| > 0 {
      UnwrappedIsCandidates(u, types[1..], marker, x);
      if exists i :: 0 <= i < |types| && x == Declared(types[i]) && IsCandidate(u, types[i], marker) {
        var i :| 0 <= i < |types| && x == Declared(types[i]) && IsCandidate(u, types[i], marker);
        if i > 0 {
          assert x == Declared(types[1..][i - 1]);
        }
      }
      if exists i :: 0 <= i < |types| - 1 && x == Declared(types[1..][i]) && IsCandidate(u, types[1..][i], marker) {
        var i :| 0 <= i < |types| - 1 && x == Declared(types[1..][i]) && IsCandidate(u, types[1..][i], marker);
        assert x == Declared(types[i + 1]);
      }
    }
  }

  /** A type is selected exactly when it is a candidate declared in the
      assembly; the result holds each such type once. */
  lemma SelectTypesCharacterized(u: Universe, types: seq<DeclInfo>, marker: string, x: HostType)
    ensures x in SelectTypes(u, types, marker) <==>
            exists i :: 0 <= i < |types| && x == Declared(types[i]) && IsCandidate(u, types[i], marker)
  {
    UnwrappedIsCandidates(u, types, marker, x);
    var un := Unwrapped(u, types, marker);
    if x in un {
      var k :| 0 <= k < |un| && un[k] == x;
    }
    if x in SelectTypes(u, types, marker) {
      var k :| 0 <= k < |SelectTypes(u, types, marker)| && SelectTypes(u, types, marker)[k] == x;
    }
  }
}

=== FILE: wrappers.dfy ===
/** Failure-compatible wrappers: `Option` for values that may be null in the
    original program and `Result` for operations that may throw. */
module Wrappers {

  datatype Option<+T> = None | Some(value: T) {
    function GetOr(default: T): T {
      match this
      case Some(v) => v
      case None => default
    }
  }

  datatype Result<+T, +E> = Success(value: T) | Failure(error: E)
}
